=== FILE: README.md ===
# uplang/ns function providers, modelled in Dafny

The repository ships small command-line "function providers" for the UPL
language. Each one is a separate Go program with the same plugin protocol:

- it reads one JSON request `{function, params, context}` from standard input;
- it looks the function name up in a fixed table;
- it runs the handler;
- it writes one JSON response `{value, type, error}` to standard output and exits.

A request that does not decode is answered with `Invalid request: <reason>`.
A name the provider does not know is answered with `Unknown function: <name>`.
Every error leaves the process with status 1.

This project models that protocol once (`Protocol`) and six providers on top of it:

- string (`StringProvider`);
- list (`ListProvider`);
- math (`MathProvider`);
- random (`RandomProvider`);
- id (`IdProvider`);
- env (`EnvProvider`).

Supporting modules:

- `Coerce`: the parameter accessors `getString`, `getInt`, `getInt64` and `getFloat64`, including the 64-bit range Go's float-to-int conversion needs;
- `Json`: decoded JSON values and `fmt.Sprint` of a value;
- `ByteStrings`: hexadecimal and decimal text;
- `Utf8`: Go's rune decoding and encoding;
- `GoStrings`: the `strings` functions the handlers call;
- `Slicing`: clamped slicing;
- `Entropy`: the random source.

What the environment supplies becomes an argument:

- the clock (`now`);
- the random source (an `Rng`: the i-th draw below a bound);
- the process environment (a list of `KEY=value` entries);
- whether the final write to standard output succeeded (`written`);
- a few library functions the handlers hand their data to without further logic: Unicode case mapping, `strings.Trim`, `math.Pow`, `math.Sqrt`, `os.ExpandEnv`, and `fmt.Sprint` of composite values and of numbers other than integers of magnitude below 2^53.

Go panics on three kinds of input. Each becomes a precondition of the model:

- a negative slice end;
- a nanoid with a negative size, or with an empty alphabet and a positive size;
- a random int range whose `max - min` overflows int64.

A fourth precondition, `IntConvertible`, keeps integer parameters within int64. Go does not panic on these inputs; see `Coerce.GetInt` under "## Left out".

Points where the source's behaviour is easy to misread:

- math's `getFloat64` turns a parameter of the wrong type into 0. It does not fall back to the default.
- Every provider's `sendError` exits with status 1, even when the error response itself could not be written.
- `value` and `type` are always serialised. Only `error` is omitted when empty.
- env's lookup follows the Go runtime: the first `KEY=` entry of the environment wins. The list loop lets a later entry overwrite an earlier one, but the entries it iterates come from `os.Environ()`, which keeps only the first entry per key. So list agrees with get even when the environment repeats a key.

## Model

| member | source | states |
|---|---|---|
| Protocol.Send | string/main.go:314-333 | An error response carries only the message, with null value and empty type, and exits 1. A result carries value and type name, and exits 0 exactly when the write succeeded (or the provider ignores write failures). |
| Protocol.WireShape | string/main.go:16-20 | The serialised response always has the keys `value` and `type`; `error` appears exactly when there is an error. |
| Protocol.TagNameInjective | string/main.go:314-323 | Distinct result kinds have distinct `type` names, so a client can tell them apart. |
| Protocol.Run | string/main.go:22-79 | A malformed request gives `Invalid request: …`; an unknown name gives `Unknown function: <name>`; a known name runs its handler and sends the outcome. |
| Protocol.RunExclusive | string/main.go:22-79 | Every exit carries either an error or a value, never both, and the status is 1 exactly on an error or a failed write. |
| Protocol.UnknownRunsNothing | string/main.go:68-71 | For an unknown name the handlers are irrelevant: any two handler tables give the same exit, whose error names the function. |
| Protocol.MalformedRunsNothing | string/main.go:24-27 | A request that does not decode is answered without consulting any table or handler. |
| Coerce.GetString | string/main.go:293-300 | A string parameter is returned as given; a missing or non-string parameter gives the default. |
| Coerce.GetInt | string/main.go:302-312 | A number parameter is truncated toward zero into int64 range; a missing or non-number parameter gives the default. |
| Coerce.Trunc | string/main.go:305-306 | Conversion to an integer truncates toward zero, for both signs. |
| Coerce.TruncWhole | list/main.go:185-195 | A whole number converts to itself. |
| Coerce.GetFloat | random/main.go:166-178 | A number parameter is returned as given; otherwise the default. |
| Coerce.MathGetFloat | math/main.go:177-182 | A missing parameter gives the default, a number is returned as given, and any other type gives 0. |
| Coerce.ToFloat64 | math/main.go:198-209 | A number converts to itself and every other value to 0. |
| Coerce.GetList | list/main.go:90-93 | The list accessor succeeds exactly when the parameter is present and is an array, and then yields its items. |
| Coerce.StringMismatchIsAbsence | string/main.go:293-300 | A parameter of the wrong type is treated exactly as if it were absent. |
| Coerce.IntMismatchIsAbsence | string/main.go:302-312 | A non-number integer parameter is treated exactly as if it were absent. |
| Coerce.FloatMismatchIsAbsence | random/main.go:166-178 | A non-number float parameter is treated exactly as if it were absent. |
| Coerce.MathMismatchIsZero | math/main.go:177-209 | In math, a wrong-typed parameter reads as 0, which equals absence only when the default is 0. |
| Coerce.MathAccessorAgreesAtZero | math/main.go:177-182 | With default 0, math's accessor and the other providers' accessor agree on every input. |
| Json.Sprint | list/main.go:97-100 | `fmt.Sprint` prints a string as itself. An integral number of magnitude below 10^6 prints in plain decimal. An integral number from 10^6 up to 2^53 prints in exponent form: the significant digits with a point after the first, then `e+` and at least two exponent digits. |
| Json.ExponentForm | list/main.go:97-100 | The exponent form contains an 'e' and starts with '-' exactly for a negative number. |
| Json.MillionPrintsInExponentForm | list/main.go:97-100 | 1000000 prints as `1e+06` and 1234567 as `1.234567e+06`. |
| Json.LargeIntegerPrintsApart | list/main.go:147-151 | From 10^6 up to 2^53, a whole number prints differently from the string of its digits. |
| Json.NumberPrintsAsDigits | list/main.go:147-151 | An integral number of magnitude below 10^6 and its decimal text print the same, so they compare equal under contains. |
| Json.IntegersPrintApart | list/main.go:147-151 | Two integral numbers that print the same are equal. |
| ByteStrings.HexRoundTrip | random/main.go:133-140 | Hex-encoding bytes and decoding the text gives the bytes back. |
| ByteStrings.HexEncode | random/main.go:133-140 | The encoding is two lower-case hex digits per byte, high nibble first. |
| ByteStrings.HexParseHexNat | id/main.go:66 | The `%x` text of a number parses back to that number. |
| ByteStrings.HexNatWidth | id/main.go:66 | The unpadded `%x` text fits in w digits exactly when the number is below 16^w. |
| ByteStrings.HexPaddedParse | id/main.go:66 | Zero-padding `%0Nx` text preserves its value. |
| ByteStrings.DecimalParseNat | string/main.go:288 | The decimal text of a natural number parses back to it. |
| ByteStrings.DecimalInjective | list/main.go:97-100 | Distinct integers have distinct decimal texts. |
| Utf8.DecodeRune | string/main.go:274 | Decoding the head takes 1 to 4 bytes; an invalid head decodes to U+FFFD consuming one byte. |
| Utf8.Decode | string/main.go:274 | `[]rune(s)` has at most as many runes as s has bytes, and none exactly for the empty string. |
| Utf8.Encode | string/main.go:279 | `string(runes)` takes between one and four bytes per rune. |
| Utf8.DecodeEncode | string/main.go:279 | Encoding runes and decoding the bytes gives the runes back. |
| Utf8.EncodeDecode | string/main.go:274-279 | Valid UTF-8 survives the rune conversion and back. |
| Utf8.RoundTripIffValid | string/main.go:274-279 | A string survives the rune conversion and back exactly when it is valid UTF-8. |
| Utf8.EncodeValid | string/main.go:279 | Re-encoded runes are always valid UTF-8. |
| GoStrings.Index | string/main.go:198-202 | The index found is the first occurrence, and none is reported when the substring never occurs. |
| GoStrings.Contains | string/main.go:198-202 | `strings.Contains` holds exactly when the substring occurs at some position. |
| GoStrings.TrimPrefix | string/main.go:114-124 | When s starts with the prefix, prefix + result is s; otherwise s is unchanged. |
| GoStrings.TrimSuffix | string/main.go:126-136 | When s ends with the suffix, result + suffix is s; otherwise s is unchanged. |
| GoStrings.JoinLength | string/main.go:148-162 | `strings.Join`'s result is as long as all the parts plus one separator between each two neighbours. |
| GoStrings.JoinPlaces | string/main.go:148-162 | Part k of `strings.Join` starts after the k parts before it and k separators; every part but the last is followed by the separator, and the result ends with the last part. |
| GoStrings.SplitOn | string/main.go:138-146 | Splitting at a non-empty separator gives at least one piece. No piece contains the separator. The pieces join back to the original. Each piece but the last runs exactly up to the leftmost occurrence of the separator in the text that is left. |
| GoStrings.Explode | string/main.go:138-146 | Splitting at the empty separator gives one non-empty piece per rune, joining back to the original. |
| GoStrings.ExplodeWidths | string/main.go:138-146 | Each piece of the empty-separator split is exactly the UTF-8 sequence, or lone ill-formed byte, at the head of the text that is left. |
| GoStrings.Split | string/main.go:138-146 | The pieces satisfy `IsSplit`: they join back with the separator; for a non-empty separator none contains it and each but the last ends at the leftmost occurrence; for the empty separator there is one piece per rune. |
| GoStrings.SplitUnique | string/main.go:138-146 | `IsSplit` pins the pieces down: a list of pieces has those properties exactly when it is `strings.Split`'s result. |
| GoStrings.SplitLeftmostExample | string/main.go:138-146 | "aaa" split at "aa" gives "" and "a": the leftmost occurrence is cut, not the rightmost. |
| GoStrings.ReplaceAllIsSplitJoin | string/main.go:179-191 | Replacing every occurrence equals splitting at the target and joining with the replacement. |
| GoStrings.ReplaceIsPartialSplitJoin | string/main.go:164-177 | Replacing the first n occurrences (all of them for negative n) equals joining the first pieces of the split with the replacement and leaving the rest joined with the target. |
| GoStrings.ReplaceNothing | string/main.go:164-177 | Replace leaves s unchanged when n is 0 or the target does not occur. |
| GoStrings.ReplacedCount | string/main.go:175-176 | The number of occurrences replaced never exceeds the number there are. |
| GoStrings.ReplaceSelf | string/main.go:164-177 | Replacing a target by itself leaves the string unchanged, whatever the count. |
| GoStrings.Repeat | string/main.go:251-266 | `strings.Repeat` has length \|s\|·count and holds s at every block. |
| GoStrings.RepeatAt | string/main.go:251-266 | Byte j of block k of the repetition is byte j of s. |
| GoStrings.Rev | string/main.go:274-277 | The swap loop leaves position i holding the element from position n-1-i. |
| GoStrings.Reverse | string/main.go:268-280 | The result is valid UTF-8 whose runes are the runes of s in reverse order. |
| GoStrings.ReverseTwice | string/main.go:268-280 | Reversing twice gives the rune-normalised string, which is the string itself when it is valid UTF-8. |
| GoStrings.ReverseShape | string/main.go:268-280 | The reversal is valid UTF-8 with the same rune count, and the same byte length for valid input. |
| Slicing.ClampSlice | string/main.go:235-248 | The clamped slice starts at max(start, 0), ends at min(end, len), and is empty when they cross. |
| Slicing.ClampSliceInRange | list/main.go:111-124 | In-range bounds give the ordinary slice. |
| Slicing.ClampSliceEmpty | list/main.go:111-124 | A start at or past the end or the length gives the empty slice. |
| Slicing.ClampSliceAdjacent | list/main.go:111-124 | Adjacent clamped slices concatenate to the covering slice. |
| Entropy.ReadBytes | random/main.go:87-89 | `rand.Read` fills the buffer with one draw per byte. |
| StringProvider.LookupName | string/main.go:33-71 | The dispatch table is exact: a name selects an operation exactly when it is that operation's name. |
| StringProvider.HandleCaseMap | string/main.go:81-103 | upper, lower and title require a non-empty `s` and return the library mapping of it. |
| StringProvider.HandleTrim | string/main.go:105-112 | trim requires `s` and trims the cutset, which defaults to space, tab, newline and carriage return. |
| StringProvider.HandleTrimPrefix | string/main.go:114-124 | Requires `s` and `prefix`; the result with the prefix put back in front is `s` when `s` had that prefix, and is `s` itself otherwise. |
| StringProvider.HandleTrimSuffix | string/main.go:126-136 | Requires `s` and `suffix`; symmetric to trimPrefix at the end. |
| StringProvider.HandleSplit | string/main.go:138-146 | Fails exactly when `s` is empty. Otherwise a list of strings that is a split of `s` at `sep` (default ",") in the sense of `IsSplit`: cut at the leftmost occurrences, or one piece per UTF-8 sequence for an empty `sep`. |
| StringProvider.HandleJoin | string/main.go:148-162 | Fails exactly when `items` is not an array; otherwise the Sprint texts of the items joined with `sep`. |
| StringProvider.HandleReplace | string/main.go:164-177 | Requires `s` and `old`. The first n occurrences (default 1, all when negative) are replaced, in the split-and-join form; n = 0 or `new` = `old` leave `s` unchanged. |
| StringProvider.HandleReplaceAll | string/main.go:179-191 | Requires `s` and `old`; the result is `s` split at `old` and joined with `new`. |
| StringProvider.HandleContains | string/main.go:193-203 | Requires `s` and `substr`; true exactly when `substr` occurs in `s`. |
| StringProvider.HandleHasPrefix | string/main.go:205-215 | Requires `s` and `prefix`; true exactly when the first bytes of `s` are the prefix. |
| StringProvider.HandleHasSuffix | string/main.go:217-227 | Requires `s` and `suffix`; true exactly when the last bytes of `s` are the suffix. |
| StringProvider.HandleSlice | string/main.go:229-249 | Fails exactly when `s` is empty; otherwise the bytes of `s` from max(start,0) to min(end,len), empty when they cross. |
| StringProvider.HandleRepeat | string/main.go:251-266 | Succeeds exactly for non-empty `s` and 0 ≤ count ≤ 10000, naming the violated bound otherwise; the result has \|s\|·count bytes. |
| StringProvider.HandleReverse | string/main.go:268-280 | The result is valid UTF-8 with as many runes as `s`, and reversing it again gives `s` back for valid input. |
| StringProvider.HandleLength | string/main.go:282-289 | The length is the byte count of `s`, typed int. |
| StringProvider.Apply | string/main.go:33-78 | Every error message is non-empty, and every operation except join rejects a missing `s` the same way. |
| StringProvider.Run | string/main.go:22-79 | The provider answers with exactly one of error and value, exits 1 on error or failed write, and names unknown functions. |
| StringProvider.ReverseHandlerTwice | string/main.go:268-280 | Feeding reverse its own output gives the original valid string back. |
| StringProvider.SplitThenJoin | string/main.go:138-162 | split followed by join with the same separator gives back the original string. |
| StringProvider.JoinOfStrings | string/main.go:148-162 | join of a list of strings is `strings.Join` of those strings. |
| StringProvider.SplitTakesLeftmost | string/main.go:138-146 | split of "aaa" at "aa" answers the list "", "a". |
| ListProvider.LookupName | list/main.go:33-49 | The dispatch table is exact. |
| ListProvider.HandleGenerate | list/main.go:59-87 | count must be positive and `template` present, in that order of checking; the result is count copies of the template. |
| ListProvider.HandleJoin | list/main.go:89-103 | Fails exactly when `items` is not an array; otherwise the Sprint texts joined with `separator` (default ","). |
| ListProvider.HandleSlice | list/main.go:105-125 | The items from max(start,0) to min(end,len), empty when they cross. |
| ListProvider.HandleLength | list/main.go:127-134 | The number of items, typed int. |
| ListProvider.Member | list/main.go:147-153 | Membership holds exactly when some item prints like the value. |
| ListProvider.HandleContains | list/main.go:136-154 | Requires `items` and `value`; true exactly when some item prints the same as the value. |
| ListProvider.HandleIndex | list/main.go:156-169 | Succeeds exactly for an in-range index and returns that item; otherwise "index out of range". |
| ListProvider.Apply | list/main.go:33-56 | Every error message is non-empty; all operations but generate reject a missing list the same way. |
| ListProvider.Run | list/main.go:22-57 | Exactly one of error and value, status 1 on error or failed write, unknown names reported. |
| ListProvider.GenerateIgnoresContext | list/main.go:171-174 | The request context has no effect on generate's exit. |
| ListProvider.ItemsAreContained | list/main.go:136-154 | Every item of a list is reported as contained in it. |
| ListProvider.IndexIsUnitSlice | list/main.go:105-169 | index k returns the single element of slice k..k+1. |
| ListProvider.SlicesConcatenate | list/main.go:105-125 | Slices i..j and j..k concatenate to slice i..k. |
| ListProvider.MillionIsNotItsDigits | list/main.go:136-154 | contains reports 1000000 absent from a list holding the number 1000000, whose Sprint is `1e+06`. |
| ListProvider.MillionJoinsInExponentForm | list/main.go:89-103 | join of the number 1000000 is `1e+06`. |
| ListProvider.SmallIntegerIsItsDigits | list/main.go:136-154 | A whole number of magnitude below 10^6 in the list contains the string of its digits. |
| ListProvider.EmptyListJoinsToEmpty | list/main.go:89-103 | join of an empty list is the empty string, with or without a separator. |
| ListProvider.DefaultSliceIsWhole | list/main.go:105-134 | Without bounds, slice returns the whole list, and length counts it. |
| MathProvider.LookupName | math/main.go:33-63 | The dispatch table is exact. |
| MathProvider.GoRem | math/main.go:100-107 | Go's `%`: a remainder of a by b, smaller than \|b\|, zero or with the sign of the dividend. |
| MathProvider.GoRemUnique | math/main.go:100-107 | Those three properties determine the remainder uniquely. |
| MathProvider.ModMatchesTruncatedDivision | math/main.go:100-107 | Go's remainder is a − b·trunc(a/b), the truncated-division definition. |
| MathProvider.TruncDivision | math/main.go:100-107 | a − b·trunc(a/b) has all the properties of Go's remainder. |
| MathProvider.FloorOf | math/main.go:167-170 | `math.Floor` is the greatest integer not above x. |
| MathProvider.CeilOf | math/main.go:162-165 | `math.Ceil` is the least integer not below x. |
| MathProvider.RoundOf | math/main.go:172-175 | `math.Round` is within one half of x and keeps the sign. |
| MathProvider.RoundIsNearest | math/main.go:172-175 | No integer is nearer to x than the rounded value, and a tie goes to the integer farther from zero. |
| MathProvider.RoundOdd | math/main.go:172-175 | Rounding commutes with negation (half away from zero). |
| MathProvider.AbsOf | math/main.go:123-126 | The absolute value is non-negative and equals x or −x. |
| MathProvider.Least | math/main.go:128-143 | The minimum is an element of the list and at most every element. |
| MathProvider.Greatest | math/main.go:145-160 | The maximum is an element of the list and at least every element. |
| MathProvider.HandleBinary | math/main.go:73-89 | add, sub and mul are undone by their inverses: the sum minus b, and the difference plus b, give a; the product divided by a non-zero b gives a. |
| MathProvider.HandleDiv | math/main.go:91-98 | Fails exactly when b is 0; otherwise the quotient times b is a. |
| MathProvider.HandleMod | math/main.go:100-107 | Fails exactly when the int64 value of b is 0; otherwise Go's remainder of the truncated operands, typed int. |
| MathProvider.HandlePow | math/main.go:109-113 | Never fails and is typed float. A number operand reaches `math.Pow` as it is; a missing or non-number one reaches it as 0. |
| MathProvider.PowOperands | math/main.go:109-113 | No operands, or operands of a non-number type, give pow(0, 0); number operands b and e give pow(b, e). |
| MathProvider.HandleSqrt | math/main.go:115-121 | Fails exactly for negative x; otherwise the square root. |
| MathProvider.HandleUnary | math/main.go:123-175 | abs, ceil, floor and round return a float with their defining bounds relative to x. |
| MathProvider.HandleExtreme | math/main.go:128-160 | Fails exactly when `values` is missing or empty; otherwise an element of the list that bounds all elements. |
| MathProvider.Apply | math/main.go:33-70 | Error messages are non-empty; mod alone is typed int, all others float. |
| MathProvider.Run | math/main.go:22-71 | Exactly one of error and value, status 1 on error or failed write, unknown names reported. |
| MathProvider.MinAtMostMax | math/main.go:128-160 | On the same list, min is at most max. |
| MathProvider.NonNumberAddsAsZero | math/main.go:177-209 | A non-number or missing `b` adds as 0. |
| RandomProvider.LookupName | random/main.go:34-48 | The dispatch table is exact. |
| RandomProvider.BigEndianIsHex | random/main.go:90-93 | The shift-and-or loop reads the bytes as a big-endian number: the number the bytes' hexadecimal text denotes. |
| RandomProvider.ToFloat64Nat | random/main.go:96 | Conversion to float64 is exact below 2^53 and otherwise within one unit in the last place. |
| RandomProvider.ToFloat64Nearest | random/main.go:96 | Conversion to float64 rounds to the nearest multiple of the spacing, at most half a spacing away, taking the even multiple on a tie. |
| RandomProvider.RoundedMultiple | random/main.go:96 | The rounding step of that conversion, for any spacing: the chosen neighbour of n is a multiple of the spacing, no more than half a spacing from n, and even on a tie. |
| RandomProvider.MaxUint64RoundsUp | random/main.go:96 | `float64(^uint64(0))` rounds up to 2^64. |
| RandomProvider.UnitAsWrittenReachesOne | random/main.go:92-96 | The all-ones draw scales to exactly 1.0, outside the intended [0, 1). |
| RandomProvider.UnitAsWritten | random/main.go:96 | As written, the fraction is at least 0, at most 1 for a 64-bit draw, and exactly 1 when float64(n) rounds up to 2^64. |
| RandomProvider.HandleFloatAsWritten | random/main.go:75-102 | As written: fails exactly when min ≥ max. Otherwise the eight bytes read big-endian give n, the result is min + f·(max − min) with f = float64(n)/float64(2^64 − 1), it lies in [min, max], and it is max exactly when float64(n) rounds up to 2^64. |
| RandomProvider.FloatAsWrittenReachesMax | random/main.go:75-102 | As written, the all-ones draw returns exactly max. |
| RandomProvider.UnitFraction | random/main.go:95-96 | The corrected fraction lies in [0, 1). |
| RandomProvider.UnitFractionCovers | random/main.go:95-96 | The corrected fraction reaches every multiple of 2^-53 in [0, 1). |
| RandomProvider.Lerp | random/main.go:98-99 | min + f·(max−min) lies in [min, max) for f in [0, 1), and equals max at f = 1. |
| RandomProvider.HandleFloat | random/main.go:75-102 | Corrected: fails exactly when min ≥ max; otherwise a float in [min, max). The provider's dispatch uses the as-written version. |
| RandomProvider.HandleInt | random/main.go:58-73 | Fails exactly when min ≥ max. Otherwise min plus the draw below max − min, so an integer in [min, max). |
| RandomProvider.EveryIntDrawn | random/main.go:58-73 | Every integer of [min, max) is returned for some draw. |
| RandomProvider.HandleBool | random/main.go:104-111 | The result is the low bit of one random byte. |
| RandomProvider.HandleChoice | random/main.go:113-125 | Fails exactly when `items` is missing or empty; otherwise one of the items. |
| RandomProvider.HandleBytes | random/main.go:127-141 | Fails exactly when size (default 16) is outside 1..1024; otherwise 2·size lower-case hex digits that decode back to the size bytes drawn. |
| RandomProvider.Apply | random/main.go:34-55 | Error messages are non-empty, bool never fails, and float is the as-written handler. |
| RandomProvider.Run | random/main.go:180-194 | Exactly one of error and value; status 1 exactly on an error, since a failed result write is ignored. |
| RandomProvider.EveryItemChosen | random/main.go:113-125 | Every item can be chosen, by some draw. |
| RandomProvider.DefaultIntRange | random/main.go:58-73 | Without parameters, int gives an integer in 0..99. |
| IdProvider.LookupNames | id/main.go:37-49 | A name selects an operation exactly when it is one of its names; uuid answers to both "uuid" and "uuid4". |
| IdProvider.UuidBytes | id/main.go:59-61 | The version nibble is 4, the variant bits are 10, and the other bytes are random. |
| IdProvider.UuidText | id/main.go:59-61 | 36 characters: 8-4-4-4-12 groups of hex separated by dashes. |
| IdProvider.UuidShape | id/main.go:59-61 | A version 4 UUID prints a '4' at position 14 and one of 8, 9, a, b at position 19. |
| IdProvider.HandleUuid | id/main.go:59-61 | The identifier is 36 characters with dashes at 8, 13, 18, 23, hex elsewhere, version 4 and the RFC 4122 variant. |
| IdProvider.UlidText | id/main.go:63-67 | For a timestamp below 16^13, 26 hex digits whose first half parses to the timestamp and second half to the random part. |
| IdProvider.HandleUlid | id/main.go:63-67 | All hex digits; while the timestamp fits 13 digits, 26 of them: the timestamp in front and a random value below 2^52 behind. |
| IdProvider.NanoIdText | id/main.go:69-83 | Character i is the alphabet entry chosen by draw i. |
| IdProvider.HandleNanoId | id/main.go:69-83 | size characters (default 21), each from the alphabet. |
| IdProvider.NanoIdCoversAlphabet | id/main.go:69-83 | Every string over the alphabet is produced by some sequence of draws. |
| IdProvider.WrapInt64 | id/main.go:91 | int64 wrap-around: congruent modulo 2^64, in int64 range, identity on non-negative values that fit. |
| IdProvider.LowBits | id/main.go:88-89 | Masking with 2^k − 1 leaves a value below 2^k congruent to the input, also for negative input, and keeps a value already in range. |
| IdProvider.Worker | id/main.go:88 | The worker field is below 1024, is 0 when `worker` is absent or not a number, and is the given worker when that is in range. |
| IdProvider.Sequence | id/main.go:89 | The sequence field is below 4096, is the first random draw when `sequence` is absent or not a number, and is the given sequence when that is in range. |
| IdProvider.SnowflakeId | id/main.go:85-93 | The id is timestamp·2^22 + worker·2^12 + sequence, wrapped to int64. |
| IdProvider.SnowflakeDecodes | id/main.go:85-93 | For a timestamp below 2^41, the id's bit fields give back timestamp, worker and sequence. |
| IdProvider.HandleSnowflake | id/main.go:85-93 | The result is the snowflake of the clock, the masked worker and the masked sequence; before 2^41 ms it is timestamp·2^22 + worker·2^12 + sequence. |
| IdProvider.Apply | id/main.go:37-56 | Never fails; uuid is typed uuid, snowflake int, the others string. |
| IdProvider.Run | id/main.go:26-57 | A known name never produces an error; otherwise as for every provider. |
| EnvProvider.LookupName | env/main.go:33-45 | The dispatch table is exact. |
| EnvProvider.EqualsAt | env/main.go:55-69 | The key of an entry ends at its first '='. |
| EnvProvider.SplitEntry | env/main.go:55-79 | An entry splits into a key without '=' and a value that reassemble to the entry. |
| EnvProvider.LookupEnv | env/main.go:55-69 | A found value comes from an entry `key=value` of the environment. |
| EnvProvider.LookupFindsEntry | env/main.go:71-79 | A key is found exactly when some entry has that key. |
| EnvProvider.EnvironFrom | env/main.go:84 | `os.Environ()`: entries of the environment, at most as many, none empty and none repeating a key; every key not already seen has the same lookup in them as in the environment. |
| EnvProvider.ListingLastWins | env/main.go:86-95 | The list loop keeps a key exactly when some entry sets it and it has the prefix, and then holds the value of the last entry setting it. |
| EnvProvider.ListingFrom | env/main.go:86-95 | The list loop over os.Environ(), where a later entry would overwrite an earlier one, holds exactly the keys os.LookupEnv finds, with their values, since os.Environ() carries no duplicate keys. |
| EnvProvider.ListingIsLookup | env/main.go:81-98 | The listing holds exactly the found keys with the prefix, each with its found value. |
| EnvProvider.HandleGet | env/main.go:55-69 | Requires `key`; the value when non-empty, else `default`. |
| EnvProvider.HandleHas | env/main.go:71-79 | Requires `key`; true exactly when some entry has that key, even with an empty value. |
| EnvProvider.Block | env/main.go:81-98 | The block has exactly the listing's keys, each with its value as a string. |
| EnvProvider.HandleList | env/main.go:81-98 | A block whose keys are exactly the set variables with the prefix, each with its value. |
| EnvProvider.HandleExpand | env/main.go:100-108 | Requires `text`; the result is its expansion in the environment. |
| EnvProvider.Apply | env/main.go:33-52 | Error messages are non-empty, and list never fails. |
| EnvProvider.Run | env/main.go:22-53 | Exactly one of error and value, status 1 on error or failed write, unknown names reported. |
| EnvProvider.EmptyIsPresent | env/main.go:71-79 | A variable set to the empty string is reported present by has. |
| EnvProvider.EmptyIsDefaulted | env/main.go:55-69 | get returns the default for a variable set to the empty string. |
| EnvProvider.SplitKnown | env/main.go:55-69 | An entry built from a key without '=' splits back into that key and value. |
| EnvProvider.LookupIsFirst | env/main.go:55-69 | A value found for a key is the value of the first entry carrying that key; no earlier entry has it. |
| EnvProvider.FirstEntryWins | env/main.go:55-79 | With two entries for one key, has reports it and `os.Getenv` (what get reads) returns the first entry's value. |

## Left out

- float64 rounding of arithmetic. Sums, products, quotients and `min + f*(max-min)` in math and random are exact reals. NaN, infinities and negative zero (which Go prints as `-0`) are not modelled. Numbers are JSON numbers as decoded (reals).
- The serialisation itself. JSON is byte-level in the source; here requests arrive decoded (`Input`) and responses stay structured (`Response`), with `WireKeys` for the fields written. The reason text of a decoding failure comes from the Go decoder and is an argument.
- Library functions as arguments. Unicode case mapping (`upper`, `lower`, `title`), `strings.Trim`, `math.Pow`, `math.Sqrt` and `os.ExpandEnv` are passed in, because the handlers add no logic around them.
- Json.Sprint: numbers that are not integers of magnitude below 2^53 (fractions, and larger values whose shortest digits differ from their exact digits) and composite values are printed by a `Printer` argument, because Go's shortest-digit float formatting is not modelled.
- The uuid library's internals. The model is the version 4 layout of RFC 4122 section 4.4 over 16 random bytes.
- Failures of the random source and of the clock. `rand.Read` and `rand.Int` errors are not modelled, and the draws come from an `Rng` oracle.
- Clock values before 1970. The timestamp is a natural number.
- Memory exhaustion from a huge `count` in generate or `size` in nanoid.
- Coerce.GetInt: a number whose truncation lies outside int64 is excluded by the precondition `IntConvertible`. Go does not panic there: `int(v)` of such a float64 is platform-dependent (MinInt64 on amd64). The model picks no platform, so inputs such as `{"count": 1e19}` to repeat or generate, or `{"size": 1e19}` to bytes, are not modelled.
- Environment entries with a leading '=' as Windows writes them (`=C:=C:\`). Entries without '=' are modelled and skipped by lookup and listing, as on Unix. One gap remains: for an entry that starts with '=', `LookupEnv(env, "")` finds it, whereas Go's `os.Getenv("")` never finds anything. get and has reject an empty key before looking it up (env/main.go:57 and 73), so no handler asks for it.
- cloneWithContext's unused `self` map. The template is returned unchanged (list/main.go:171-174).
- MathProvider.HandleBinary: sums, differences and products are exact reals, so the inverse relations it states hold in the model only. With float64 rounding, (a + b) − b can differ from a.
- MathProvider.HandleDiv: the quotient is exact, so quotient·b = a holds in the model only.
- RandomProvider.HandleFloat: min + f·(max − min) is exact. With float64 rounding, a fraction just below 1 can still round the result up to max, which this model does not show.
- RandomProvider.HandleFloatAsWritten: the result is exact in the reals, so it is max only for f = 1; with float64 rounding, other fractions near 1 can give max too.
- IdProvider.HandleNanoId: the precondition excludes a negative size and an empty alphabet with a positive size, where the source panics.
- RandomProvider.HandleInt: the precondition excludes ranges whose `max - min` overflows int64, where the difference wraps to a negative int64 and `rand.Int` panics.
- The fake, time and file providers are not part of this model: they wrap a data-faking library, the clock and the file system.

## Findings

| source | as written | input that shows it | evidently intended | confidence | as-written member | corrected member |
|---|---|---|---|---|---|---|
| random/main.go:96 | `f := float64(n) / float64(^uint64(0))`; the divisor rounds to 2^64, and for n ≥ 2^64 − 1024 so does `float64(n)`, giving f = 1.0 | eight random bytes all 0xFF with min < max: f = 1.0 and the result is exactly max | f in [0, 1) and a result in [min, max), as the comments on lines 95 and 98 say; e.g. use the top 53 bits, (n >> 11) / 2^53 | not executed | RandomProvider.FloatAsWrittenReachesMax | RandomProvider.HandleFloat |

=== FILE: bytestrings.dfy ===
/** Go strings as byte sequences, and the text renderings (hexadecimal and
    decimal) the providers print numbers and bytes with. */
module ByteStrings {

  import opened Wrappers

  /** One byte of a Go string. Byte b is written as the character whose code
      point is b, so the ASCII literals of the Go source read as themselves. */
  type byte = c: char | c as int < 256 witness '\0'

  /** A Go `string` or `[]byte`: a sequence of bytes, not of characters. */
  type Bytes = seq<byte>

  function ByteOf(n: nat): (b: byte)
    requires n < 256
    ensures b as int == n
  {
    n as char
  }

  // ---------------------------------------------------------------------------
  // Hexadecimal digits

  predicate IsHexDigit(c: byte) {
    '0' <= c <= '9' || 'a' <= c <= 'f'
  }

  /** The lower-case hexadecimal digit for d, as `%x` prints it. */
  function HexDigit(d: nat): (c: byte)
    requires d < 16
    ensures IsHexDigit(c)
  {
    if d < 10 then ('0' as int + d) as char else ('a' as int + d - 10) as char
  }

  function HexValue(c: byte): (d: nat)
    ensures d < 16
  {
    if '0' <= c <= '9' then c as int - '0' as int
    else if 'a' <= c <= 'f' then c as int - 'a' as int + 10
    else 0
  }

  lemma HexValueOfDigit(d: nat)
    requires d < 16
    ensures HexValue(HexDigit(d)) == d
  {
  }

  // ---------------------------------------------------------------------------
  // `%x` of a byte slice: two lower-case digits per byte, high nibble first

  function HexEncode(bs: Bytes): (h: Bytes)
    ensures |h| == 2 * |bs|
    ensures forall i :: 0 <= i < |h| ==> IsHexDigit(h[i])
    ensures forall k :: 0 <= k < |bs| ==>
              h[2 * k] == HexDigit(bs[k] as int / 16) && h[2 * k + 1] == HexDigit(bs[k] as int % 16)
  {
    if bs == [] then []
    else [HexDigit(bs[0] as int / 16), HexDigit(bs[0] as int % 16)] + HexEncode(bs[1..])
  }

  /** Reads back a string of hexadecimal digit pairs; None when the length is
      odd or a character is not a lower-case hexadecimal digit. */
  function HexDecode(h: Bytes): (r: Option<Bytes>)
    ensures r.Some? ==> 2 * |r.value| == |h|
    decreases |h|
  {
    if h == [] then Some([])
    else if |h| < 2 || !IsHexDigit(h[0]) || !IsHexDigit(h[1]) then None
    else
      match HexDecode(h[2..])
      case None => None
      case Some(rest) => Some([ByteOf(HexValue(h[0]) * 16 + HexValue(h[1]))] + rest)
  }

  lemma {:induction false} HexRoundTrip(bs: Bytes)
    ensures HexDecode(HexEncode(bs)) == Some(bs)
  {
    if bs != [] {
      var h := HexEncode(bs);
      assert h[2..] == HexEncode(bs[1..]);
      HexRoundTrip(bs[1..]);
      var b := bs[0] as int;
      HexValueOfDigit(b / 16);
      HexValueOfDigit(b % 16);
      assert ByteOf(HexValue(h[0]) * 16 + HexValue(h[1])) == bs[0];
      assert [bs[0]] + bs[1..] == bs;
    }
  }

  // ---------------------------------------------------------------------------
  // `%x` and `%0Nx` of a non-negative integer

  function Pow16(k: nat): (p: nat)
    ensures p >= 1
  {
    if k == 0 then 1 else 16 * Pow16(k - 1)
  }

  /** The digits of n in base 16, most significant first, without leading zeros. */
  function HexNat(n: nat): (h: Bytes)
    ensures |h| >= 1
    ensures forall i :: 0 <= i < |h| ==> IsHexDigit(h[i])
    decreases n
  {
    if n < 16 then [HexDigit(n)] else HexNat(n / 16) + [HexDigit(n % 16)]
  }

  /** The number a string of hexadecimal digits denotes. */
  function HexParse(h: Bytes): nat
    decreases |h|
  {
    if h == [] then 0 else HexParse(h[..|h| - 1]) * 16 + HexValue(h[|h| - 1])
  }

  lemma {:induction false} HexParseHexNat(n: nat)
    ensures HexParse(HexNat(n)) == n
    decreases n
  {
    var h := HexNat(n);
    if n < 16 {
      HexValueOfDigit(n);
      assert h[..0] == [];
    } else {
      HexParseHexNat(n / 16);
      assert h[..|h| - 1] == HexNat(n / 16);
      HexValueOfDigit(n % 16);
    }
  }

  lemma {:induction false} HexParseBound(h: Bytes)
    ensures HexParse(h) < Pow16(|h|)
    decreases |h|
  {
    if h != [] {
      HexParseBound(h[..|h| - 1]);
    }
  }

  lemma {:induction false} HexNatFits(n: nat, w: nat)
    requires 1 <= w && n < Pow16(w)
    ensures |HexNat(n)| <= w
    decreases w
  {
    if n >= 16 {
      assert Pow16(1) == 16;
      assert n / 16 < Pow16(w - 1);
      HexNatFits(n / 16, w - 1);
    }
  }

  lemma {:induction false} Pow16Monotonic(a: nat, b: nat)
    requires a <= b
    ensures Pow16(a) <= Pow16(b)
    decreases b
  {
    if a < b {
      Pow16Monotonic(a, b - 1);
    }
  }

  /** The printed width of n in hexadecimal is at most w exactly when n < 16^w. */
  lemma HexNatWidth(n: nat, w: nat)
    requires 1 <= w
    ensures |HexNat(n)| <= w <==> n < Pow16(w)
  {
    if n < Pow16(w) {
      HexNatFits(n, w);
    } else if |HexNat(n)| <= w {
      HexParseHexNat(n);
      HexParseBound(HexNat(n));
      Pow16Monotonic(|HexNat(n)|, w);
      assert false;
    }
  }

  function Zeros(k: nat): (z: Bytes)
    ensures |z| == k
    ensures forall i :: 0 <= i < k ==> z[i] == '0'
  {
    seq(k, i => '0')
  }

  /** `%0<width>x` of n: the hexadecimal digits of n, left-padded with '0' to
      at least `width` characters. */
  function HexPadded(n: nat, width: nat): (h: Bytes)
    ensures |h| == if |HexNat(n)| >= width then |HexNat(n)| else width
    ensures forall i :: 0 <= i < |h| ==> IsHexDigit(h[i])
  {
    var digits := HexNat(n);
    if |digits| >= width then digits else Zeros(width - |digits|) + digits
  }

  lemma {:induction false} HexParseZeros(k: nat, h: Bytes)
    ensures HexParse(Zeros(k) + h) == HexParse(h)
    decreases |h|
  {
    if h == [] {
      assert Zeros(k) + h == Zeros(k);
      ZerosParse(k);
    } else {
      var s := Zeros(k) + h;
      assert s[..|s| - 1] == Zeros(k) + h[..|h| - 1];
      HexParseZeros(k, h[..|h| - 1]);
    }
  }

  lemma {:induction false} ZerosParse(k: nat)
    ensures HexParse(Zeros(k)) == 0
    decreases k
  {
    if k > 0 {
      assert Zeros(k)[..k - 1] == Zeros(k - 1);
      ZerosParse(k - 1);
    }
  }

  /** Zero padding does not change the number the digits denote. */
  lemma HexPaddedParse(n: nat, width: nat)
    ensures HexParse(HexPadded(n, width)) == n
  {
    HexParseHexNat(n);
    if |HexNat(n)| < width {
      HexParseZeros(width - |HexNat(n)|, HexNat(n));
    }
  }

  // ---------------------------------------------------------------------------
  // Decimal rendering of integers (how Go prints an integral number)

  function DecimalDigit(d: nat): (c: byte)
    requires d < 10
    ensures '0' <= c <= '9'
  {
    ('0' as int + d) as char
  }

  function DecimalNat(n: nat): (s: Bytes)
    ensures |s| >= 1
    ensures forall i :: 0 <= i < |s| ==> '0' <= s[i] <= '9'
    decreases n
  {
    if n < 10 then [DecimalDigit(n)] else DecimalNat(n / 10) + [DecimalDigit(n % 10)]
  }

  /** The number a string of decimal digits denotes. */
  function DecimalParse(s: Bytes): nat
    decreases |s|
  {
    if s == [] then 0 else DecimalParse(s[..|s| - 1]) * 10 + (s[|s| - 1] as int - '0' as int) % 10
  }

  lemma {:induction false} DecimalParseNat(n: nat)
    ensures DecimalParse(DecimalNat(n)) == n
    decreases n
  {
    var s := DecimalNat(n);
    if n < 10 {
      assert s[..0] == [];
    } else {
      DecimalParseNat(n / 10);
      assert s[..|s| - 1] == DecimalNat(n / 10);
    }
  }

  /** An integer in decimal, with a leading '-' when negative. */
  function Decimal(n: int): (s: Bytes)
    ensures |s| >= 1
    ensures s[0] == '-' <==> n < 0
  {
    if n < 0 then "-" + DecimalNat(-n) else DecimalNat(n)
  }

  /** Different integers print differently. */
  lemma DecimalInjective(a: int, b: int)
    requires Decimal(a) == Decimal(b)
    ensures a == b
  {
    if a < 0 && b < 0 {
      DecimalNegative(a);
      DecimalNegative(b);
      DecimalNatInjective(-a, -b);
    } else if a >= 0 && b >= 0 {
      DecimalNatInjective(a, b);
    }
  }

  lemma DecimalNatInjective(a: nat, b: nat)
    requires DecimalNat(a) == DecimalNat(b)
    ensures a == b
  {
    DecimalParseNat(a);
    DecimalParseNat(b);
  }

  lemma DecimalNegative(n: int)
    requires n < 0
    ensures Decimal(n)[1..] == DecimalNat(-n)
  {
  }
}

=== FILE: coerce.dfy ===
/** The parameter accessors every provider repeats (getString, getInt,
    getInt64, getFloat64, toFloat64, and the `.([]any)` list assertion). A
    scalar accessor cannot tell an absent key from a value of the wrong JSON
    type: both give the caller's default. */
module Coerce {

  import opened Wrappers
  import opened ByteStrings
  import opened Json

  const MinInt64: int := -0x8000_0000_0000_0000
  const MaxInt64: int := 0x7FFF_FFFF_FFFF_FFFF
  /** The number of uint64 values. */
  const Two64: nat := 0x1_0000_0000_0000_0000

  /** The range of Go's int64 (and of int on a 64-bit platform). */
  predicate InInt64(x: int) {
    MinInt64 <= x <= MaxInt64
  }

  /** Go's conversion of a float64 to an integer type: truncation toward zero. */
  function Trunc(x: real): (r: int)
    ensures 0.0 <= x ==> r as real <= x < r as real + 1.0
    ensures x < 0.0 ==> r as real - 1.0 < x <= r as real
  {
    if x >= 0.0 then x.Floor else -((-x).Floor)
  }

  /** A whole number converts to itself. */
  lemma TruncWhole(k: int)
    ensures Trunc(k as real) == k
  {
  }

  /** `int(v)` of a float64 is exact when the truncated value fits in int64.
      Outside that range Go does not panic but leaves the result to the
      platform, so the model keeps to inputs inside it. */
  predicate IntConvertible(params: Params, key: Bytes) {
    key in params && params[key].JNum? ==> InInt64(Trunc(params[key].n))
  }

  /** getString: the parameter when it is a JSON string, else the default. */
  function GetString(params: Params, key: Bytes, default: Bytes): (r: Bytes)
    ensures key in params && params[key].JStr? ==> r == params[key].s
    ensures !(key in params && params[key].JStr?) ==> r == default
  {
    if key in params && params[key].JStr? then params[key].s else default
  }

  /** getInt and getInt64: a JSON number truncated toward zero, else the
      default. (Their `case int` arms never fire on decoded JSON, whose
      numbers are all float64.) */
  function GetInt(params: Params, key: Bytes, default: int): (r: int)
    requires IntConvertible(params, key)
    ensures key in params && params[key].JNum? ==> r == Trunc(params[key].n) && InInt64(r)
    ensures !(key in params && params[key].JNum?) ==> r == default
  {
    if key in params && params[key].JNum? then Trunc(params[key].n) else default
  }

  /** getFloat64 as the random provider writes it: a JSON number, else the
      default. */
  function GetFloat(params: Params, key: Bytes, default: real): (r: real)
    ensures key in params && params[key].JNum? ==> r == params[key].n
    ensures !(key in params && params[key].JNum?) ==> r == default
  {
    if key in params && params[key].JNum? then params[key].n else default
  }

  /** toFloat64: a JSON number, and 0 for anything else. */
  function ToFloat64(v: Json): (r: real)
    ensures v.JNum? ==> r == v.n
    ensures !v.JNum? ==> r == 0.0
  {
    if v.JNum? then v.n else 0.0
  }

  /** getFloat64 as the math provider writes it: a present key goes through
      toFloat64, so a value of the wrong type reads as 0, not as the default. */
  function MathGetFloat(params: Params, key: Bytes, default: real): (r: real)
    ensures key !in params ==> r == default
    ensures key in params && params[key].JNum? ==> r == params[key].n
    ensures key in params && !params[key].JNum? ==> r == 0.0
  {
    if key in params then ToFloat64(params[key]) else default
  }

  /** The assertion `params[key].([]any)`: a present JSON array, or nothing. */
  function GetList(params: Params, key: Bytes): (r: Option<seq<Json>>)
    ensures r.Some? <==> key in params && params[key].JArr?
    ensures r.Some? ==> r.value == params[key].items
  {
    if key in params && params[key].JArr? then Some(params[key].items) else None
  }

  // ---------------------------------------------------------------------------
  // A value of the wrong type is read exactly as an absent one

  lemma StringMismatchIsAbsence(params: Params, key: Bytes, default: Bytes)
    requires key in params && !params[key].JStr?
    ensures GetString(params, key, default) == GetString(params - {key}, key, default) == default
  {
  }

  lemma IntMismatchIsAbsence(params: Params, key: Bytes, default: int)
    requires key in params && !params[key].JNum?
    ensures GetInt(params, key, default) == GetInt(params - {key}, key, default) == default
  {
  }

  lemma FloatMismatchIsAbsence(params: Params, key: Bytes, default: real)
    requires key in params && !params[key].JNum?
    ensures GetFloat(params, key, default) == GetFloat(params - {key}, key, default) == default
  {
  }

  /** The math provider's accessor is the one exception: a wrong-typed value
      reads as 0 whatever the default, so it differs from absence exactly
      when the default is not 0. Every call in the math provider passes 0. */
  lemma MathMismatchIsZero(params: Params, key: Bytes, default: real)
    requires key in params && !params[key].JNum?
    ensures MathGetFloat(params, key, default) == 0.0
    ensures MathGetFloat(params, key, default) == MathGetFloat(params - {key}, key, default) <==> default == 0.0
  {
  }

  lemma MathAccessorAgreesAtZero(params: Params, key: Bytes)
    ensures MathGetFloat(params, key, 0.0) == GetFloat(params, key, 0.0)
  {
  }
}

=== FILE: entropy.dfy ===
/** The randomness the random and id providers draw from crypto/rand, passed
    in as an argument: draw i below a bound is whatever the source produced
    for that call. */
module Entropy {

  import opened ByteStrings

  /** A source of draws: rng(i, bound) is the value of the i-th draw from
      [0, bound). */
  type Rng = f: (nat, nat) -> nat | forall i: nat, bound: nat :: 0 < bound ==> f(i, bound) < bound
    witness (i: nat, bound: nat) => 0

  /** rand.Int(rand.Reader, big.NewInt(bound)), as draw i. */
  function Below(rng: Rng, i: nat, bound: nat): (n: nat)
    requires 0 < bound
    ensures n < bound
  {
    rng(i, bound)
  }

  /** rand.Read into a buffer of `count` bytes, taking draws base, base+1, ... */
  function ReadBytes(rng: Rng, base: nat, count: nat): (bs: Bytes)
    ensures |bs| == count
    ensures forall k :: 0 <= k < count ==> bs[k] as int == rng(base + k, 256)
  {
    if count == 0 then [] else ReadBytes(rng, base, count - 1) + [ByteOf(Below(rng, base + count - 1, 256))]
  }

  /** Division and remainder undo q * d + r when r is below d. */
  lemma DivModOf(q: nat, r: nat, d: nat)
    requires r < d
    ensures (q * d + r) / d == q && (q * d + r) % d == r
  {
    var a := q * d + r;
    var q', r' := a / d, a % d;
    assert d * q' + r' == d * q + r;
    assert d * (q' - q) == r - r';
    if q' > q {
      MulAtLeast(d, q' - q);
    } else if q' < q {
      MulAtLeast(d, q - q');
    }
  }

  lemma {:induction false} MulAtLeast(d: nat, m: nat)
    requires m >= 1
    ensures d * m >= d
  {
    if m > 1 {
      MulAtLeast(d, m - 1);
      assert d * m == d * (m - 1) + d;
    }
  }
}

=== FILE: env_provider.dfy ===
/** The env provider: env/main.go's get, has, list and expand over the
    process environment, which is the argument `env`: the "KEY=value"
    entries the process starts with, in order. Lookup follows Go's Unix
    runtime: a key ends at the first '=', entries without '=' are ignored,
    and the first entry for a key wins; os.Environ() leaves out the later
    duplicates. os.ExpandEnv is passed in. */
module EnvProvider {

  import opened Wrappers
  import opened ByteStrings
  import opened Json
  import opened Coerce
  import opened Protocol

  type Environment = seq<Bytes>

  datatype Op = Get | Has | List | Expand

  function Name(op: Op): Bytes {
    match op
    case Get => "get"
    case Has => "has"
    case List => "list"
    case Expand => "expand"
  }

  function Lookup(name: Bytes): (r: Option<Op>)
    ensures r.Some? ==> Name(r.value) == name
  {
    if name == "get" then Some(Get)
    else if name == "has" then Some(Has)
    else if name == "list" then Some(List)
    else if name == "expand" then Some(Expand)
    else None
  }

  lemma LookupName(op: Op, name: Bytes)
    ensures Lookup(Name(op)) == Some(op)
    ensures Lookup(name) == Some(op) <==> name == Name(op)
  {
  }

  // ---------------------------------------------------------------------------
  // The environment

  /** The position of the first '=' in an entry. */
  function EqualsAt(e: Bytes): (r: Option<nat>)
    ensures r.Some? ==> r.value < |e| && e[r.value] == '=' && '=' !in e[..r.value]
    ensures r.None? <==> '=' !in e
  {
    if e == [] then None
    else if e[0] == '=' then Some(0)
    else
      match EqualsAt(e[1..])
      case None => None
      case Some(j) =>
        assert e[..j + 1] == [e[0]] + e[1..][..j];
        Some(j + 1)
  }

  /** strings.SplitN(e, "=", 2) when it yields two parts: the key before the
      first '=' and the value after it. */
  function SplitEntry(e: Bytes): (r: Option<(Bytes, Bytes)>)
    ensures r.Some? <==> '=' in e
    ensures r.Some? ==> r.value.0 + "=" + r.value.1 == e && '=' !in r.value.0
  {
    match EqualsAt(e)
    case None => None
    case Some(j) =>
      assert e[..j] + "=" + e[j + 1..] == e;
      Some((e[..j], e[j + 1..]))
  }

  /** os.LookupEnv: the value of the first entry for `key`. */
  function LookupEnv(env: Environment, key: Bytes): (r: Option<Bytes>)
    ensures r.Some? ==> key + "=" + r.value in env
  {
    if env == [] then None
    else match SplitEntry(env[0])
      case Some((k, v)) => if k == key then Some(v) else LookupEnv(env[1..], key)
      case None => LookupEnv(env[1..], key)
  }

  /** os.Getenv: the value, or "" when unset. */
  function Getenv(env: Environment, key: Bytes): Bytes {
    LookupEnv(env, key).GetOr("")
  }

  /** os.Environ(): the entries in order, without empty ones and without
      any entry whose key an earlier entry already has (Go's runtime blanks
      such duplicates when it first reads the environment). `seen` holds the
      keys of the entries already passed. */
  function EnvironFrom(env: Environment, seen: set<Bytes>): (es: Environment)
    ensures |es| <= |env|
    ensures forall i :: 0 <= i < |es| ==> es[i] in env && es[i] != []
    ensures forall i, k :: 0 <= i < |es| && HasKey(es[i], k) ==> k !in seen
    ensures forall i, j, k :: 0 <= i < j < |es| && HasKey(es[i], k) ==> !HasKey(es[j], k)
    ensures forall k :: k !in seen ==> LookupEnv(es, k) == LookupEnv(env, k)
  {
    if env == [] then []
    else if env[0] == [] then EnvironFrom(env[1..], seen)
    else match SplitEntry(env[0])
      case None =>
        var rest := EnvironFrom(env[1..], seen);
        assert ([env[0]] + rest)[1..] == rest;
        [env[0]] + rest
      case Some((k, _)) =>
        if k in seen then EnvironFrom(env[1..], seen)
        else
          var rest := EnvironFrom(env[1..], seen + {k});
          assert ([env[0]] + rest)[1..] == rest;
          [env[0]] + rest
  }

  /** The entry e sets key k. */
  predicate HasKey(e: Bytes, k: Bytes) {
    SplitEntry(e).Some? && SplitEntry(e).value.0 == k
  }

  function Environ(env: Environment): Environment {
    EnvironFrom(env, {})
  }

  /** The loop of handleList: every entry with a '=' whose key starts with
      the prefix is stored in the result map, a later entry overwriting an
      earlier one with the same key. */
  function Listing(es: Environment, prefix: Bytes): map<Bytes, Bytes>
  {
    if es == [] then map[]
    else
      var later := Listing(es[1..], prefix);
      match SplitEntry(es[0])
      case Some((k, v)) => if prefix <= k && k !in later then later[k := v] else later
      case None => later
  }

  /** The list loop keeps a key exactly when some entry sets it and it starts
      with the prefix, and then holds the value of the last entry setting it. */
  lemma {:induction false} ListingLastWins(es: Environment, prefix: Bytes, key: Bytes)
    ensures key in Listing(es, prefix) <==> prefix <= key && exists i :: 0 <= i < |es| && HasKey(es[i], key)
    ensures key in Listing(es, prefix) ==>
              exists i :: 0 <= i < |es| && SplitEntry(es[i]) == Some((key, Listing(es, prefix)[key]))
                          && forall j :: i < j < |es| ==> !HasKey(es[j], key)
  {
    if es != [] {
      var rest := es[1..];
      ListingLastWins(rest, prefix, key);
      assert forall j :: 1 <= j < |es| ==> es[j] == rest[j - 1];
      var m := Listing(es, prefix);
      if key in Listing(rest, prefix) {
        var i :| 0 <= i < |rest| && SplitEntry(rest[i]) == Some((key, Listing(rest, prefix)[key]))
                 && forall j :: i < j < |rest| ==> !HasKey(rest[j], key);
        assert m[key] == Listing(rest, prefix)[key];
        assert SplitEntry(es[i + 1]) == Some((key, m[key]));
      } else if key in m {
        assert HasKey(es[0], key);
        assert SplitEntry(es[0]) == Some((key, m[key]));
        assert forall j :: 0 < j < |es| ==> !HasKey(es[j], key);
      }
    }
  }

  /** Over the entries of os.Environ() past the keys in `seen`, the loop of
      handleList finds exactly the keys os.LookupEnv finds, with the same
      values: duplicates never reach it, so its overwriting is invisible. */
  lemma {:induction false} ListingFrom(env: Environment, seen: set<Bytes>, prefix: Bytes, key: Bytes)
    ensures var m := Listing(EnvironFrom(env, seen), prefix);
            && (key in m <==> key !in seen && prefix <= key && LookupEnv(env, key).Some?)
            && (key in m ==> m[key] == LookupEnv(env, key).value)
  {
    if env != [] {
      var rest := env[1..];
      if env[0] == [] {
        ListingFrom(rest, seen, prefix, key);
      } else {
        match SplitEntry(env[0])
        case None =>
          ListingFrom(rest, seen, prefix, key);
          assert ([env[0]] + EnvironFrom(rest, seen))[1..] == EnvironFrom(rest, seen);
        case Some((k, v)) =>
          if k in seen {
            ListingFrom(rest, seen, prefix, key);
          } else {
            var es := EnvironFrom(rest, seen + {k});
            assert ([env[0]] + es)[1..] == es;
            ListingFrom(rest, seen + {k}, prefix, key);
            ListingFrom(rest, seen + {k}, prefix, k);
          }
      }
    }
  }

  /** list agrees with get: it holds exactly the set keys that start with the
      prefix, each with the value os.Getenv reports. */
  lemma ListingIsLookup(env: Environment, prefix: Bytes, key: Bytes)
    ensures key in Listing(Environ(env), prefix) <==> prefix <= key && LookupEnv(env, key).Some?
    ensures key in Listing(Environ(env), prefix) ==> Listing(Environ(env), prefix)[key] == LookupEnv(env, key).value
  {
    ListingFrom(env, {}, prefix, key);
  }

  // ---------------------------------------------------------------------------
  // Handlers

  const KeyRequired: Bytes := "key parameter required"

  function Key(params: Params): Bytes {
    GetString(params, "key", "")
  }

  /** get: the variable's value, or `default` when the value is empty (set to
      "" counts as unset here). */
  function HandleGet(params: Params, env: Environment): (o: Outcome)
    ensures Key(params) == [] <==> o.Err?
    ensures o.Err? ==> o.message == KeyRequired
    ensures o.Ok? ==> o.tag == StringTag && o.value.JStr?
    ensures o.Ok? && Getenv(env, Key(params)) != [] ==> o.value.s == Getenv(env, Key(params))
    ensures o.Ok? && Getenv(env, Key(params)) == [] ==> o.value.s == GetString(params, "default", "")
  {
    var key := Key(params);
    if key == [] then Err(KeyRequired)
    else
      var default := GetString(params, "default", "");
      var value := Getenv(env, key);
      if value == [] && default != [] then Ok(JStr(default), StringTag)
      else Ok(JStr(value), StringTag)
  }

  /** has: whether the variable is set at all, even to "". */
  function HandleHas(params: Params, env: Environment): (o: Outcome)
    ensures Key(params) == [] <==> o.Err?
    ensures o.Err? ==> o.message == KeyRequired
    ensures o.Ok? ==> o.tag == BoolTag && o.value.JBool?
    ensures o.Ok? ==> (o.value.b <==> exists i :: 0 <= i < |env| && SplitEntry(env[i]).Some? && SplitEntry(env[i]).value.0 == Key(params))
  {
    var key := Key(params);
    if key == [] then Err(KeyRequired)
    else
      LookupFindsEntry(env, key);
      Ok(JBool(LookupEnv(env, key).Some?), BoolTag)
  }

  /** os.LookupEnv finds the first entry carrying the key: the value found
      is that entry's, and no earlier entry has the key. */
  lemma {:induction false} LookupIsFirst(env: Environment, key: Bytes)
    ensures LookupEnv(env, key).Some? ==>
              exists i :: 0 <= i < |env| && SplitEntry(env[i]) == Some((key, LookupEnv(env, key).value))
                          && forall j :: 0 <= j < i ==> !HasKey(env[j], key)
  {
    if env != [] && LookupEnv(env, key).Some? {
      var v := LookupEnv(env, key).value;
      if HasKey(env[0], key) {
        assert SplitEntry(env[0]) == Some((key, v));
      } else {
        LookupIsFirst(env[1..], key);
        var i :| 0 <= i < |env[1..]| && SplitEntry(env[1..][i]) == Some((key, v))
                 && forall j :: 0 <= j < i ==> !HasKey(env[1..][j], key);
        assert env[i + 1] == env[1..][i];
        forall j | 0 <= j < i + 1 ensures !HasKey(env[j], key) {
          if j > 0 { assert env[j] == env[1..][j - 1]; }
        }
      }
    }
  }

  /** A key is found exactly when some entry carries it. */
  lemma {:induction false} LookupFindsEntry(env: Environment, key: Bytes)
    ensures LookupEnv(env, key).Some? <==>
            exists i :: 0 <= i < |env| && SplitEntry(env[i]).Some? && SplitEntry(env[i]).value.0 == key
  {
    if env != [] {
      LookupFindsEntry(env[1..], key);
      if LookupEnv(env[1..], key).Some? {
        var i :| 0 <= i < |env[1..]| && SplitEntry(env[1..][i]).Some? && SplitEntry(env[1..][i]).value.0 == key;
        assert env[i + 1] == env[1..][i];
      }
      if exists i :: 0 <= i < |env| && SplitEntry(env[i]).Some? && SplitEntry(env[i]).value.0 == key {
        var i :| 0 <= i < |env| && SplitEntry(env[i]).Some? && SplitEntry(env[i]).value.0 == key;
        if i > 0 {
          assert env[1..][i - 1] == env[i];
        }
      }
    }
  }

  /** The listing as a JSON object of strings. */
  function Block(m: map<Bytes, Bytes>): (j: Json)
    ensures j.JObj? && j.fields.Keys == m.Keys
    ensures forall k :: k in m ==> j.fields[k] == JStr(m[k])
  {
    JObj(map k | k in m :: JStr(m[k]))
  }

  /** list: the variables whose names start with `prefix` (default: all). */
  function HandleList(params: Params, env: Environment): (o: Outcome)
    ensures o.Ok? && o.tag == BlockTag && o.value.JObj?
    ensures forall k :: k in o.value.fields <==> ListsKey(params, k) && LookupEnv(env, k).Some?
    ensures forall k :: k in o.value.fields ==> o.value.fields[k] == JStr(Getenv(env, k))
  {
    var prefix := GetString(params, "prefix", "");
    forall k ensures k in Listing(Environ(env), prefix) <==> prefix <= k && LookupEnv(env, k).Some?
      ensures k in Listing(Environ(env), prefix) ==> Listing(Environ(env), prefix)[k] == LookupEnv(env, k).value
    {
      ListingIsLookup(env, prefix, k);
    }
    Ok(Block(Listing(Environ(env), prefix)), BlockTag)
  }

  /** The prefix test of handleList; an empty prefix admits every key. */
  predicate ListsKey(params: Params, key: Bytes) {
    GetString(params, "prefix", "") <= key
  }

  /** expand: os.ExpandEnv over `text`, which must be non-empty. */
  function HandleExpand(params: Params, env: Environment, expand: (Environment, Bytes) -> Bytes): (o: Outcome)
    ensures GetString(params, "text", "") == [] <==> o.Err?
    ensures o.Err? ==> o.message == "text parameter required"
    ensures o.Ok? ==> o == Ok(JStr(expand(env, GetString(params, "text", ""))), StringTag)
  {
    var text := GetString(params, "text", "");
    if text == [] then Err("text parameter required") else Ok(JStr(expand(env, text)), StringTag)
  }

  function Apply(op: Op, params: Params, env: Environment, expand: (Environment, Bytes) -> Bytes): (o: Outcome)
    ensures o.Err? ==> o.message != []
    ensures op == List ==> o.Ok?
  {
    match op
    case Get => HandleGet(params, env)
    case Has => HandleHas(params, env)
    case List => HandleList(params, env)
    case Expand => HandleExpand(params, env, expand)
  }

  /** One invocation of the env provider; no request can make it panic. */
  function Run(input: Input, env: Environment, expand: (Environment, Bytes) -> Bytes, written: bool): (e: Exit)
    ensures Exclusive(e.response)
    ensures e.status == 1 <==> e.response.error != [] || !written
    ensures input.Decoded? && Lookup(input.request.name).None? ==>
              e.response.error == UnknownFunction(input.request.name)
    ensures input.Decoded? && Lookup(input.request.name).Some? ==>
              e == Send(Apply(Lookup(input.request.name).value, input.request.params, env, expand), ExitOnWriteFailure, written)
  {
    var handle := (op: Op, req: Request) => Apply(op, req.params, env, expand);
    RunExclusive(input, Lookup, handle, ExitOnWriteFailure, written);
    Protocol.Run(input, Lookup, handle, ExitOnWriteFailure, written)
  }

  // ---------------------------------------------------------------------------
  // Properties across calls

  /** A variable set to "" is reported present by has ... */
  lemma EmptyIsPresent(key: Bytes, env: Environment)
    requires key != [] && '=' !in key
    ensures HandleHas(map["key" := JStr(key)], [key + "="] + env) == Ok(JBool(true), BoolTag)
  {
    var e := [key + "="] + env;
    SplitKnown(key, []);
    assert SplitEntry(e[0]).value.0 == key;
  }

  /** ... while get falls back to the default for it. */
  lemma EmptyIsDefaulted(key: Bytes, default: Bytes, env: Environment)
    requires key != [] && default != [] && '=' !in key
    ensures HandleGet(map["key" := JStr(key), "default" := JStr(default)], [key + "="] + env) == Ok(JStr(default), StringTag)
  {
    var e := [key + "="] + env;
    SplitKnown(key, []);
    assert LookupEnv(e, key) == Some([]);
  }

  /** An entry built from a key without '=' splits back into that key and
      value. */
  lemma SplitKnown(key: Bytes, value: Bytes)
    requires '=' !in key
    ensures SplitEntry(key + "=" + value) == Some((key, value))
  {
    var e := key + "=" + value;
    var j := EqualsAt(e).value;
    assert e[|key|] == '=';
    assert j == |key|;
    assert e[..j] == key && e[j + 1..] == value;
  }

  /** The first entry for a key shadows any later one. */
  lemma FirstEntryWins(key: Bytes, v1: Bytes, v2: Bytes, env: Environment)
    requires key != [] && '=' !in key
    ensures var e := [key + "=" + v1] + env + [key + "=" + v2];
            HandleHas(map["key" := JStr(key)], e) == Ok(JBool(true), BoolTag)
            && Getenv(e, key) == v1
  {
    SplitKnown(key, v1);
  }
}

=== FILE: gostrings.dfy ===
/** The functions of Go's strings package that the string and list providers
    call, on byte strings. Each is defined by recursion and characterised by
    its contract: where a separator or prefix occurs, what is left when it is
    cut off, how the pieces join back. */
module GoStrings {

  import opened Wrappers
  import opened ByteStrings
  import opened Utf8

  /** strings.HasPrefix. */
  predicate HasPrefix(s: Bytes, prefix: Bytes) {
    prefix <= s
  }

  /** strings.HasSuffix. */
  predicate HasSuffix(s: Bytes, suffix: Bytes) {
    |suffix| <= |s| && s[|s| - |suffix|..] == suffix
  }

  /** `sub` occurs in s starting at byte i. */
  predicate OccursAt(s: Bytes, sub: Bytes, i: int) {
    0 <= i && i + |sub| <= |s| && s[i..i + |sub|] == sub
  }

  lemma OccursShift(s: Bytes, sub: Bytes, j: int)
    requires |s| > 0 && j >= 0
    ensures OccursAt(s, sub, j + 1) <==> OccursAt(s[1..], sub, j)
  {
    if j + 1 + |sub| <= |s| {
      assert s[j + 1..j + 1 + |sub|] == s[1..][j..j + |sub|];
    }
  }

  lemma OccursInPrefix(s: Bytes, sub: Bytes, i: nat, j: int)
    requires i <= |s|
    ensures OccursAt(s[..i], sub, j) ==> OccursAt(s, sub, j) && j + |sub| <= i
  {
    if OccursAt(s[..i], sub, j) {
      assert s[..i][j..j + |sub|] == s[j..j + |sub|];
    }
  }

  /** strings.Index: the first byte position `sub` occurs at, if any. */
  function Index(s: Bytes, sub: Bytes): (r: Option<nat>)
    ensures r.Some? ==> OccursAt(s, sub, r.value)
    ensures r.Some? ==> forall j :: 0 <= j < r.value ==> !OccursAt(s, sub, j)
    ensures r.None? ==> forall j :: !OccursAt(s, sub, j)
    decreases |s|
  {
    if sub <= s then
      assert s[0..|sub|] == sub;
      Some(0)
    else if s == [] then None
    else
      match Index(s[1..], sub)
      case None =>
        assert forall j :: !OccursAt(s, sub, j) by {
          forall j ensures !OccursAt(s, sub, j) {
            if j >= 1 { OccursShift(s, sub, j - 1); }
          }
        }
        None
      case Some(k) =>
        OccursShift(s, sub, k);
        assert forall j :: 0 <= j < k + 1 ==> !OccursAt(s, sub, j) by {
          forall j | 0 <= j < k + 1 ensures !OccursAt(s, sub, j) {
            if j >= 1 { OccursShift(s, sub, j - 1); }
          }
        }
        Some(k + 1)
  }

  /** Index is pinned down by its contract: an occurrence with none before it
      is the one Index reports. */
  lemma IndexIsFirst(s: Bytes, sub: Bytes, i: nat)
    requires OccursAt(s, sub, i)
    requires forall j :: 0 <= j < i ==> !OccursAt(s, sub, j)
    ensures Index(s, sub) == Some(i)
  {
  }

  /** Cutting off text after an occurrence does not change it. */
  lemma OccursBefore(s: Bytes, sub: Bytes, n: nat, j: int)
    requires j + |sub| <= n <= |s|
    ensures OccursAt(s[..n], sub, j) <==> OccursAt(s, sub, j)
  {
    if 0 <= j {
      assert s[..n][j..j + |sub|] == s[j..j + |sub|];
    }
  }

  /** The first occurrence stays first when the text after it is cut off. */
  lemma IndexPrefix(s: Bytes, sub: Bytes, i: nat, n: nat)
    requires Index(s, sub) == Some(i) && i + |sub| <= n <= |s|
    ensures Index(s[..n], sub) == Some(i)
  {
    OccursBefore(s, sub, n, i);
    forall j | 0 <= j < i ensures !OccursAt(s[..n], sub, j) {
      OccursBefore(s, sub, n, j);
    }
    IndexIsFirst(s[..n], sub, i);
  }

  /** The first occurrence stays first when text is appended. */
  lemma IndexExtend(a: Bytes, b: Bytes, sub: Bytes, i: nat)
    requires Index(a, sub) == Some(i)
    ensures Index(a + b, sub) == Some(i)
  {
    var s := a + b;
    assert s[..|a|] == a;
    OccursBefore(s, sub, |a|, i);
    forall j | 0 <= j < i ensures !OccursAt(s, sub, j) {
      OccursBefore(s, sub, |a|, j);
    }
    IndexIsFirst(s, sub, i);
  }

  /** strings.Contains. */
  function Contains(s: Bytes, sub: Bytes): (b: bool)
    ensures b <==> exists i :: OccursAt(s, sub, i)
  {
    Index(s, sub).Some?
  }

  /** strings.TrimPrefix: s without a leading `prefix`, or s unchanged. */
  function TrimPrefix(s: Bytes, prefix: Bytes): (r: Bytes)
    ensures HasPrefix(s, prefix) ==> prefix + r == s
    ensures !HasPrefix(s, prefix) ==> r == s
  {
    if HasPrefix(s, prefix) then s[|prefix|..] else s
  }

  /** strings.TrimSuffix: s without a trailing `suffix`, or s unchanged. */
  function TrimSuffix(s: Bytes, suffix: Bytes): (r: Bytes)
    ensures HasSuffix(s, suffix) ==> r + suffix == s
    ensures !HasSuffix(s, suffix) ==> r == s
  {
    if HasSuffix(s, suffix) then s[..|s| - |suffix|] else s
  }

  /** strings.Join. */
  function Join(parts: seq<Bytes>, sep: Bytes): Bytes
  {
    if |parts| == 0 then []
    else if |parts| == 1 then parts[0]
    else parts[0] + sep + Join(parts[1..], sep)
  }

  /** strings.Join's result is exactly as long as all the parts and one
      separator between each two neighbours (JoinPlaces says where each lies). */
  lemma {:induction false} JoinLength(parts: seq<Bytes>, sep: Bytes)
    requires parts != []
    ensures |Join(parts, sep)| == TotalLength(parts) + (|parts| - 1) * |sep|
  {
    if |parts| > 1 {
      JoinLength(parts[1..], sep);
      assert (|parts| - 1) * |sep| == |sep| + (|parts| - 2) * |sep|;
    }
  }

  /** Where part k starts in Join(parts, sep): after the k parts before it
      and one separator after each of them. */
  function Offset(parts: seq<Bytes>, sep: Bytes, k: nat): nat
    requires k <= |parts|
  {
    TotalLength(parts[..k]) + k * |sep|
  }

  /** strings.Join places part k at Offset(parts, sep, k), follows every part
      but the last with sep, and ends right after the last part; together with
      JoinLength, nothing else is in the result. */
  lemma {:induction false} JoinPlaces(parts: seq<Bytes>, sep: Bytes, k: nat)
    requires k < |parts|
    ensures SliceIs(Join(parts, sep), Offset(parts, sep, k), parts[k])
    ensures k + 1 < |parts| ==>
              && Offset(parts, sep, k + 1) == Offset(parts, sep, k) + |parts[k]| + |sep|
              && SliceIs(Join(parts, sep), Offset(parts, sep, k) + |parts[k]|, sep)
    ensures k + 1 == |parts| ==> Offset(parts, sep, k) + |parts[k]| == |Join(parts, sep)|
  {
    if k == 0 {
      assert parts[..0] == [];
      if |parts| > 1 {
        assert parts[..1][1..] == parts[1..][..0];
        assert Join(parts, sep) == parts[0] + sep + Join(parts[1..], sep);
      }
    } else {
      JoinPlaces(parts[1..], sep, k - 1);
      JoinPlacesStep(parts, sep, k);
    }
  }

  /** The inductive step of JoinPlaces: part k of parts is part k - 1 of the
      tail, moved along by the head part and one separator. */
  lemma JoinPlacesStep(parts: seq<Bytes>, sep: Bytes, k: nat)
    requires 0 < k < |parts|
    requires SliceIs(Join(parts[1..], sep), Offset(parts[1..], sep, k - 1), parts[k])
    requires k + 1 < |parts| ==>
               && Offset(parts[1..], sep, k) == Offset(parts[1..], sep, k - 1) + |parts[k]| + |sep|
               && SliceIs(Join(parts[1..], sep), Offset(parts[1..], sep, k - 1) + |parts[k]|, sep)
    requires k + 1 == |parts| ==> Offset(parts[1..], sep, k - 1) + |parts[k]| == |Join(parts[1..], sep)|
    ensures SliceIs(Join(parts, sep), Offset(parts, sep, k), parts[k])
    ensures k + 1 < |parts| ==>
              && Offset(parts, sep, k + 1) == Offset(parts, sep, k) + |parts[k]| + |sep|
              && SliceIs(Join(parts, sep), Offset(parts, sep, k) + |parts[k]|, sep)
    ensures k + 1 == |parts| ==> Offset(parts, sep, k) + |parts[k]| == |Join(parts, sep)|
  {
    var head := parts[0] + sep;
    var tail := Join(parts[1..], sep);
    assert Join(parts, sep) == head + tail;
    OffsetTail(parts, sep, k);
    ShiftedSlice(head, tail, Offset(parts[1..], sep, k - 1), parts[k]);
    if k + 1 < |parts| {
      OffsetTail(parts, sep, k + 1);
      ShiftedSlice(head, tail, Offset(parts[1..], sep, k - 1) + |parts[k]|, sep);
    }
  }

  /** s holds t starting at position lo. */
  predicate SliceIs(s: Bytes, lo: nat, t: Bytes) {
    lo + |t| <= |s| && s[lo..lo + |t|] == t
  }

  /** The offset of part k, k > 0, is the offset of part k - 1 in the tail
      moved along by the head part and one separator. */
  lemma OffsetTail(parts: seq<Bytes>, sep: Bytes, k: nat)
    requires 0 < k <= |parts|
    ensures Offset(parts, sep, k) == |parts[0]| + |sep| + Offset(parts[1..], sep, k - 1)
  {
    assert parts[..k][1..] == parts[1..][..k - 1];
    assert k * |sep| == |sep| + (k - 1) * |sep|;
  }

  /** What b holds at lo, a + b holds at |a| + lo. */
  lemma ShiftedSlice(a: Bytes, b: Bytes, lo: nat, t: Bytes)
    requires SliceIs(b, lo, t)
    ensures SliceIs(a + b, |a| + lo, t)
  {
    assert (a + b)[|a| + lo..|a| + lo + |t|] == b[lo..lo + |t|];
  }

  /** The number of bytes in all the parts together. */
  function TotalLength(parts: seq<Bytes>): nat
  {
    if parts == [] then 0 else |parts[0]| + TotalLength(parts[1..])
  }

  /** The width of the UTF-8 sequence at the head of s, 0 for the empty string. */
  function FirstRuneWidth(s: Bytes): nat
  {
    if s == [] then 0 else DecodeRune(s).1
  }

  /** What strings.Split promises of its pieces. They join back to s with sep.
      For a non-empty sep: there is at least one piece, none contains sep,
      and each but the last runs exactly up to the leftmost occurrence of sep
      in the text that is left. For the empty sep: each piece is the UTF-8
      sequence (or lone ill-formed byte) at the head of the text that is left. */
  predicate IsSplit(s: Bytes, sep: Bytes, pieces: seq<Bytes>) {
    && Join(pieces, sep) == s
    && (sep != [] ==>
          && |pieces| >= 1
          && (forall k :: 0 <= k < |pieces| ==> !Contains(pieces[k], sep))
          && (forall k :: 0 <= k < |pieces| - 1 ==> RunsToFirst(pieces[k], sep)))
    && (sep == [] ==>
          (forall k :: 0 <= k < |pieces| ==> pieces[k] != []) && RuneWide(pieces))
  }

  /** Each piece is exactly the UTF-8 sequence (or lone ill-formed byte) at
      the head of the text that is left from it on. */
  predicate RuneWide(pieces: seq<Bytes>) {
    forall k :: 0 <= k < |pieces| ==> FirstRuneWidth(Join(pieces[k..], [])) == |pieces[k]|
  }

  /** strings.Split with an empty separator: one piece per UTF-8 sequence,
      each keeping its original bytes (an ill-formed byte is a piece alone). */
  function Explode(s: Bytes): (pieces: seq<Bytes>)
    ensures |pieces| == |Decode(s)|
    ensures forall k :: 0 <= k < |pieces| ==> pieces[k] != []
    ensures Join(pieces, []) == s
    decreases |s|
  {
    if s == [] then []
    else
      var w := DecodeRune(s).1;
      var rest := Explode(s[w..]);
      ExplodeCons(s, w, rest);
      [s[..w]] + rest
  }

  /** One step of Explode: the head sequence in front of the pieces of the
      rest counts, joins and is non-empty as Explode promises. */
  lemma ExplodeCons(s: Bytes, w: nat, rest: seq<Bytes>)
    requires s != [] && w == DecodeRune(s).1
    requires |rest| == |Decode(s[w..])| && Join(rest, []) == s[w..]
    requires forall k :: 0 <= k < |rest| ==> rest[k] != []
    ensures |[s[..w]] + rest| == |Decode(s)|
    ensures forall k :: 0 <= k < |[s[..w]] + rest| ==> ([s[..w]] + rest)[k] != []
    ensures Join([s[..w]] + rest, []) == s
  {
    assert s[..w] + s[w..] == s;
    assert Decode(s) == [DecodeRune(s).0] + Decode(s[w..]);
    JoinEmptyCons(s[..w], rest);
  }

  /** Each piece of Explode(s) is exactly the UTF-8 sequence at the head of
      the text that is left: no piece cuts a sequence or holds two. */
  lemma {:induction false} ExplodeWidths(s: Bytes)
    ensures RuneWide(Explode(s))
    decreases |s|
  {
    if s != [] {
      var w := DecodeRune(s).1;
      var rest := Explode(s[w..]);
      ExplodeWidths(s[w..]);
      assert Explode(s) == [s[..w]] + rest;
      JoinEmptyCons(s[..w], rest);
      assert s[..w] + s[w..] == s;
      ConsWidths(s[..w], rest, s);
    }
  }

  /** With an empty separator, joining is concatenation. */
  lemma JoinEmptyCons(head: Bytes, rest: seq<Bytes>)
    ensures Join([head] + rest, []) == head + Join(rest, [])
  {
    if rest != [] {
      JoinCons(head, rest, []);
    } else {
      assert [head] + rest == [head];
    }
  }

  /** A piece one rune wide in front of pieces that are each one rune wide. */
  lemma ConsWidths(head: Bytes, rest: seq<Bytes>, s: Bytes)
    requires Join([head] + rest, []) == s && FirstRuneWidth(s) == |head|
    requires RuneWide(rest)
    ensures RuneWide([head] + rest)
  {
    var pieces := [head] + rest;
    assert pieces[0..] == pieces;
    forall k | 1 <= k < |pieces| ensures FirstRuneWidth(Join(pieces[k..], [])) == |pieces[k]| {
      assert pieces[k..] == rest[k - 1..];
    }
  }

  /** strings.Split with a non-empty separator: the text between successive
      leftmost non-overlapping occurrences of `sep`. */
  function SplitOn(s: Bytes, sep: Bytes): (pieces: seq<Bytes>)
    requires |sep| > 0
    ensures |pieces| >= 1
    ensures forall k :: 0 <= k < |pieces| ==> !Contains(pieces[k], sep)
    ensures Join(pieces, sep) == s
    ensures forall k :: 0 <= k < |pieces| - 1 ==> RunsToFirst(pieces[k], sep)
    decreases |s|
  {
    match Index(s, sep)
    case None => [s]
    case Some(i) =>
      var head := s[..i];
      var rest := SplitOn(s[i + |sep|..], sep);
      HeadBeforeFirst(s, sep, i);
      assert ([head] + rest)[1..] == rest;
      [head] + rest
  }

  /** Once sep is appended to p, its leftmost occurrence is the appended one:
      p runs exactly up to the first occurrence of sep in p + sep + anything.
      (AppendedFirst: then Index(p + sep, sep) is |p|.) */
  predicate RunsToFirst(p: Bytes, sep: Bytes) {
    forall j :: 0 <= j < |p| ==> !OccursAt(p + sep, sep, j)
  }

  /** The text before the first occurrence of sep holds none, runs up to
      the first occurrence, and with sep and the text after the occurrence
      makes up s. */
  lemma HeadBeforeFirst(s: Bytes, sep: Bytes, i: nat)
    requires |sep| > 0 && Index(s, sep) == Some(i)
    ensures !Contains(s[..i], sep)
    ensures RunsToFirst(s[..i], sep)
    ensures s[..i] + sep + s[i + |sep|..] == s
  {
    HeadHoldsNone(s, sep, i);
    HeadThenSep(s, sep, i);
    HeadRunsToFirst(s, sep, i);
  }

  lemma HeadThenSep(s: Bytes, sep: Bytes, i: nat)
    requires OccursAt(s, sep, i)
    ensures s[..i] + sep == s[..i + |sep|]
    ensures s[..i] + sep + s[i + |sep|..] == s
  {
    assert s[i..i + |sep|] == sep;
    assert s[..i + |sep|] + s[i + |sep|..] == s;
  }

  lemma HeadRunsToFirst(s: Bytes, sep: Bytes, i: nat)
    requires OccursAt(s, sep, i)
    requires forall j :: 0 <= j < i ==> !OccursAt(s, sep, j)
    ensures RunsToFirst(s[..i], sep)
  {
    HeadThenSep(s, sep, i);
    forall j | 0 <= j < i ensures !OccursAt(s[..i] + sep, sep, j) {
      OccursBefore(s, sep, i + |sep|, j);
    }
  }

  /** sep occurs at the end of p + sep, so when p runs up to the first
      occurrence, that is the one Index finds. */
  lemma AppendedFirst(p: Bytes, sep: Bytes)
    requires RunsToFirst(p, sep)
    ensures Index(p + sep, sep) == Some(|p|)
  {
    assert (p + sep)[|p|..|p| + |sep|] == sep;
    IndexIsFirst(p + sep, sep, |p|);
  }

  lemma HeadHoldsNone(s: Bytes, sep: Bytes, i: nat)
    requires |sep| > 0 && Index(s, sep) == Some(i)
    ensures !Contains(s[..i], sep)
  {
    forall j | OccursAt(s[..i], sep, j) ensures false {
      OccursInPrefix(s, sep, i, j);
    }
  }

  /** strings.Split. */
  function Split(s: Bytes, sep: Bytes): (pieces: seq<Bytes>)
    ensures IsSplit(s, sep, pieces)
    ensures sep == [] ==> |pieces| == |Decode(s)|
  {
    ExplodeWidths(s);
    if sep == [] then Explode(s) else SplitOn(s, sep)
  }

  /** The pieces strings.Split returns are the only ones with its properties:
      any split of s at sep, in the sense of IsSplit, is Split(s, sep). */
  lemma SplitUnique(s: Bytes, sep: Bytes, pieces: seq<Bytes>)
    ensures IsSplit(s, sep, pieces) <==> pieces == Split(s, sep)
  {
    if IsSplit(s, sep, pieces) {
      if sep == [] {
        ExplodeUnique(s, pieces);
      } else {
        SplitOnUnique(s, sep, pieces);
      }
    }
  }

  lemma {:induction false} SplitOnUnique(s: Bytes, sep: Bytes, pieces: seq<Bytes>)
    requires |sep| > 0 && IsSplit(s, sep, pieces)
    ensures pieces == SplitOn(s, sep)
    decreases |pieces|
  {
    if |pieces| == 1 {
      assert Index(s, sep).None?;
    } else {
      var head, rest := pieces[0], pieces[1..];
      assert pieces == [head] + rest;
      JoinCons(head, rest, sep);
      var tail := Join(rest, sep);
      assert s == (head + sep) + tail;
      AppendedFirst(head, sep);
      IndexExtend(head + sep, tail, sep, |head|);
      assert s[..|head|] == head;
      assert s[|head| + |sep|..] == tail;
      SplitOnStep(s, sep, |head|);
      assert forall k :: 0 <= k < |rest| ==> rest[k] == pieces[k + 1];
      SplitOnUnique(tail, sep, rest);
    }
  }

  lemma {:induction false} ExplodeUnique(s: Bytes, pieces: seq<Bytes>)
    requires IsSplit(s, [], pieces)
    ensures pieces == Explode(s)
    decreases |pieces|
  {
    if pieces != [] {
      var head, rest := pieces[0], pieces[1..];
      assert pieces == [head] + rest;
      var tail := Join(rest, []);
      assert s == head + tail by {
        if rest != [] { JoinCons(head, rest, []); }
      }
      assert pieces[0..] == pieces;
      assert DecodeRune(s).1 == |head|;
      assert s[..|head|] == head && s[|head|..] == tail;
      TailIsSplit(pieces);
      ExplodeUnique(tail, rest);
    }
  }

  /** Dropping the first piece of a split at the empty separator leaves a
      split of the rest of the text. */
  lemma TailIsSplit(pieces: seq<Bytes>)
    requires pieces != [] && IsSplit(Join(pieces, []), [], pieces)
    ensures IsSplit(Join(pieces[1..], []), [], pieces[1..])
  {
    var rest := pieces[1..];
    forall k | 0 <= k < |rest|
      ensures rest[k] != [] && FirstRuneWidth(Join(rest[k..], [])) == |rest[k]|
    {
      assert rest[k..] == pieces[k + 1..];
      assert rest[k] == pieces[k + 1];
    }
  }

  /** "aaa" split at "aa": the leftmost occurrence is cut, leaving "" and "a". */
  lemma SplitLeftmostExample()
    ensures Split("aaa", "aa") == [[], "a"]
  {
    var s, sep: Bytes := "aaa", "aa";
    assert OccursAt(s, sep, 0);
    assert Index(s, sep) == Some(0);
    assert s[2..] == "a";
    assert Index("a", sep) == None;
    SplitOnStep(s, sep, 0);
  }

  /** strings.Replace: the first n leftmost non-overlapping occurrences of
      `target` replaced by `replacement`; a negative n replaces all (strings.ReplaceAll). */
  function Replace(s: Bytes, target: Bytes, replacement: Bytes, n: int): (r: Bytes)
    requires |target| > 0
    decreases |s|
  {
    if n == 0 then s
    else
      match Index(s, target)
      case None => s
      case Some(i) => s[..i] + replacement + Replace(s[i + |target|..], target, replacement, if n > 0 then n - 1 else n)
  }

  /** Replace changes nothing when asked for no replacements or when
      `target` does not occur. */
  lemma ReplaceNothing(s: Bytes, target: Bytes, replacement: Bytes, n: int)
    requires |target| > 0
    ensures n == 0 || !Contains(s, target) ==> Replace(s, target, replacement, n) == s
  {
  }

  /** Replacing every occurrence is splitting at it and joining with the
      replacement. */
  lemma {:induction false} ReplaceAllIsSplitJoin(s: Bytes, target: Bytes, replacement: Bytes)
    requires |target| > 0
    ensures Replace(s, target, replacement, -1) == Join(SplitOn(s, target), replacement)
    decreases |s|
  {
    match Index(s, target)
    case None =>
    case Some(i) =>
      var rest := SplitOn(s[i + |target|..], target);
      ReplaceAllIsSplitJoin(s[i + |target|..], target, replacement);
      assert ([s[..i]] + rest)[1..] == rest;
  }

  /** Joining a list with a head element puts the separator after the head. */
  lemma JoinCons(head: Bytes, rest: seq<Bytes>, sep: Bytes)
    requires rest != []
    ensures Join([head] + rest, sep) == head + sep + Join(rest, sep)
  {
    assert ([head] + rest)[1..] == rest;
  }

  /** How many occurrences strings.Replace replaces: n of them, or all when
      n is negative or exceeds their number. */
  function ReplacedCount(s: Bytes, target: Bytes, n: int): (m: nat)
    requires |target| > 0
    ensures m < |SplitOn(s, target)|
  {
    var k := |SplitOn(s, target)| - 1;
    if n < 0 || n >= k then k else n
  }

  /** Moving one piece from the `target`-joined tail to the
      `replacement`-joined front. */
  lemma PartialJoinCons(head: Bytes, rest: seq<Bytes>, m: nat, target: Bytes, replacement: Bytes)
    requires m < |rest|
    ensures var pieces := [head] + rest;
            Join(pieces[..m + 1] + [Join(pieces[m + 1..], target)], replacement)
            == head + replacement + Join(rest[..m] + [Join(rest[m..], target)], replacement)
  {
    var pieces := [head] + rest;
    assert pieces[m + 1..] == rest[m..];
    assert pieces[..m + 1] + [Join(pieces[m + 1..], target)] == [head] + (rest[..m] + [Join(rest[m..], target)]);
    JoinCons(head, rest[..m] + [Join(rest[m..], target)], replacement);
  }

  /** One step of SplitOn: the text before the first occurrence, then the
      pieces of the text after it. */
  lemma SplitOnStep(s: Bytes, target: Bytes, i: nat)
    requires |target| > 0 && Index(s, target) == Some(i)
    ensures SplitOn(s, target) == [s[..i]] + SplitOn(s[i + |target|..], target)
  {
  }

  /** One step of ReplacedCount: past the first occurrence, one fewer is
      left to replace. */
  lemma ReplacedCountStep(s: Bytes, target: Bytes, i: nat, n: int)
    requires |target| > 0 && Index(s, target) == Some(i) && n != 0
    ensures ReplacedCount(s, target, n) == ReplacedCount(s[i + |target|..], target, if n > 0 then n - 1 else n) + 1
  {
    SplitOnStep(s, target, i);
  }

  /** strings.Replace against the split form: of the pieces between the
      occurrences of `target`, the first m + 1 are joined by `replacement`
      and the rest keep `target` between them. */
  lemma {:induction false} ReplaceIsPartialSplitJoin(s: Bytes, target: Bytes, replacement: Bytes, n: int)
    requires |target| > 0
    ensures PartialSplitJoin(s, target, replacement, n)
    decreases |s|
  {
    if n == 0 {
      var pieces := SplitOn(s, target);
      assert pieces[..0] + [Join(pieces[0..], target)] == [s];
    } else {
      match Index(s, target)
      case None =>
        var pieces := SplitOn(s, target);
        assert pieces == [s];
        assert pieces[..0] + [Join(pieces[0..], target)] == [s];
      case Some(i) =>
        ReplaceIsPartialSplitJoin(s[i + |target|..], target, replacement, if n > 0 then n - 1 else n);
        ReplaceStep(s, target, replacement, n, i);
    }
  }

  /** The statement of ReplaceIsPartialSplitJoin for one string. */
  predicate PartialSplitJoin(s: Bytes, target: Bytes, replacement: Bytes, n: int)
    requires |target| > 0
  {
    var pieces, m := SplitOn(s, target), ReplacedCount(s, target, n);
    Replace(s, target, replacement, n) == Join(pieces[..m] + [Join(pieces[m..], target)], replacement)
  }

  /** The inductive step of ReplaceIsPartialSplitJoin: past the first
      occurrence. */
  lemma ReplaceStep(s: Bytes, target: Bytes, replacement: Bytes, n: int, i: nat)
    requires |target| > 0 && n != 0 && Index(s, target) == Some(i)
    requires PartialSplitJoin(s[i + |target|..], target, replacement, if n > 0 then n - 1 else n)
    ensures PartialSplitJoin(s, target, replacement, n)
  {
    var tail := s[i + |target|..];
    var n' := if n > 0 then n - 1 else n;
    var rest, m := SplitOn(tail, target), ReplacedCount(tail, target, n');
    ReplaceUnfold(s, target, replacement, n, i);
    SplitOnStep(s, target, i);
    ReplacedCountStep(s, target, i, n);
    PartialJoinCons(s[..i], rest, m, target, replacement);
  }

  /** One step of Replace: the text before the first occurrence, the
      replacement, then the rest with one fewer left to replace. */
  lemma ReplaceUnfold(s: Bytes, target: Bytes, replacement: Bytes, n: int, i: nat)
    requires |target| > 0 && n != 0 && Index(s, target) == Some(i)
    ensures Replace(s, target, replacement, n)
            == s[..i] + replacement + Replace(s[i + |target|..], target, replacement, if n > 0 then n - 1 else n)
  {
  }

  /** Replacing a string by itself changes nothing, however many times. */
  lemma {:induction false} ReplaceSelf(s: Bytes, target: Bytes, n: int)
    requires |target| > 0
    ensures Replace(s, target, target, n) == s
    decreases |s|
  {
    if n != 0 {
      match Index(s, target)
      case None =>
      case Some(i) =>
        ReplaceSelf(s[i + |target|..], target, if n > 0 then n - 1 else n);
        assert s[i..i + |target|] == target;
        assert s[..i] + target + s[i + |target|..] == s;
    }
  }

  /** strings.Repeat: `count` copies of s, one after another. */
  function Repeat(s: Bytes, count: nat): (r: Bytes)
    ensures |r| == |s| * count
  {
    if count == 0 then []
    else
      assert |s| * count == |s| + |s| * (count - 1);
      s + Repeat(s, count - 1)
  }

  /** Byte j of copy k of a repeated string is byte j of the original. */
  lemma {:induction false} RepeatAt(s: Bytes, count: nat, k: nat, j: nat)
    requires k < count && j < |s|
    ensures k * |s| + j < |Repeat(s, count)|
    ensures Repeat(s, count)[k * |s| + j] == s[j]
    decreases k
  {
    assert |s| * count == |s| * (count - 1) + |s|;
    assert k * |s| <= (count - 1) * |s|;
    if k > 0 {
      RepeatAt(s, count - 1, k - 1, j);
      assert k * |s| + j - |s| == (k - 1) * |s| + j;
    }
  }

  /** The elements of xs in reverse order. */
  function Rev<T>(xs: seq<T>): (r: seq<T>)
    ensures |r| == |xs|
    ensures forall i :: 0 <= i < |xs| ==> r[i] == xs[|xs| - 1 - i]
  {
    if xs == [] then [] else Rev(xs[1..]) + [xs[0]]
  }

  /** The string provider's reverse: `string` of the reversed `[]rune`. The
      result is well-formed UTF-8 whose runes are those of s, last first. */
  function Reverse(s: Bytes): (r: Bytes)
    ensures Valid(r)
    ensures Decode(r) == Rev(Decode(s))
  {
    EncodeValid(Rev(Decode(s)));
    DecodeEncode(Rev(Decode(s)));
    Encode(Rev(Decode(s)))
  }

  /** Reversing twice gives the string back when it is well-formed UTF-8 (every
      string decoded from JSON is); otherwise each ill-formed byte has become
      U+FFFD. */
  lemma ReverseTwice(s: Bytes)
    ensures Reverse(Reverse(s)) == Encode(Decode(s))
    ensures Valid(s) ==> Reverse(Reverse(s)) == s
  {
    var rs := Decode(s);
    DecodeEncode(Rev(rs));
    assert Rev(Rev(rs)) == rs;
    if Valid(s) {
      EncodeDecode(s);
    }
  }

  /** Reverse keeps the rune count, always yields well-formed UTF-8, and keeps
      the byte length of a well-formed string. */
  lemma ReverseShape(s: Bytes)
    ensures Valid(Reverse(s))
    ensures |Decode(Reverse(s))| == |Decode(s)|
    ensures Valid(s) ==> |Reverse(s)| == |s|
  {
    EncodeValid(Rev(Decode(s)));
    DecodeEncode(Rev(Decode(s)));
    EncodeLengthRev(Decode(s));
    if Valid(s) {
      EncodeDecode(s);
    }
  }

  lemma {:induction false} EncodeLengthRev(rs: seq<Rune>)
    ensures |Encode(Rev(rs))| == |Encode(rs)|
  {
    if rs != [] {
      EncodeLengthRev(rs[1..]);
      EncodeAppend(Rev(rs[1..]), [rs[0]]);
      assert Encode([rs[0]]) == EncodeRune(rs[0]) + Encode([]);
    }
  }
}

=== FILE: id_provider.dfy ===
/** The id provider: id/main.go's uuid, ulid, nanoid and snowflake. The clock
    (time.Now().UnixMilli()) is the argument `now` and crypto/rand is an
    `Rng`; the UUID follows version 4 of RFC 4122 (section 4.4), as the
    google/uuid package produces it. */
module IdProvider {

  import opened Wrappers
  import opened ByteStrings
  import opened Json
  import opened Coerce
  import opened Protocol
  import opened Entropy

  datatype Op = Uuid | Ulid | NanoId | Snowflake

  /** The case labels of each operation; uuid has two. */
  function Names(op: Op): (names: set<Bytes>)
    ensures names != {}
  {
    match op
    case Uuid => {"uuid", "uuid4"}
    case Ulid => {"ulid"}
    case NanoId => {"nanoid"}
    case Snowflake => {"snowflake"}
  }

  function Lookup(name: Bytes): (r: Option<Op>)
    ensures r.Some? ==> name in Names(r.value)
  {
    if name == "uuid" || name == "uuid4" then Some(Uuid)
    else if name == "ulid" then Some(Ulid)
    else if name == "nanoid" then Some(NanoId)
    else if name == "snowflake" then Some(Snowflake)
    else None
  }

  /** An operation is reached by exactly its own labels. */
  lemma LookupNames(op: Op, name: Bytes)
    ensures Lookup(name) == Some(op) <==> name in Names(op)
  {
  }

  // ---------------------------------------------------------------------------
  // uuid

  /** The sixteen random bytes with the version nibble set to 4 and the
      variant bits set to 10. */
  function UuidBytes(raw: Bytes): (bs: Bytes)
    requires |raw| == 16
    ensures |bs| == 16
    ensures bs[6] as int / 16 == 4
    ensures 8 <= bs[8] as int / 16 <= 11
    ensures forall k :: 0 <= k < 16 && k != 6 && k != 8 ==> bs[k] == raw[k]
  {
    raw[6 := ByteOf(raw[6] as int % 16 + 0x40)][8 := ByteOf(raw[8] as int % 64 + 0x80)]
  }

  /** The canonical 8-4-4-4-12 text of sixteen bytes. */
  function UuidText(bs: Bytes): (t: Bytes)
    requires |bs| == 16
    ensures |t| == 36
    ensures t[8] == '-' && t[13] == '-' && t[18] == '-' && t[23] == '-'
    ensures t[..8] == HexEncode(bs[..4]) && t[9..13] == HexEncode(bs[4..6])
    ensures t[14..18] == HexEncode(bs[6..8]) && t[19..23] == HexEncode(bs[8..10])
    ensures t[24..] == HexEncode(bs[10..])
  {
    HexEncode(bs[..4]) + "-" + HexEncode(bs[4..6]) + "-" + HexEncode(bs[6..8]) + "-"
      + HexEncode(bs[8..10]) + "-" + HexEncode(bs[10..])
  }

  /** Outside the four dashes, the text is hexadecimal digits. */
  lemma UuidTextDigits(bs: Bytes)
    requires |bs| == 16
    ensures forall i :: 0 <= i < 36 && i !in {8, 13, 18, 23} ==> IsHexDigit(UuidText(bs)[i])
  {
    var t := UuidText(bs);
    forall i | 0 <= i < 36 && i !in {8, 13, 18, 23}
      ensures IsHexDigit(t[i])
    {
      if i < 8 { assert t[i] == t[..8][i]; }
      else if i < 13 { assert t[i] == t[9..13][i - 9]; }
      else if i < 18 { assert t[i] == t[14..18][i - 14]; }
      else if i < 23 { assert t[i] == t[19..23][i - 19]; }
      else { assert t[i] == t[24..][i - 24]; }
    }
  }

  /** The version digit and the variant digit are the high nibbles of bytes
      6 and 8. */
  lemma UuidTextMarks(bs: Bytes)
    requires |bs| == 16
    ensures UuidText(bs)[14] == HexDigit(bs[6] as int / 16)
    ensures UuidText(bs)[19] == HexDigit(bs[8] as int / 16)
  {
    var t := UuidText(bs);
    assert t[14] == t[14..18][0] == HexEncode(bs[6..8])[0];
    assert t[19] == t[19..23][0] == HexEncode(bs[8..10])[0];
  }

  /** The text of version-4 bytes shows the version and variant digits. */
  lemma UuidShape(bs: Bytes)
    requires |bs| == 16 && bs[6] as int / 16 == 4 && 8 <= bs[8] as int / 16 <= 11
    ensures UuidText(bs)[14] == '4'
    ensures UuidText(bs)[19] in {'8', '9', 'a', 'b'}
    ensures forall i :: 0 <= i < 36 && i !in {8, 13, 18, 23} ==> IsHexDigit(UuidText(bs)[i])
  {
    UuidTextDigits(bs);
    UuidTextMarks(bs);
  }

  /** uuid.New().String() over draws 0..15. */
  function HandleUuid(rng: Rng): (o: Outcome)
    ensures o.Ok? && o.tag == UuidTag && o.value.JStr?
    ensures |o.value.s| == 36
    ensures o.value.s[14] == '4'
    ensures o.value.s[19] in {'8', '9', 'a', 'b'}
    ensures forall i :: 0 <= i < 36 && i !in {8, 13, 18, 23} ==> IsHexDigit(o.value.s[i])
    ensures o.value.s[8] == '-' && o.value.s[13] == '-' && o.value.s[18] == '-' && o.value.s[23] == '-'
  {
    var bs := UuidBytes(ReadBytes(rng, 0, 16));
    UuidShape(bs);
    UuidTextMarks(bs);
    Ok(JStr(UuidText(bs)), UuidTag)
  }

  // ---------------------------------------------------------------------------
  // ulid

  const Two52: nat := 0x10_0000_0000_0000

  /** `%013x%013x` of the timestamp and a draw below 2^52 (13 hex digits). */
  function UlidText(now: nat, rnd: nat): (t: Bytes)
    requires rnd < Two52
    ensures now < Pow16(13) ==> |t| == 26
    ensures now < Pow16(13) ==> HexParse(t[..13]) == now && HexParse(t[13..]) == rnd
  {
    assert Pow16(13) == Two52 by {
      assert Pow16(4) == 0x1_0000;
      assert Pow16(8) == 0x1_0000_0000;
      assert Pow16(12) == 0x1_0000_0000_0000;
    }
    HexNatWidth(rnd, 13);
    HexNatWidth(now, 13);
    HexPaddedParse(now, 13);
    HexPaddedParse(rnd, 13);
    var t := HexPadded(now, 13) + HexPadded(rnd, 13);
    assert now < Pow16(13) ==> t[..13] == HexPadded(now, 13) && t[13..] == HexPadded(rnd, 13);
    t
  }

  function HandleUlid(now: nat, rng: Rng): (o: Outcome)
    ensures o.Ok? && o.tag == StringTag && o.value.JStr?
    ensures now < Pow16(13) ==> |o.value.s| == 26 && HexParse(o.value.s[..13]) == now
    ensures now < Pow16(13) ==> HexParse(o.value.s[13..]) == rng(0, Two52) < Two52
    ensures forall i :: 0 <= i < |o.value.s| ==> IsHexDigit(o.value.s[i])
  {
    Ok(JStr(UlidText(now, Below(rng, 0, Two52))), StringTag)
  }

  // ---------------------------------------------------------------------------
  // nanoid

  const DefaultAlphabet: Bytes := "_-0123456789abcdefghijklmnopqrstuvwxyz" + "ABCDEFGHIJKLMNOPQRSTUVWXYZ"

  function NanoSize(params: Params): int
    requires IntConvertible(params, "size")
  {
    GetInt(params, "size", 21)
  }

  function Alphabet(params: Params): Bytes {
    GetString(params, "alphabet", DefaultAlphabet)
  }

  /** `size` bytes, byte i being alphabet[draw i below len(alphabet)]. */
  function NanoIdText(alphabet: Bytes, size: nat, rng: Rng): (t: Bytes)
    requires size == 0 || alphabet != []
    ensures |t| == size
    ensures forall i :: 0 <= i < size ==> t[i] == alphabet[rng(i, |alphabet|)]
  {
    if size == 0 then [] else NanoIdText(alphabet, size - 1, rng) + [alphabet[Below(rng, size - 1, |alphabet|)]]
  }

  /** nanoid never fails; a negative size or an empty alphabet with a
      positive size panics in Go, so they are outside `Defined`. */
  function HandleNanoId(params: Params, rng: Rng): (o: Outcome)
    requires IntConvertible(params, "size")
    requires NanoSize(params) >= 0 && (NanoSize(params) == 0 || Alphabet(params) != [])
    ensures o.Ok? && o.tag == StringTag && o.value.JStr?
    ensures |o.value.s| == NanoSize(params)
    ensures forall i :: 0 <= i < |o.value.s| ==> o.value.s[i] in Alphabet(params)
  {
    Ok(JStr(NanoIdText(Alphabet(params), NanoSize(params), rng)), StringTag)
  }

  /** The position of the first occurrence of c in s. */
  function IndexOf(s: Bytes, c: byte): (k: nat)
    requires c in s
    ensures k < |s| && s[k] == c
  {
    if s[0] == c then 0 else 1 + IndexOf(s[1..], c)
  }

  /** Every string of the right length over the alphabet is a possible
      nanoid: some sequence of draws produces it. */
  lemma NanoIdCoversAlphabet(alphabet: Bytes, target: Bytes)
    requires alphabet != []
    requires forall i :: 0 <= i < |target| ==> target[i] in alphabet
    ensures var rng: Rng := (i: nat, bound: nat) =>
              if i < |target| && bound == |alphabet| then IndexOf(alphabet, target[i]) else 0;
            NanoIdText(alphabet, |target|, rng) == target
  {
  }

  // ---------------------------------------------------------------------------
  // snowflake

  const Two22: nat := 0x40_0000
  const Two41: nat := 0x200_0000_0000
  const Two63: nat := 0x8000_0000_0000_0000

  /** An integer reduced to int64 by two's-complement wrap-around. */
  function WrapInt64(x: int): (r: int)
    ensures InInt64(r)
    ensures (r - x) % Two64 == 0
    ensures 0 <= x < Two63 ==> r == x
  {
    var u := x % Two64;
    if u >= Two63 then u - Two64 else u
  }

  /** The int64 `x & mask` for mask = 2^k - 1: the low k bits, also for a
      negative x. */
  function LowBits(x: int, width: nat): (r: nat)
    requires width > 0
    ensures r < width && exists q :: x == width * q + r
    ensures 0 <= x < width ==> r == x
  {
    var q := x / width;
    assert x == width * q + x % width;
    x % width
  }

  /** The worker field: the `worker` parameter masked to 10 bits, default 0. */
  function Worker(params: Params): (w: nat)
    requires IntConvertible(params, "worker")
    ensures w < 1024
    ensures !("worker" in params && params["worker"].JNum?) ==> w == 0
    ensures 0 <= GetInt(params, "worker", 0) < 1024 ==> w == GetInt(params, "worker", 0)
  {
    LowBits(GetInt(params, "worker", 0), 1024)
  }

  /** The sequence parameter, or draw 0 below 4096; the draw is taken even
      when the parameter is given, since Go evaluates the default first. */
  function Sequence(params: Params, rng: Rng): (q: nat)
    requires IntConvertible(params, "sequence")
    ensures q < 4096
    ensures !("sequence" in params && params["sequence"].JNum?) ==> q == rng(0, 4096)
    ensures 0 <= GetInt(params, "sequence", 0) < 4096 && "sequence" in params && params["sequence"].JNum? ==>
              q == GetInt(params, "sequence", 0)
  {
    LowBits(GetInt(params, "sequence", Below(rng, 0, 4096)), 4096)
  }

  /** `(timestamp << 22) | (worker << 12) | sequence` in int64. The low 22
      bits of the shifted timestamp are zero, so the ORs are additions; the
      shift wraps once the timestamp reaches 2^41. */
  function SnowflakeId(now: nat, worker: nat, sequence: nat): (id: int)
    requires worker < 1024 && sequence < 4096
    ensures InInt64(id)
    ensures now < Two41 ==> id == now * Two22 + worker * 4096 + sequence
  {
    WrapInt64(now * Two22 + worker * 4096 + sequence)
  }

  /** Before 2^41 ms, the id decodes back into its three fields. */
  lemma SnowflakeDecodes(now: nat, worker: nat, sequence: nat)
    requires now < Two41 && worker < 1024 && sequence < 4096
    ensures var id := SnowflakeId(now, worker, sequence);
            id >= 0 && id / Two22 == now && (id % Two22) / 4096 == worker && id % 4096 == sequence
  {
    var low := worker * 4096 + sequence;
    assert low < Two22 by {
      assert worker * 4096 <= 1023 * 4096;
    }
    var id := now * Two22 + low;
    assert id == SnowflakeId(now, worker, sequence);
    DivModOf(now, low, Two22);
    DivModOf(worker, sequence, 4096);
    assert id == (now * 1024 + worker) * 4096 + sequence;
    DivModOf(now * 1024 + worker, sequence, 4096);
  }

  function HandleSnowflake(params: Params, now: nat, rng: Rng): (o: Outcome)
    requires IntConvertible(params, "worker") && IntConvertible(params, "sequence")
    ensures o.Ok? && o.tag == IntTag && o.value.JNum?
    ensures o.value.n == SnowflakeId(now, Worker(params), Sequence(params, rng)) as real
    ensures now < Two41 ==> o.value.n == (now * Two22 + Worker(params) * 4096 + Sequence(params, rng)) as real
  {
    Ok(JNum(SnowflakeId(now, Worker(params), Sequence(params, rng)) as real), IntTag)
  }

  // ---------------------------------------------------------------------------
  // Dispatch

  predicate Defined(op: Op, params: Params) {
    match op
    case NanoId =>
      && IntConvertible(params, "size")
      && NanoSize(params) >= 0 && (NanoSize(params) == 0 || Alphabet(params) != [])
    case Snowflake => IntConvertible(params, "worker") && IntConvertible(params, "sequence")
    case _ => true
  }

  /** Every id operation succeeds. */
  function Apply(op: Op, params: Params, now: nat, rng: Rng): (o: Outcome)
    requires Defined(op, params)
    ensures o.Ok?
    ensures o.tag == (if op == Uuid then UuidTag else if op == Snowflake then IntTag else StringTag)
  {
    match op
    case Uuid => HandleUuid(rng)
    case Ulid => HandleUlid(now, rng)
    case NanoId => HandleNanoId(params, rng)
    case Snowflake => HandleSnowflake(params, now, rng)
  }

  predicate Runs(req: Request) {
    match Lookup(req.name)
    case None => true
    case Some(op) => Defined(op, req.params)
  }

  /** One invocation of the id provider. */
  function Run(input: Input, now: nat, rng: Rng, written: bool): (e: Exit)
    requires input.Decoded? ==> Runs(input.request)
    ensures Exclusive(e.response)
    ensures e.status == 1 <==> e.response.error != [] || !written
    ensures input.Decoded? && Lookup(input.request.name).None? ==>
              e.response.error == UnknownFunction(input.request.name)
    ensures input.Decoded? && Lookup(input.request.name).Some? ==>
              e == Send(Apply(Lookup(input.request.name).value, input.request.params, now, rng), ExitOnWriteFailure, written)
    ensures input.Decoded? && Lookup(input.request.name).Some? ==> e.response.error == []
  {
    var handle := (op: Op, req: Request) requires Defined(op, req.params) => Apply(op, req.params, now, rng);
    RunExclusive(input, Lookup, handle, ExitOnWriteFailure, written);
    Protocol.Run(input, Lookup, handle, ExitOnWriteFailure, written)
  }
}

=== FILE: json.dfy ===
/** The dynamic value a request carries and a response returns: what Go's
    encoding/json decodes into `any` (a number is always a float64, held here
    as its exact value), and how fmt.Sprint prints one. */
module Json {

  import opened ByteStrings

  datatype Json =
    | JNull
    | JBool(b: bool)
    | JNum(n: real)
    | JStr(s: Bytes)
    | JArr(items: seq<Json>)
    | JObj(fields: map<Bytes, Json>)

  /** A request's `params` or `context` object; an absent object is empty. */
  type Params = map<Bytes, Json>

  /** The parts of fmt.Sprint the model leaves abstract: numbers that are
      neither integers below 2^53 in magnitude nor plain, and arrays and
      objects. */
  datatype Printer = Printer(otherNumber: real -> Bytes, composite: Json -> Bytes)

  predicate IsIntegral(x: real) {
    x == x.Floor as real
  }

  /** %v prints a float64 as strconv's 'g' format with the shortest digits
      that read back to it: plain digits while the decimal exponent is below
      6, exponent form (1e+06) from 6 on. */
  const PlainDigitsLimit: real := 1_000_000.0

  /** Every integer of magnitude below 2^53 is a float64, and the shortest
      digits that read back to it are its own decimal digits. */
  const ExactIntegerLimit: real := 9_007_199_254_740_992.0

  predicate PrintsAsInteger(x: real) {
    IsIntegral(x) && -PlainDigitsLimit < x < PlainDigitsLimit
  }

  predicate PrintsInExponentForm(x: real) {
    && IsIntegral(x)
    && -ExactIntegerLimit < x < ExactIntegerLimit
    && (x <= -PlainDigitsLimit || PlainDigitsLimit <= x)
  }

  /** The digits without their trailing zeros, keeping at least one. */
  function SignificantDigits(ds: Bytes): (sig: Bytes)
    requires |ds| >= 1
    ensures 1 <= |sig| <= |ds| && sig == ds[..|sig|]
    ensures forall i :: |sig| <= i < |ds| ==> ds[i] == '0'
    ensures |sig| > 1 ==> sig[|sig| - 1] != '0'
  {
    if |ds| > 1 && ds[|ds| - 1] == '0' then SignificantDigits(ds[..|ds| - 1]) else ds
  }

  /** The exponent of %e: 'e', its sign, and at least two digits. */
  function ExponentText(e: nat): (t: Bytes)
    ensures |t| >= 4 && t[..2] == "e+"
  {
    "e+" + (if e < 10 then "0" else "") + DecimalNat(e)
  }

  /** %v of an integral float64 in exponent form: the first significant digit,
      a point and the remaining significant digits when there are any, then
      the power of ten. */
  function ExponentForm(k: int): (text: Bytes)
    ensures 'e' in text
    ensures text[0] == '-' <==> k < 0
  {
    var ds := DecimalNat(if k < 0 then -k else k);
    var sig := SignificantDigits(ds);
    var mantissa := if |sig| == 1 then sig else sig[..1] + "." + sig[1..];
    var sign: Bytes := if k < 0 then "-" else "";
    var text := sign + mantissa + ExponentText(|ds| - 1);
    assert text[|sign| + |mantissa|] == 'e';
    text
  }

  /** fmt.Sprint of one decoded value. */
  function Sprint(p: Printer, v: Json): (text: Bytes)
    ensures v.JStr? ==> text == v.s
    ensures v.JNum? && PrintsAsInteger(v.n) ==> text == Decimal(v.n.Floor)
    ensures v.JNum? && PrintsInExponentForm(v.n) ==> text == ExponentForm(v.n.Floor)
  {
    match v
    case JNull => "<nil>"
    case JBool(b) => if b then "true" else "false"
    case JNum(x) =>
      if PrintsAsInteger(x) then Decimal(x.Floor)
      else if PrintsInExponentForm(x) then ExponentForm(x.Floor)
      else p.otherNumber(x)
    case JStr(s) => s
    case JArr(_) => p.composite(v)
    case JObj(_) => p.composite(v)
  }

  /** fmt.Sprint of each element, as the join handlers build their []string. */
  function SprintAll(p: Printer, items: seq<Json>): (texts: seq<Bytes>)
    ensures |texts| == |items|
    ensures forall i :: 0 <= i < |items| ==> texts[i] == Sprint(p, items[i])
  {
    if items == [] then [] else [Sprint(p, items[0])] + SprintAll(p, items[1..])
  }

  /** A []string as a JSON array of strings. */
  function StrValues(texts: seq<Bytes>): (vs: seq<Json>)
    ensures |vs| == |texts|
    ensures forall i :: 0 <= i < |texts| ==> vs[i] == JStr(texts[i])
  {
    if texts == [] then [] else [JStr(texts[0])] + StrValues(texts[1..])
  }

  /** A whole number below 10^6 in magnitude prints exactly like the string
      of its digits, so the two are indistinguishable once printed (1 and "1"). */
  lemma NumberPrintsAsDigits(p: Printer, k: int)
    requires -PlainDigitsLimit < k as real < PlainDigitsLimit
    ensures Sprint(p, JNum(k as real)) == Sprint(p, JStr(Decimal(k)))
  {
  }

  /** Two whole numbers print alike only when they are equal. */
  lemma IntegersPrintApart(p: Printer, x: real, y: real)
    requires PrintsAsInteger(x) && PrintsAsInteger(y)
    requires Sprint(p, JNum(x)) == Sprint(p, JNum(y))
    ensures x == y
  {
    DecimalInjective(x.Floor, y.Floor);
  }

  /** From 10^6 on, a whole number prints in exponent form, which contains an
      'e' that no string of decimal digits does: 1000000 and "1000000" print
      apart. */
  lemma LargeIntegerPrintsApart(p: Printer, k: int)
    requires PrintsInExponentForm(k as real)
    ensures Sprint(p, JNum(k as real)) != Sprint(p, JStr(Decimal(k)))
  {
    var t := Sprint(p, JNum(k as real));
    assert t == ExponentForm(k);
    var i :| 0 <= i < |t| && t[i] == 'e';
    DecimalHasNoLetters(k);
  }

  lemma DecimalHasNoLetters(k: int)
    ensures 'e' !in Decimal(k)
  {
    var d := Decimal(k);
    if k < 0 {
      DecimalNegative(k);
      assert forall i :: 1 <= i < |d| ==> d[i] == DecimalNat(-k)[i - 1];
    }
  }

  /** 10^6 and 1234567 as %v prints them. */
  lemma MillionPrintsInExponentForm(p: Printer)
    ensures Sprint(p, JNum(1_000_000.0)) == "1e+06"
    ensures Sprint(p, JNum(1_234_567.0)) == "1.234567e+06"
  {
    ExponentFormOfMillion();
    assert (1_000_000.0).Floor == 1_000_000;
    assert (1_234_567.0).Floor == 1_234_567;
  }

  lemma ExponentFormOfMillion()
    ensures ExponentForm(1_000_000) == "1e+06"
    ensures ExponentForm(1_234_567) == "1.234567e+06"
  {
    MillionDigits();
    SixDigitExponent();
    TrailingZerosOfMillion();
    OneMillionForm();
    SevenDigitForm();
  }

  lemma SixDigitExponent()
    ensures ExponentText(6) == "e+06"
  {
    assert DecimalNat(6) == "6";
  }

  lemma OneMillionForm()
    requires DecimalNat(1_000_000) == "1000000"
    requires SignificantDigits("1000000") == "1"
    requires ExponentText(6) == "e+06"
    ensures ExponentForm(1_000_000) == "1e+06"
  {
  }

  lemma SevenDigitForm()
    requires DecimalNat(1_234_567) == "1234567"
    requires ExponentText(6) == "e+06"
    ensures ExponentForm(1_234_567) == "1.234567e+06"
  {
    var ds: Bytes := "1234567";
    NoTrailingZero(ds);
    PointedForm(1_234_567, ds);
    assert ds[..1] + "." + ds[1..] == "1.234567";
  }

  lemma NoTrailingZero(ds: Bytes)
    requires |ds| > 1 && ds[|ds| - 1] != '0'
    ensures SignificantDigits(ds) == ds
  {
  }

  /** The %e form of a non-negative integer whose digits end in no zero. */
  lemma PointedForm(k: nat, ds: Bytes)
    requires DecimalNat(k) == ds && |ds| > 1 && SignificantDigits(ds) == ds
    ensures ExponentForm(k) == ds[..1] + "." + ds[1..] + ExponentText(|ds| - 1)
  {
  }

  lemma TrailingZerosOfMillion()
    ensures SignificantDigits("1000000") == "1"
  {
    var ds: Bytes := "1000000";
    assert SignificantDigits(ds) == SignificantDigits(ds[..6]);
    assert SignificantDigits(ds[..6]) == SignificantDigits(ds[..5]);
    assert SignificantDigits(ds[..5]) == SignificantDigits(ds[..4]);
    assert SignificantDigits(ds[..4]) == SignificantDigits(ds[..3]);
    assert SignificantDigits(ds[..3]) == SignificantDigits(ds[..2]);
    assert SignificantDigits(ds[..2]) == SignificantDigits(ds[..1]);
  }

  lemma MillionDigits()
    ensures DecimalNat(1_000_000) == "1000000"
    ensures DecimalNat(1_234_567) == "1234567"
  {
    assert DecimalNat(10) == "10";
    assert DecimalNat(100) == "100";
    assert DecimalNat(1000) == "1000";
    assert DecimalNat(10_000) == "10000";
    assert DecimalNat(100_000) == "100000";
    assert DecimalNat(12) == "12";
    assert DecimalNat(123) == "123";
    assert DecimalNat(1234) == "1234";
    assert DecimalNat(12_345) == "12345";
    assert DecimalNat(123_456) == "123456";
  }
}

=== FILE: list_provider.dfy ===
/** The list provider: list/main.go's six functions over an `items` array. */
module ListProvider {

  import opened Wrappers
  import opened ByteStrings
  import opened Json
  import opened Coerce
  import opened Protocol
  import GoStrings
  import Slicing

  datatype Op = Generate | Join | Slice | Length | Contains | Index

  function Name(op: Op): Bytes {
    match op
    case Generate => "generate"
    case Join => "join"
    case Slice => "slice"
    case Length => "length"
    case Contains => "contains"
    case Index => "index"
  }

  function Lookup(name: Bytes): (r: Option<Op>)
    ensures r.Some? ==> Name(r.value) == name
  {
    if name == "generate" then Some(Generate)
    else if name == "join" then Some(Join)
    else if name == "slice" then Some(Slice)
    else if name == "length" then Some(Length)
    else if name == "contains" then Some(Contains)
    else if name == "index" then Some(Index)
    else None
  }

  lemma LookupName(op: Op, name: Bytes)
    ensures Lookup(Name(op)) == Some(op)
    ensures Lookup(name) == Some(op) <==> name == Name(op)
  {
  }

  const ItemsRequired: Bytes := "items parameter required and must be a list"

  function SliceEnd(params: Params, items: seq<Json>): int
    requires IntConvertible(params, "end")
  {
    GetInt(params, "end", |items|)
  }

  predicate Defined(op: Op, params: Params) {
    match op
    case Generate => IntConvertible(params, "count")
    case Slice =>
      && IntConvertible(params, "start") && IntConvertible(params, "end")
      && (GetList(params, "items").Some? ==> SliceEnd(params, GetList(params, "items").value) >= 0)
    case Index => IntConvertible(params, "index")
    case _ => true
  }

  /** Every operation but generate reads `items` first. */
  predicate TakesItems(op: Op) {
    op != Generate
  }

  // ---------------------------------------------------------------------------
  // Handlers

  /** `count` copies of `template`. The per-item `$self` context is built and
      then dropped by the template clone, so the copies are identical and the
      request context plays no part. */
  function HandleGenerate(params: Params): (o: Outcome)
    requires IntConvertible(params, "count")
    ensures GetInt(params, "count", 0) <= 0 ==> o == Err("count parameter required and must be positive")
    ensures GetInt(params, "count", 0) > 0 && "template" !in params ==> o == Err("template parameter required")
    ensures o.Ok? <==> GetInt(params, "count", 0) > 0 && "template" in params
    ensures o.Ok? ==> o.tag == ListTag && o.value.JArr?
    ensures o.Ok? ==> |o.value.items| == GetInt(params, "count", 0)
    ensures o.Ok? ==> forall i :: 0 <= i < |o.value.items| ==> o.value.items[i] == params["template"]
  {
    var count := GetInt(params, "count", 0);
    if count <= 0 then Err("count parameter required and must be positive")
    else if "template" !in params then Err("template parameter required")
    else Ok(JArr(seq(count, _ => params["template"])), ListTag)
  }

  /** fmt.Sprint of each item joined with `separator` (default ","). */
  function HandleJoin(params: Params, printer: Printer): (o: Outcome)
    ensures GetList(params, "items").None? <==> o.Err?
    ensures o.Err? ==> o.message == ItemsRequired
    ensures o.Ok? ==> o.tag == StringTag
    ensures o.Ok? ==> o.value == JStr(GoStrings.Join(SprintAll(printer, params["items"].items),
                                                     GetString(params, "separator", ",")))
  {
    match GetList(params, "items")
    case None => Err(ItemsRequired)
    case Some(items) => Ok(JStr(GoStrings.Join(SprintAll(printer, items), GetString(params, "separator", ","))), StringTag)
  }

  function HandleSlice(params: Params): (o: Outcome)
    requires Defined(Slice, params)
    ensures GetList(params, "items").None? <==> o.Err?
    ensures o.Err? ==> o.message == ItemsRequired
    ensures o.Ok? ==> o.tag == ListTag && o.value.JArr?
    ensures o.Ok? ==> var items := params["items"].items;
              var lo, hi := Slicing.Max(GetInt(params, "start", 0), 0), Slicing.Min(SliceEnd(params, items), |items|);
              && |o.value.items| == Slicing.Max(0, hi - lo)
              && forall t :: 0 <= t < |o.value.items| ==> o.value.items[t] == items[lo + t]
  {
    match GetList(params, "items")
    case None => Err(ItemsRequired)
    case Some(items) => Ok(JArr(Slicing.ClampSlice(items, GetInt(params, "start", 0), SliceEnd(params, items))), ListTag)
  }

  function HandleLength(params: Params): (o: Outcome)
    ensures GetList(params, "items").None? <==> o.Err?
    ensures o.Err? ==> o.message == ItemsRequired
    ensures o.Ok? ==> o == Ok(JNum(|params["items"].items| as real), IntTag)
  {
    match GetList(params, "items")
    case None => Err(ItemsRequired)
    case Some(items) => Ok(JNum(|items| as real), IntTag)
  }

  /** Whether some item prints the same as `value`: comparison is by the
      fmt.Sprint text, so the number 1 and the string "1" match. */
  function Member(printer: Printer, items: seq<Json>, value: Json): (b: bool)
    ensures b <==> exists i :: 0 <= i < |items| && Sprint(printer, items[i]) == Sprint(printer, value)
  {
    if items == [] then false
    else if Sprint(printer, items[0]) == Sprint(printer, value) then true
    else
      var rest := Member(printer, items[1..], value);
      assert forall i :: 1 <= i < |items| ==> items[i] == items[1..][i - 1];
      rest
  }

  function HandleContains(params: Params, printer: Printer): (o: Outcome)
    ensures GetList(params, "items").None? ==> o == Err(ItemsRequired)
    ensures GetList(params, "items").Some? && "value" !in params ==> o == Err("value parameter required")
    ensures o.Ok? <==> GetList(params, "items").Some? && "value" in params
    ensures o.Ok? ==> o.tag == BoolTag && o.value.JBool?
    ensures o.Ok? ==> (o.value.b <==>
                         exists i :: 0 <= i < |params["items"].items|
                                     && Sprint(printer, params["items"].items[i]) == Sprint(printer, params["value"]))
  {
    match GetList(params, "items")
    case None => Err(ItemsRequired)
    case Some(items) =>
      if "value" !in params then Err("value parameter required")
      else Ok(JBool(Member(printer, items, params["value"])), BoolTag)
  }

  /** The item at `index` (default 0), tagged "string" whatever it holds. */
  function HandleIndex(params: Params): (o: Outcome)
    requires IntConvertible(params, "index")
    ensures GetList(params, "items").None? ==> o == Err(ItemsRequired)
    ensures o.Ok? <==> GetList(params, "items").Some? && 0 <= GetInt(params, "index", 0) < |params["items"].items|
    ensures GetList(params, "items").Some? && !o.Ok? ==> o == Err("index out of range")
    ensures o.Ok? ==> o == Ok(params["items"].items[GetInt(params, "index", 0)], StringTag)
  {
    match GetList(params, "items")
    case None => Err(ItemsRequired)
    case Some(items) =>
      var index := GetInt(params, "index", 0);
      if index < 0 || index >= |items| then Err("index out of range")
      else Ok(items[index], StringTag)
  }

  function Apply(op: Op, params: Params, printer: Printer): (o: Outcome)
    requires Defined(op, params)
    ensures o.Err? ==> o.message != []
    ensures TakesItems(op) && GetList(params, "items").None? ==> o == Err(ItemsRequired)
  {
    match op
    case Generate => HandleGenerate(params)
    case Join => HandleJoin(params, printer)
    case Slice => HandleSlice(params)
    case Length => HandleLength(params)
    case Contains => HandleContains(params, printer)
    case Index => HandleIndex(params)
  }

  predicate Runs(req: Request) {
    match Lookup(req.name)
    case None => true
    case Some(op) => Defined(op, req.params)
  }

  /** One invocation of the list provider. */
  function Run(input: Input, printer: Printer, written: bool): (e: Exit)
    requires input.Decoded? ==> Runs(input.request)
    ensures Exclusive(e.response)
    ensures e.status == 1 <==> e.response.error != [] || !written
    ensures input.Decoded? && Lookup(input.request.name).None? ==>
              e.response.error == UnknownFunction(input.request.name)
    ensures input.Decoded? && Lookup(input.request.name).Some? ==>
              e == Send(Apply(Lookup(input.request.name).value, input.request.params, printer), ExitOnWriteFailure, written)
  {
    var handle := (op: Op, req: Request) requires Defined(op, req.params) => Apply(op, req.params, printer);
    RunExclusive(input, Lookup, handle, ExitOnWriteFailure, written);
    Protocol.Run(input, Lookup, handle, ExitOnWriteFailure, written)
  }

  // ---------------------------------------------------------------------------
  // Properties across calls

  /** generate ignores the request context: two requests differing only in
      their context produce the same exit. */
  lemma GenerateIgnoresContext(params: Params, c1: Params, c2: Params, printer: Printer, written: bool)
    requires IntConvertible(params, "count")
    ensures Run(Decoded(Request("generate", params, c1)), printer, written)
         == Run(Decoded(Request("generate", params, c2)), printer, written)
  {
  }

  /** Every item of a list is found by contains. */
  lemma ItemsAreContained(items: seq<Json>, k: nat, printer: Printer)
    requires k < |items|
    ensures HandleContains(map["items" := JArr(items), "value" := items[k]], printer) == Ok(JBool(true), BoolTag)
  {
  }

  /** Indexing agrees with slicing a one-element window. */
  lemma IndexIsUnitSlice(items: seq<Json>, k: nat)
    requires k < |items| && k < MaxInt64
    ensures HandleSlice(map["items" := JArr(items), "start" := JNum(k as real), "end" := JNum(k as real + 1.0)])
         == Ok(JArr([HandleIndex(map["items" := JArr(items), "index" := JNum(k as real)]).value]), ListTag)
  {
    TruncWhole(k);
    TruncWhole(k + 1);
  }

  /** Adjacent slices concatenate to the slice that covers both. */
  lemma SlicesConcatenate(items: seq<Json>, i: nat, j: nat, k: nat)
    requires i <= j <= k <= MaxInt64
    ensures HandleSlice(map["items" := JArr(items), "start" := JNum(i as real), "end" := JNum(j as real)]).value.items
          + HandleSlice(map["items" := JArr(items), "start" := JNum(j as real), "end" := JNum(k as real)]).value.items
         == HandleSlice(map["items" := JArr(items), "start" := JNum(i as real), "end" := JNum(k as real)]).value.items
  {
    TruncWhole(i);
    TruncWhole(j);
    TruncWhole(k);
    Slicing.ClampSliceAdjacent(items, i, j, k);
  }

  /** With no bounds, slice returns the whole list, whose size length reports. */
  lemma DefaultSliceIsWhole(items: seq<Json>)
    ensures HandleSlice(map["items" := JArr(items)]) == Ok(JArr(items), ListTag)
    ensures HandleLength(map["items" := JArr(items)]) == Ok(JNum(|items| as real), IntTag)
  {
  }

  /** Joining the empty list gives the empty string, whatever the separator. */
  lemma EmptyListJoinsToEmpty(sep: Json, printer: Printer)
    ensures HandleJoin(map["items" := JArr([]), "separator" := sep], printer) == Ok(JStr([]), StringTag)
    ensures HandleJoin(map["items" := JArr([])], printer) == Ok(JStr([]), StringTag)
  {
  }

  /** From 10^6 on a number prints in exponent form, so contains no longer
      matches it against the string of its digits, and join shows the
      exponent form. */
  lemma MillionIsNotItsDigits(printer: Printer)
    ensures HandleContains(map["items" := JArr([JNum(1_000_000.0)]), "value" := JStr(DecimalNat(1_000_000))], printer)
         == Ok(JBool(false), BoolTag)
  {
    MillionPrintsInExponentForm(printer);
    MillionDigits();
    var items, value := [JNum(1_000_000.0)], JStr(DecimalNat(1_000_000));
    assert Sprint(printer, items[0]) != Sprint(printer, value);
    assert !Member(printer, items, value);
  }

  lemma MillionJoinsInExponentForm(printer: Printer)
    ensures HandleJoin(map["items" := JArr([JNum(1_000_000.0)])], printer) == Ok(JStr("1e+06"), StringTag)
  {
    MillionPrintsInExponentForm(printer);
    assert SprintAll(printer, [JNum(1_000_000.0)]) == ["1e+06"];
  }

  /** Below 10^6 a whole number and the string of its digits are the same
      item to contains. */
  lemma SmallIntegerIsItsDigits(k: int, printer: Printer)
    requires -1_000_000 < k < 1_000_000
    ensures HandleContains(map["items" := JArr([JNum(k as real)]), "value" := JStr(Decimal(k))], printer)
         == Ok(JBool(true), BoolTag)
  {
    NumberPrintsAsDigits(printer, k);
  }
}

=== FILE: math_provider.dfy ===
/** The math provider: math/main.go's thirteen arithmetic functions. Numbers
    are exact reals here, so float64 rounding, infinities and NaN are not
    modelled; math.Pow and math.Sqrt are passed in. */
module MathProvider {

  import opened Wrappers
  import opened ByteStrings
  import opened Json
  import opened Coerce
  import opened Protocol

  datatype Op = Add | Sub | Mul | Div | Mod | Pow | Sqrt | Abs | Min | Max | Ceil | Floor | Round

  /** math.Pow and math.Sqrt. */
  datatype Library = Library(pow: (real, real) -> real, sqrt: real -> real)

  function Name(op: Op): Bytes {
    match op
    case Add => "add"
    case Sub => "sub"
    case Mul => "mul"
    case Div => "div"
    case Mod => "mod"
    case Pow => "pow"
    case Sqrt => "sqrt"
    case Abs => "abs"
    case Min => "min"
    case Max => "max"
    case Ceil => "ceil"
    case Floor => "floor"
    case Round => "round"
  }

  function Lookup(name: Bytes): (r: Option<Op>)
    ensures r.Some? ==> Name(r.value) == name
  {
    if name == "add" then Some(Add)
    else if name == "sub" then Some(Sub)
    else if name == "mul" then Some(Mul)
    else if name == "div" then Some(Div)
    else if name == "mod" then Some(Mod)
    else if name == "pow" then Some(Pow)
    else if name == "sqrt" then Some(Sqrt)
    else if name == "abs" then Some(Abs)
    else if name == "min" then Some(Min)
    else if name == "max" then Some(Max)
    else if name == "ceil" then Some(Ceil)
    else if name == "floor" then Some(Floor)
    else if name == "round" then Some(Round)
    else None
  }

  lemma LookupName(op: Op, name: Bytes)
    ensures Lookup(Name(op)) == Some(op)
    ensures Lookup(name) == Some(op) <==> name == Name(op)
  {
  }

  // ---------------------------------------------------------------------------
  // Integer remainder

  /** Go's `%` on int64: the remainder of division truncated toward zero, so
      it takes the sign of the dividend. MinInt64 % -1 is 0 in Go, as here. */
  function GoRem(a: int, b: int): (r: int)
    requires b != 0
    ensures exists q :: a == b * q + r
    ensures -Norm(b) < r < Norm(b)
    ensures r == 0 || (r < 0 <==> a < 0)
  {
    var m := a % b;
    var q := a / b;
    if m == 0 || a >= 0 then
      assert a == b * q + m;
      m
    else if b > 0 then
      ShiftQuotient(b, q);
      assert a == b * (q + 1) + (m - b);
      m - b
    else
      ShiftQuotient(b, q);
      assert a == b * (q - 1) + (m + b);
      m + b
  }

  /** The magnitude of an integer. */
  function Norm(x: int): (n: int)
    ensures n >= 0 && (n == x || n == -x)
  {
    if x < 0 then -x else x
  }

  lemma ShiftQuotient(b: int, q: int)
    ensures b * (q + 1) == b * q + b
    ensures b * (q - 1) == b * q - b
  {
  }

  /** The remainder is the only value that completes a truncated division:
      any r with a == b*q + r, |r| < |b| and the sign of a is GoRem(a, b). */
  lemma GoRemUnique(a: int, b: int, q: int, r: int)
    requires b != 0
    requires a == b * q + r && -Norm(b) < r < Norm(b) && (r == 0 || (r < 0 <==> a < 0))
    ensures r == GoRem(a, b)
  {
    var r0 := GoRem(a, b);
    var q0 :| a == b * q0 + r0;
    Distribute(b, q, q0);
    assert b * (q - q0) == r0 - r;
    if q != q0 {
      // Both remainders lie within |b| on the same side of zero, so they
      // differ by less than |b|: no nonzero multiple of b.
      MultipleAtLeast(b, q - q0);
    }
  }

  lemma Distribute(b: int, q: int, q0: int)
    ensures b * (q - q0) == b * q - b * q0
  {
  }

  /** A nonzero multiple of b is at least |b| in magnitude. */
  lemma MultipleAtLeast(b: int, k: int)
    requires b != 0 && k != 0
    ensures Norm(b * k) >= Norm(b)
  {
    PositiveMultiple(Norm(b), Norm(k));
    assert Norm(b * k) == Norm(b) * Norm(k) by {
      if b < 0 && k < 0 { assert b * k == (-b) * (-k); }
      else if b < 0 { assert b * k == -((-b) * k); }
      else if k < 0 { assert b * k == -(b * (-k)); }
    }
  }

  lemma {:induction false} PositiveMultiple(b: int, k: int)
    requires b > 0 && k > 0
    ensures b * k >= b
    decreases k
  {
    if k > 1 {
      PositiveMultiple(b, k - 1);
      ShiftQuotient(b, k - 1);
    }
  }

  // ---------------------------------------------------------------------------
  // Rounding

  /** math.Floor: the greatest integer not above x. */
  function FloorOf(x: real): (r: int)
    ensures r as real <= x < r as real + 1.0
  {
    x.Floor
  }

  /** math.Ceil: the least integer not below x. */
  function CeilOf(x: real): (r: int)
    ensures r as real - 1.0 < x <= r as real
  {
    -FloorOf(-x)
  }

  /** math.Round: the nearest integer, halves rounded away from zero. */
  function RoundOf(x: real): (r: int)
    ensures -0.5 <= r as real - x <= 0.5
    ensures 0.0 <= x ==> 0 <= r
    ensures x <= 0.0 ==> r <= 0
  {
    if x >= 0.0 then FloorOf(x + 0.5) else -FloorOf(-x + 0.5)
  }

  /** No integer is nearer to x than RoundOf(x), and of two equally near
      integers RoundOf takes the one farther from zero. */
  lemma RoundIsNearest(x: real, k: int)
    ensures Dist(x, RoundOf(x)) <= Dist(x, k)
    ensures Dist(x, RoundOf(x)) == Dist(x, k) && k != RoundOf(x) ==> Norm(k) < Norm(RoundOf(x))
  {
  }

  /** Rounding commutes with negation. */
  lemma RoundOdd(x: real)
    ensures RoundOf(-x) == -RoundOf(x)
  {
  }

  function Dist(x: real, k: int): real {
    if x <= k as real then k as real - x else x - k as real
  }

  /** math.Abs. */
  function AbsOf(x: real): (r: real)
    ensures r >= 0.0 && (r == x || r == -x)
  {
    if x < 0.0 then -x else x
  }

  // ---------------------------------------------------------------------------
  // Folds over `values`

  /** The elements of `values` through toFloat64: non-numbers read as 0. */
  function Floats(values: seq<Json>): (xs: seq<real>)
    ensures |xs| == |values|
    ensures forall i :: 0 <= i < |values| ==> xs[i] == ToFloat64(values[i])
  {
    if values == [] then [] else [ToFloat64(values[0])] + Floats(values[1..])
  }

  /** The running minimum of handleMin's loop, scanning left to right. */
  function {:induction false} Least(xs: seq<real>): (m: real)
    requires xs != []
    ensures m in xs
    ensures forall i :: 0 <= i < |xs| ==> m <= xs[i]
  {
    if |xs| == 1 then xs[0]
    else
      var init := xs[..|xs| - 1];
      var m := Least(init);
      assert forall i :: 0 <= i < |init| ==> init[i] == xs[i];
      if xs[|xs| - 1] < m then xs[|xs| - 1] else m
  }

  /** The running maximum of handleMax's loop. */
  function {:induction false} Greatest(xs: seq<real>): (m: real)
    requires xs != []
    ensures m in xs
    ensures forall i :: 0 <= i < |xs| ==> xs[i] <= m
  {
    if |xs| == 1 then xs[0]
    else
      var init := xs[..|xs| - 1];
      var m := Greatest(init);
      assert forall i :: 0 <= i < |init| ==> init[i] == xs[i];
      if xs[|xs| - 1] > m then xs[|xs| - 1] else m
  }

  // ---------------------------------------------------------------------------
  // Handlers

  const ValuesRequired: Bytes := "values parameter required and must be " + "non-empty list"

  function A(params: Params): real { MathGetFloat(params, "a", 0.0) }
  function B(params: Params): real { MathGetFloat(params, "b", 0.0) }
  function X(params: Params): real { MathGetFloat(params, "x", 0.0) }

  predicate Defined(op: Op, params: Params) {
    op == Mod ==> IntConvertible(params, "a") && IntConvertible(params, "b")
  }

  /** add, sub and mul never fail. */
  function HandleBinary(op: Op, params: Params): (o: Outcome)
    requires op == Add || op == Sub || op == Mul
    ensures o.Ok? && o.tag == FloatTag && o.value.JNum?
    ensures op == Sub ==> o.value.n + B(params) == A(params)
    ensures op == Add ==> o.value.n - B(params) == A(params)
    ensures op == Mul && B(params) != 0.0 ==> o.value.n / B(params) == A(params)
    ensures op == Mul && B(params) == 0.0 ==> o.value.n == 0.0
  {
    var a, b := A(params), B(params);
    Ok(JNum(if op == Add then a + b else if op == Sub then a - b else a * b), FloatTag)
  }

  function HandleDiv(params: Params): (o: Outcome)
    ensures B(params) == 0.0 <==> o.Err?
    ensures o.Err? ==> o.message == "division by zero"
    ensures o.Ok? ==> o.tag == FloatTag && o.value.JNum? && o.value.n * B(params) == A(params)
  {
    var a, b := A(params), B(params);
    if b == 0.0 then Err("division by zero") else Ok(JNum(a / b), FloatTag)
  }

  /** mod reads its operands with getInt64, truncating fractions. */
  function HandleMod(params: Params): (o: Outcome)
    requires Defined(Mod, params)
    ensures GetInt(params, "b", 0) == 0 <==> o.Err?
    ensures o.Err? ==> o.message == "modulo by zero"
    ensures o.Ok? ==> o == Ok(JNum(GoRem(GetInt(params, "a", 0), GetInt(params, "b", 0)) as real), IntTag)
  {
    var a, b := GetInt(params, "a", 0), GetInt(params, "b", 0);
    if b == 0 then Err("modulo by zero") else Ok(JNum(GoRem(a, b) as real), IntTag)
  }

  /** The operand `key` of a request is x: the number given, or 0 when the
      key is missing or holds another type. */
  predicate OperandIs(params: Params, key: Bytes, x: real) {
    if key in params && params[key].JNum? then params[key].n == x else x == 0.0
  }

  /** pow never fails. A number `base` or `exponent` reaches math.Pow as it
      is; a missing one, or one of any other type, reaches it as 0. */
  function HandlePow(params: Params, lib: Library): (o: Outcome)
    ensures o.Ok? && o.tag == FloatTag && o.value.JNum?
    ensures forall b: real, e: real :: OperandIs(params, "base", b) && OperandIs(params, "exponent", e)
              ==> o.value.n == lib.pow(b, e)
  {
    Ok(JNum(lib.pow(MathGetFloat(params, "base", 0.0), MathGetFloat(params, "exponent", 0.0))), FloatTag)
  }

  function HandleSqrt(params: Params, lib: Library): (o: Outcome)
    ensures X(params) < 0.0 <==> o.Err?
    ensures o.Err? ==> o.message == "cannot take square root of negative number"
    ensures o.Ok? ==> o == Ok(JNum(lib.sqrt(X(params))), FloatTag)
  {
    var x := X(params);
    if x < 0.0 then Err("cannot take square root of negative number") else Ok(JNum(lib.sqrt(x)), FloatTag)
  }

  /** abs, ceil, floor and round: one float in, one float out, no failure. */
  function HandleUnary(op: Op, params: Params): (o: Outcome)
    requires op == Abs || op == Ceil || op == Floor || op == Round
    ensures o.Ok? && o.tag == FloatTag && o.value.JNum?
    ensures op == Abs ==> o.value.n >= 0.0 && (o.value.n == X(params) || o.value.n == -X(params))
    ensures op != Abs ==> o.value.n.Floor as real == o.value.n
    ensures op == Floor ==> o.value.n <= X(params) < o.value.n + 1.0
    ensures op == Ceil ==> o.value.n - 1.0 < X(params) <= o.value.n
    ensures op == Round ==> -0.5 <= o.value.n - X(params) <= 0.5
  {
    var x := X(params);
    match op
    case Abs => Ok(JNum(AbsOf(x)), FloatTag)
    case Ceil => Ok(JNum(CeilOf(x) as real), FloatTag)
    case Floor => Ok(JNum(FloorOf(x) as real), FloatTag)
    case Round => Ok(JNum(RoundOf(x) as real), FloatTag)
  }

  /** min and max over a non-empty `values` list. */
  function HandleExtreme(op: Op, params: Params): (o: Outcome)
    requires op == Min || op == Max
    ensures o.Err? <==> GetList(params, "values").None? || GetList(params, "values").value == []
    ensures o.Err? ==> o.message == ValuesRequired
    ensures o.Ok? ==> o.tag == FloatTag && o.value.JNum?
    ensures o.Ok? ==> var xs := Floats(params["values"].items);
              && o.value.n in xs
              && (op == Min ==> forall i :: 0 <= i < |xs| ==> o.value.n <= xs[i])
              && (op == Max ==> forall i :: 0 <= i < |xs| ==> xs[i] <= o.value.n)
  {
    match GetList(params, "values")
    case None => Err(ValuesRequired)
    case Some(values) =>
      if values == [] then Err(ValuesRequired)
      else
        var xs := Floats(values);
        if op == Min then
          var m := Least(xs);
          Ok(JNum(m), FloatTag)
        else
          var m := Greatest(xs);
          Ok(JNum(m), FloatTag)
  }

  function Apply(op: Op, params: Params, lib: Library): (o: Outcome)
    requires Defined(op, params)
    ensures o.Err? ==> o.message != []
    ensures o.Ok? ==> o.value.JNum? && (o.tag == IntTag <==> op == Mod) && (o.tag == FloatTag <==> op != Mod)
  {
    match op
    case Add => HandleBinary(op, params)
    case Sub => HandleBinary(op, params)
    case Mul => HandleBinary(op, params)
    case Div => HandleDiv(params)
    case Mod => HandleMod(params)
    case Pow => HandlePow(params, lib)
    case Sqrt => HandleSqrt(params, lib)
    case Abs => HandleUnary(op, params)
    case Ceil => HandleUnary(op, params)
    case Floor => HandleUnary(op, params)
    case Round => HandleUnary(op, params)
    case Min => HandleExtreme(op, params)
    case Max => HandleExtreme(op, params)
  }

  predicate Runs(req: Request) {
    match Lookup(req.name)
    case None => true
    case Some(op) => Defined(op, req.params)
  }

  /** One invocation of the math provider. */
  function Run(input: Input, lib: Library, written: bool): (e: Exit)
    requires input.Decoded? ==> Runs(input.request)
    ensures Exclusive(e.response)
    ensures e.status == 1 <==> e.response.error != [] || !written
    ensures input.Decoded? && Lookup(input.request.name).None? ==>
              e.response.error == UnknownFunction(input.request.name)
    ensures input.Decoded? && Lookup(input.request.name).Some? ==>
              e == Send(Apply(Lookup(input.request.name).value, input.request.params, lib), ExitOnWriteFailure, written)
  {
    var handle := (op: Op, req: Request) requires Defined(op, req.params) => Apply(op, req.params, lib);
    RunExclusive(input, Lookup, handle, ExitOnWriteFailure, written);
    Protocol.Run(input, Lookup, handle, ExitOnWriteFailure, written)
  }

  // ---------------------------------------------------------------------------
  // Properties across calls

  /** The minimum never exceeds the maximum of the same list. */
  lemma MinAtMostMax(params: Params)
    requires GetList(params, "values").Some? && GetList(params, "values").value != []
    ensures HandleExtreme(Min, params).value.n <= HandleExtreme(Max, params).value.n
  {
    var xs := Floats(params["values"].items);
    assert xs[0] == xs[0];
  }

  /** An absent operand and a non-numeric one both read as 0, so add with a
      string operand returns the other operand. */
  lemma NonNumberAddsAsZero(a: real, junk: Json)
    requires !junk.JNum?
    ensures HandleBinary(Add, map["a" := JNum(a), "b" := junk]) == Ok(JNum(a), FloatTag)
    ensures HandleBinary(Add, map["a" := JNum(a)]) == Ok(JNum(a), FloatTag)
  {
  }

  /** mod agrees with the truncated division that Go defines. */
  lemma ModMatchesTruncatedDivision(a: int, b: int)
    requires b != 0 && InInt64(a) && InInt64(b)
    ensures var q := Trunc(a as real / b as real); GoRem(a, b) == a - b * q
  {
    var q := Trunc(a as real / b as real);
    var r := a - b * q;
    TruncDivision(a, b);
    GoRemUnique(a, b, q, r);
  }

  /** Truncated division leaves a remainder bounded by |b| with the sign of a. */
  lemma TruncDivision(a: int, b: int)
    requires b != 0
    ensures var r := a - b * Trunc(a as real / b as real);
            -Norm(b) < r < Norm(b) && (r == 0 || (r < 0 <==> a < 0))
  {
    var x := a as real / b as real;
    QuotientSign(a, b as real);
    var e := FractionOfDivisor(a, b);
    RemainderWithinDivisor(a - b * Trunc(x), a, b, e, x);
  }

  /** The remainder of a truncated division, as a real, is a fraction e of
      b lying on the same side of zero as a/b. */
  lemma FractionOfDivisor(a: int, b: int) returns (e: real)
    requires b != 0
    ensures (a - b * Trunc(a as real / b as real)) as real == e
    ensures a as real / b as real >= 0.0 && b > 0 ==> 0.0 <= e < b as real
    ensures a as real / b as real >= 0.0 && b < 0 ==> b as real < e <= 0.0
    ensures a as real / b as real < 0.0 && b > 0 ==> -(b as real) < e <= 0.0
    ensures a as real / b as real < 0.0 && b < 0 ==> 0.0 <= e < -(b as real)
    ensures a as real / b as real == 0.0 ==> e == 0.0
  {
    var c := b as real;
    var x := a as real / c;
    var d := x - Trunc(x) as real;
    RemainderAsFraction(a, b, Trunc(x));
    e := d * c;
    if x >= 0.0 {
      ScaleBelow(d, c, e);
    } else {
      ScaleBelow(-d, c, -e);
    }
  }

  /** The sign bookkeeping of TruncDivision, once the remainder is known to
      be a fraction e of b, on the side of zero that x = a/b is on. */
  lemma RemainderWithinDivisor(r: int, a: int, b: int, e: real, x: real)
    requires b != 0 && r as real == e
    requires x >= 0.0 && b > 0 ==> 0.0 <= e < b as real
    requires x >= 0.0 && b < 0 ==> b as real < e <= 0.0
    requires x < 0.0 && b > 0 ==> -(b as real) < e <= 0.0
    requires x < 0.0 && b < 0 ==> 0.0 <= e < -(b as real)
    requires x == 0.0 ==> e == 0.0
    requires a == 0 <==> x == 0.0
    requires b > 0 ==> (a > 0 <==> x > 0.0)
    requires b < 0 ==> (a > 0 <==> x < 0.0)
    ensures -Norm(b) < r < Norm(b) && (r == 0 || (r < 0 <==> a < 0))
  {
  }

  /** a - b*q, as a real, is the fractional part of a/b times b. */
  lemma RemainderAsFraction(a: int, b: int, q: int)
    requires b != 0
    ensures (a - b * q) as real == (a as real / b as real - q as real) * b as real
  {
    var c := b as real;
    assert (a as real / c) * c == a as real;
    assert (b * q) as real == c * q as real;
  }

  /** The quotient a/b has the sign of a times the sign of b. */
  lemma QuotientSign(a: int, c: real)
    requires c != 0.0
    ensures a == 0 <==> a as real / c == 0.0
    ensures c > 0.0 ==> (a > 0 <==> a as real / c > 0.0)
    ensures c < 0.0 ==> (a > 0 <==> a as real / c < 0.0)
  {
  }

  /** A fraction in [0, 1) of c is smaller in magnitude than c. */
  lemma ScaleBelow(d: real, c: real, e: real)
    requires 0.0 <= d < 1.0 && c != 0.0 && e == d * c
    ensures c > 0.0 ==> 0.0 <= e < c
    ensures c < 0.0 ==> c < e <= 0.0
  {
  }

  /** pow with neither operand, or with operands that are not numbers, is
      math.Pow(0, 0); with two numbers it is math.Pow of them. */
  lemma PowOperands(lib: Library, b: real, e: real, other: Json)
    requires !other.JNum?
    ensures HandlePow(map[], lib) == Ok(JNum(lib.pow(0.0, 0.0)), FloatTag)
    ensures HandlePow(map["base" := other, "exponent" := other], lib) == Ok(JNum(lib.pow(0.0, 0.0)), FloatTag)
    ensures HandlePow(map["base" := JNum(b), "exponent" := JNum(e)], lib) == Ok(JNum(lib.pow(b, e)), FloatTag)
  {
  }
}

=== FILE: protocol.dfy ===
/** The plugin protocol every provider binary repeats: a request names one
    function; the provider looks the name up in its own table, runs the
    handler, and writes one response. An error response always ends the
    process with status 1; a success ends it with 0, unless writing the
    response failed and the provider exits on that. */
module Protocol {

  import opened Wrappers
  import opened ByteStrings
  import opened Json

  /** The advisory type tags a successful value carries. */
  datatype Tag = StringTag | IntTag | FloatTag | BoolTag | ListTag | BlockTag | UuidTag | TsTag | DurTag

  /** The tag as written in the response's "type" field. */
  function TagName(t: Tag): (name: Bytes)
    ensures name != []
  {
    match t
    case StringTag => "string"
    case IntTag => "int"
    case FloatTag => "float"
    case BoolTag => "bool"
    case ListTag => "list"
    case BlockTag => "block"
    case UuidTag => "uuid"
    case TsTag => "ts"
    case DurTag => "dur"
  }

  lemma TagNameInjective(a: Tag, b: Tag)
    requires TagName(a) == TagName(b)
    ensures a == b
  {
  }

  /** The decoded request; `name` is the JSON key "function". */
  datatype Request = Request(name: Bytes, params: Params, context: Params)

  /** What the JSON decoder made of the input: a request, or the decoder's
      error text. */
  datatype Input = Decoded(request: Request) | Malformed(reason: Bytes)

  /** What a handler returns: a value and its tag, or an error message. */
  datatype Outcome = Ok(value: Json, tag: Tag) | Err(message: Bytes)

  /** The Response struct. Only `error` is omitted when empty, so an error
      response still carries "value": null and "type": "". */
  datatype Response = Response(value: Json, typ: Bytes, error: Bytes)

  /** Whether a failed write of a success response ends the process with 1. */
  datatype WritePolicy = ExitOnWriteFailure | IgnoreWriteFailure

  /** How the process ends: the response it tried to write and its exit status. */
  datatype Exit = Exit(response: Response, status: nat)

  /** The object keys the JSON encoder writes for a response. */
  function WireKeys(r: Response): (keys: set<Bytes>)
    ensures "value" in keys && "type" in keys
    ensures "error" in keys <==> r.error != []
    ensures |keys| <= 3
  {
    {"value", "type"} + (if r.error != [] then {"error"} else {})
  }

  /** An error response and a success response are told apart only by
      content: the error is non-empty with a null value and an empty type,
      or the error is empty and the type is set. */
  predicate Exclusive(r: Response) {
    && (r.error != [] <==> r.typ == [])
    && (r.error != [] ==> r.value == JNull)
  }

  /** sendResponse and sendError. `written` says whether writing the response
      to standard output succeeded. */
  function Send(o: Outcome, policy: WritePolicy, written: bool): (e: Exit)
    ensures o.Err? ==> e.status == 1 && e.response.error == o.message
    ensures o.Err? ==> e.response.value == JNull && e.response.typ == []
    ensures o.Ok? ==> e.response.error == [] && e.response.value == o.value
    ensures o.Ok? ==> e.response.typ != [] && e.response.typ == TagName(o.tag)
    ensures o.Ok? ==> (e.status == 0 <==> written || policy == IgnoreWriteFailure)
    ensures e.status <= 1
  {
    match o
    case Ok(v, t) =>
      var status := if written || policy == IgnoreWriteFailure then 0 else 1;
      Exit(Response(v, TagName(t), []), status)
    case Err(m) => Exit(Response(JNull, [], m), 1)
  }

  function InvalidRequest(reason: Bytes): (m: Bytes)
    ensures m != []
  {
    "Invalid request: " + reason
  }

  function UnknownFunction(name: Bytes): (m: Bytes)
    ensures m != []
  {
    "Unknown function: " + name
  }

  /** The handler a decoded input selects may be run on it. */
  ghost predicate Runnable<Op>(input: Input, lookup: Bytes -> Option<Op>, handle: (Op, Request) --> Outcome) {
    input.Decoded? && lookup(input.request.name).Some? ==>
      handle.requires(lookup(input.request.name).value, input.request)
  }

  /** Decode, then the exact-match dispatch of `main`. */
  function Resolve<Op>(input: Input, lookup: Bytes -> Option<Op>, handle: (Op, Request) --> Outcome): (o: Outcome)
    requires Runnable(input, lookup, handle)
  {
    match input
    case Malformed(reason) => Err(InvalidRequest(reason))
    case Decoded(req) =>
      match lookup(req.name)
      case None => Err(UnknownFunction(req.name))
      case Some(op) => handle(op, req)
  }

  /** One process invocation from decoded input to exit, for the provider
      whose table is `lookup` and whose handlers are `handle`. */
  function Run<Op>(input: Input, lookup: Bytes -> Option<Op>, handle: (Op, Request) --> Outcome,
                   policy: WritePolicy, written: bool): (e: Exit)
    requires Runnable(input, lookup, handle)
    ensures input.Malformed? ==>
              e.status == 1 && e.response == Response(JNull, [], InvalidRequest(input.reason))
    ensures input.Decoded? && lookup(input.request.name).None? ==>
              e.status == 1 && e.response == Response(JNull, [], UnknownFunction(input.request.name))
    ensures input.Decoded? && lookup(input.request.name).Some? ==>
              e == Send(handle(lookup(input.request.name).value, input.request), policy, written)
  {
    Send(Resolve(input, lookup, handle), policy, written)
  }

  // ---------------------------------------------------------------------------
  // Properties every provider inherits

  /** An unmatched name runs no handler: the exit is the same whichever
      handlers the table holds. */
  lemma UnknownRunsNothing<Op>(req: Request, lookup: Bytes -> Option<Op>,
                               h1: (Op, Request) --> Outcome, h2: (Op, Request) --> Outcome,
                               policy: WritePolicy, written: bool)
    requires lookup(req.name).None?
    ensures Run(Decoded(req), lookup, h1, policy, written) == Run(Decoded(req), lookup, h2, policy, written)
    ensures Run(Decoded(req), lookup, h1, policy, written).response.error == UnknownFunction(req.name)
  {
  }

  /** Input the decoder rejects reaches no lookup and no handler. */
  lemma MalformedRunsNothing<Op, Op'>(reason: Bytes, l1: Bytes -> Option<Op>, h1: (Op, Request) --> Outcome,
                                      l2: Bytes -> Option<Op'>, h2: (Op', Request) --> Outcome,
                                      policy: WritePolicy, written: bool)
    ensures Run(Malformed(reason), l1, h1, policy, written) == Run(Malformed(reason), l2, h2, policy, written)
  {
  }

  /** The handler a decoded input selects never fails with an empty message. */
  predicate NamesItsErrors<Op>(input: Input, lookup: Bytes -> Option<Op>, handle: (Op, Request) --> Outcome)
    requires Runnable(input, lookup, handle)
  {
    input.Decoded? && lookup(input.request.name).Some? ==>
      var o := handle(lookup(input.request.name).value, input.request);
      o.Err? ==> o.message != []
  }

  /** The response is exclusive, and the exit status is 1 exactly when the
      response is an error or a failed write ends the process. */
  lemma RunExclusive<Op>(input: Input, lookup: Bytes -> Option<Op>, handle: (Op, Request) --> Outcome,
                         policy: WritePolicy, written: bool)
    requires Runnable(input, lookup, handle)
    requires NamesItsErrors(input, lookup, handle)
    ensures Exclusive(Run(input, lookup, handle, policy, written).response)
    ensures var e := Run(input, lookup, handle, policy, written);
            e.status == 1 <==> e.response.error != [] || (!written && policy == ExitOnWriteFailure)
  {
  }

  /** Only an error response writes the "error" key; both shapes write
      "value" and "type". */
  lemma WireShape(o: Outcome, policy: WritePolicy, written: bool)
    requires o.Err? ==> o.message != []
    ensures o.Err? ==> WireKeys(Send(o, policy, written).response) == {"value", "type", "error"}
    ensures o.Ok? ==> WireKeys(Send(o, policy, written).response) == {"value", "type"}
  {
  }
}

=== FILE: random_provider.dfy ===
/** The random provider: random/main.go's five functions, with crypto/rand
    passed in as an `Rng`. A failed read from crypto/rand is not modelled. */
module RandomProvider {

  import opened Wrappers
  import opened ByteStrings
  import opened Json
  import opened Coerce
  import opened Protocol
  import opened Entropy

  datatype Op = Int | Float | Bool | Choice | RandomBytes

  function Name(op: Op): Bytes {
    match op
    case Int => "int"
    case Float => "float"
    case Bool => "bool"
    case Choice => "choice"
    case RandomBytes => "bytes"
  }

  function Lookup(name: Bytes): (r: Option<Op>)
    ensures r.Some? ==> Name(r.value) == name
  {
    if name == "int" then Some(Int)
    else if name == "float" then Some(Float)
    else if name == "bool" then Some(Bool)
    else if name == "choice" then Some(Choice)
    else if name == "bytes" then Some(RandomBytes)
    else None
  }

  lemma LookupName(op: Op, name: Bytes)
    ensures Lookup(Name(op)) == Some(op)
    ensures Lookup(name) == Some(op) <==> name == Name(op)
  {
  }

  const LessThan: Bytes := "min must be less than max"
  const ItemsRequired: Bytes := "items parameter required and must be " + "non-empty list"

  function IntMin(params: Params): int
    requires IntConvertible(params, "min")
  {
    GetInt(params, "min", 0)
  }

  function IntMax(params: Params): int
    requires IntConvertible(params, "max")
  {
    GetInt(params, "max", 100)
  }

  /** int's `max - min` is an int64 subtraction; when it wraps, rand.Int
      receives a non-positive bound and panics. */
  predicate Defined(op: Op, params: Params) {
    match op
    case Int =>
      && IntConvertible(params, "min") && IntConvertible(params, "max")
      && (IntMin(params) < IntMax(params) ==> InInt64(IntMax(params) - IntMin(params)))
    case RandomBytes => IntConvertible(params, "size")
    case _ => true
  }

  // ---------------------------------------------------------------------------
  // Turning eight random bytes into a float

  const Two53: nat := 0x20_0000_0000_0000
  const MaxUint64: nat := 0xFFFF_FFFF_FFFF_FFFF

  /** The loop `n = (n << 8) | uint64(v)`: the bytes read as a big-endian
      unsigned number. */
  function BigEndian(bs: Bytes): (n: nat)
    ensures n < Pow256(|bs|)
  {
    if bs == [] then 0
    else
      var init := BigEndian(bs[..|bs| - 1]);
      assert init * 256 + 255 < Pow256(|bs| - 1) * 256 by {
        assert init + 1 <= Pow256(|bs| - 1);
      }
      init * 256 + bs[|bs| - 1] as int
  }

  /** The big-endian number is the one the bytes' hexadecimal text denotes. */
  lemma {:induction false} BigEndianIsHex(bs: Bytes)
    ensures BigEndian(bs) == HexParse(HexEncode(bs))
    decreases |bs|
  {
    if bs != [] {
      var init, last := bs[..|bs| - 1], bs[|bs| - 1];
      BigEndianIsHex(init);
      assert bs == init + [last];
      HexEncodeAppend(init, last);
      HexParseByte(HexEncode(init), last);
    }
  }

  /** Two more hex digits for a byte b multiply by 256 and add b. */
  lemma HexParseByte(h: Bytes, b: byte)
    ensures HexParse(h + [HexDigit(b as int / 16), HexDigit(b as int % 16)]) == HexParse(h) * 256 + b as int
  {
    var hi, lo := HexDigit(b as int / 16), HexDigit(b as int % 16);
    var t := h + [hi, lo];
    assert t[..|t| - 1] == h + [hi];
    assert (h + [hi])[..|h|] == h;
    HexValueOfDigit(b as int / 16);
    HexValueOfDigit(b as int % 16);
    assert HexParse(t) == (HexParse(h) * 16 + b as int / 16) * 16 + b as int % 16;
  }

  lemma HexEncodeAppend(bs: Bytes, b: byte)
    ensures HexEncode(bs + [b]) == HexEncode(bs) + [HexDigit(b as int / 16), HexDigit(b as int % 16)]
  {
    var l, r := HexEncode(bs + [b]), HexEncode(bs) + [HexDigit(b as int / 16), HexDigit(b as int % 16)];
    assert |l| == |r|;
    forall i | 0 <= i < |l| ensures l[i] == r[i] {
      var k := i / 2;
      assert i == 2 * k || i == 2 * k + 1;
      assert (bs + [b])[k] == if k < |bs| then bs[k] else b;
    }
  }

  function Pow256(k: nat): (p: nat)
    ensures p >= 1
  {
    if k == 0 then 1 else Pow256(k - 1) * 256
  }

  lemma Pow256Eight()
    ensures Pow256(8) == Two64 && Pow256(FloatBytes) == Two64
  {
    assert Pow256(2) == 0x1_0000;
    assert Pow256(4) == 0x1_0000_0000;
    assert Pow256(6) == 0x1_0000_0000_0000;
  }

  /** The number of random bytes float reads: one uint64. */
  const FloatBytes: nat := 8

  /** The spacing of float64 values around a non-negative integer n: 1 below
      2^53, doubling with each further bit. */
  function Ulp(n: nat): (u: nat)
    ensures u >= 1
  {
    if n < Two53 then 1 else 2 * Ulp(n / 2)
  }

  /** float64(n) for an integer n: the nearest multiple of the spacing, ties
      to the even multiple. */
  function ToFloat64Nat(n: nat): (f: nat)
    ensures n < Two53 ==> f == n
    ensures n - Ulp(n) < f < n + Ulp(n)
  {
    var u := Ulp(n);
    var rem := n % u;
    RemainderAtMost(n, u);
    // n - rem and n - rem + u are the multiples of u either side of n.
    if 2 * rem < u then n - rem
    else if 2 * rem > u then n - rem + u
    else if (n / u) % 2 == 0 then n - rem
    else n - rem + u
  }

  /** float64(n) is round-to-nearest-even: a multiple of the spacing, no
      more than half a spacing from n, and on a tie the even multiple. */
  lemma ToFloat64Nearest(n: nat)
    ensures ToFloat64Nat(n) % Ulp(n) == 0
    ensures 2 * (ToFloat64Nat(n) - n) <= Ulp(n) && 2 * (n - ToFloat64Nat(n)) <= Ulp(n)
    ensures 2 * (ToFloat64Nat(n) - n) == Ulp(n) || 2 * (n - ToFloat64Nat(n)) == Ulp(n) ==>
              (ToFloat64Nat(n) / Ulp(n)) % 2 == 0
  {
    RoundedMultiple(n, Ulp(n), ToFloat64Nat(n));
  }

  /** The rounding ToFloat64Nat does, for any spacing u: f is the multiple of
      u below n or the one above, the nearer one, and the even one on a tie. */
  lemma RoundedMultiple(n: nat, u: nat, f: nat)
    requires u >= 1
    requires f == n - n % u || f == n - n % u + u
    requires 2 * (n % u) < u ==> f == n - n % u
    requires 2 * (n % u) > u ==> f == n - n % u + u
    requires 2 * (n % u) == u ==> (f == n - n % u <==> (n / u) % 2 == 0)
    ensures f % u == 0
    ensures 2 * (f - n) <= u && 2 * (n - f) <= u
    ensures 2 * (f - n) == u || 2 * (n - f) == u ==> (f / u) % 2 == 0
  {
    var q, rem := n / u, n % u;
    assert n == q * u + rem;
    if f == n - rem {
      assert f == q * u + 0;
      DivModOf(q, 0, u);
    } else {
      assert f == (q + 1) * u + 0;
      DivModOf(q + 1, 0, u);
    }
  }

  lemma RemainderAtMost(n: nat, u: nat)
    requires u >= 1
    ensures n % u <= n
    ensures u == 1 ==> n % u == 0
  {
  }

  /** The spacing at the largest uint64 is 2^11. */
  lemma UlpOfMaxUint64()
    ensures Ulp(MaxUint64) == 2048
  {
    assert Ulp(0x1F_FFFF_FFFF_FFFF) == 1;
    assert Ulp(0x3F_FFFF_FFFF_FFFF) == 2;
    assert Ulp(0x7F_FFFF_FFFF_FFFF) == 4;
    assert Ulp(0xFF_FFFF_FFFF_FFFF) == 8;
    assert Ulp(0x1FF_FFFF_FFFF_FFFF) == 16;
    assert Ulp(0x3FF_FFFF_FFFF_FFFF) == 32;
    assert Ulp(0x7FF_FFFF_FFFF_FFFF) == 64;
    assert Ulp(0xFFF_FFFF_FFFF_FFFF) == 128;
    assert Ulp(0x1FFF_FFFF_FFFF_FFFF) == 256;
    assert Ulp(0x3FFF_FFFF_FFFF_FFFF) == 512;
    assert Ulp(0x7FFF_FFFF_FFFF_FFFF) == 1024;
  }

  function Pow2(k: nat): (p: nat)
    ensures p >= 1
  {
    if k == 0 then 1 else 2 * Pow2(k - 1)
  }

  /** Below 2^(53+k) the spacing divides 2^k: it is a power of two no larger. */
  lemma {:induction false} UlpDividesPower(n: nat, k: nat) returns (c: nat)
    requires n < Two53 * Pow2(k)
    ensures Pow2(k) == Ulp(n) * c
  {
    if n < Two53 {
      c := Pow2(k);
    } else {
      assert k != 0;
      c := UlpDividesPower(n / 2, k - 1);
      assert Pow2(k) == 2 * (Ulp(n / 2) * c);
    }
  }

  /** A uint64 converts to at most 2^64: rounding goes to a multiple of the
      spacing, and 2^64 is one. */
  lemma ToFloat64AtMostTwo64(n: nat)
    ensures n < Two64 ==> ToFloat64Nat(n) <= Two64
  {
    if n >= Two64 { return; }
    var u := Ulp(n);
    assert Pow2(11) == 2048;
    var c := UlpDividesPower(n, 11);
    assert 2048 == u * c;
    var q := n / u;
    assert n == u * q + n % u;
    RoundUpBelow(u, q, n % u, c * Two53);
  }

  lemma RoundUpBelow(u: nat, q: nat, r: nat, bigQ: nat)
    requires u >= 1 && r < u && u * q + r < u * bigQ
    ensures u * q + u <= u * bigQ
  {
    MulCancel(u, q, bigQ);
    MulMonotone(u, q + 1, bigQ);
  }

  lemma MulMonotone(u: nat, a: nat, b: nat)
    requires a <= b
    ensures u * a <= u * b
  {
    assert u * b == u * a + u * (b - a);
  }

  lemma MulCancel(u: nat, a: nat, b: nat)
    ensures u * a < u * b ==> a < b
  {
    if b <= a {
      MulMonotone(u, b, a);
    }
  }

  /** float64(^uint64(0)) is 2^64, not 2^64 - 1. */
  lemma MaxUint64RoundsUp()
    ensures ToFloat64Nat(MaxUint64) == Two64
  {
    UlpOfMaxUint64();
    assert MaxUint64 / 2048 == Two53 - 1;
    assert MaxUint64 % 2048 == 2047;
  }

  /** f as written: float64(n) / float64(^uint64(0)). The divisor is a power
      of two, so the float division is exact. */
  function UnitAsWritten(n: nat): (f: real)
    ensures f >= 0.0
    ensures n < Two64 ==> f <= 1.0
    ensures f == 1.0 <==> ToFloat64Nat(n) == Two64
  {
    MaxUint64RoundsUp();
    ToFloat64AtMostTwo64(n);
    ToFloat64Nat(n) as real / ToFloat64Nat(MaxUint64) as real
  }

  /** The draw whose eight bytes are all 0xFF gives f == 1.0, outside the
      intended [0, 1). */
  lemma UnitAsWrittenReachesOne()
    ensures UnitAsWritten(MaxUint64) == 1.0
  {
    MaxUint64RoundsUp();
  }

  /** f with the top 53 bits only: (n >> 11) / 2^53. Both conversions are
      exact, so this is also what float64 arithmetic computes. */
  function UnitFraction(n: nat): (f: real)
    requires n < Two64
    ensures 0.0 <= f < 1.0
  {
    (n / 2048) as real / Two53 as real
  }

  /** Every 53-bit multiple of 2^-53 in [0, 1) is reachable. */
  lemma UnitFractionCovers(k: nat)
    requires k < Two53
    ensures UnitFraction(k * 2048) == k as real / Two53 as real
  {
  }

  /** min + f*(max-min) with w = max - min, exact in the reals: a fraction f
      of the way along [lo, lo + w]. */
  function Lerp(lo: real, w: real, f: real): (x: real)
    requires w > 0.0 && 0.0 <= f
    ensures lo <= x
    ensures f < 1.0 ==> x < lo + w
    ensures f == 1.0 ==> x == lo + w
  {
    FractionOfWidth(f, w);
    lo + f * w
  }

  lemma FractionOfWidth(f: real, w: real)
    requires w > 0.0 && 0.0 <= f
    ensures 0.0 <= f * w
    ensures f < 1.0 ==> f * w < w
  {
    if f < 1.0 {
      assert (1.0 - f) * w > 0.0;
    }
  }

  // ---------------------------------------------------------------------------
  // Handlers

  /** int: min + a draw below max - min, so within [min, max). */
  function HandleInt(params: Params, rng: Rng): (o: Outcome)
    requires Defined(Int, params)
    ensures IntMin(params) >= IntMax(params) <==> o.Err?
    ensures o.Err? ==> o.message == LessThan
    ensures o.Ok? ==> o.tag == IntTag && o.value.JNum?
    ensures o.Ok? ==> o.value.n.Floor as real == o.value.n
    ensures o.Ok? ==> IntMin(params) <= o.value.n.Floor < IntMax(params)
    ensures o.Ok? ==> o.value.n.Floor - IntMin(params) == Below(rng, 0, IntMax(params) - IntMin(params))
  {
    var min, max := IntMin(params), IntMax(params);
    if min >= max then Err(LessThan)
    else
      var k := min + Below(rng, 0, max - min);
      assert (k as real).Floor == k;
      Ok(JNum(k as real), IntTag)
  }

  function FloatMin(params: Params): real { GetFloat(params, "min", 0.0) }
  function FloatMax(params: Params): real { GetFloat(params, "max", 1.0) }

  /** float as random/main.go writes it: eight random bytes read big-endian
      as n, f = float64(n) / float64(^uint64(0)), and min + f*(max-min).
      The value lies in [min, max], and is max itself exactly when float64(n)
      rounds up to 2^64. */
  function HandleFloatAsWritten(params: Params, rng: Rng): (o: Outcome)
    ensures FloatMin(params) >= FloatMax(params) <==> o.Err?
    ensures o.Err? ==> o.message == LessThan
    ensures o.Ok? ==> o.tag == FloatTag && o.value.JNum?
    ensures o.Ok? ==> FloatMin(params) <= o.value.n <= FloatMax(params)
    ensures o.Ok? ==> var n := BigEndian(ReadBytes(rng, 0, FloatBytes));
              o.value.n == Lerp(FloatMin(params), FloatMax(params) - FloatMin(params), UnitAsWritten(n))
    ensures o.Ok? ==> (o.value.n == FloatMax(params) <==> ToFloat64Nat(BigEndian(ReadBytes(rng, 0, FloatBytes))) == Two64)
  {
    var min, max := FloatMin(params), FloatMax(params);
    if min >= max then Err(LessThan)
    else
      var n := BigEndian(ReadBytes(rng, 0, FloatBytes));
      Pow256Eight();
      var f := UnitAsWritten(n);
      var x := Lerp(min, max - min, f);
      LerpToMax(min, max, f);
      Ok(JNum(x), FloatTag)
  }

  /** A fraction f in [0, 1] of the way from min to max stays in [min, max]
      and reaches max only for f == 1. */
  lemma LerpToMax(min: real, max: real, f: real)
    requires min < max && 0.0 <= f <= 1.0
    ensures min <= Lerp(min, max - min, f) <= max
    ensures Lerp(min, max - min, f) == max <==> f == 1.0
  {
  }

  /** The all-0xFF draw: rng answers every draw with its largest value. */
  function Saturated(): Rng {
    (i: nat, bound: nat) => if bound == 0 then 0 else bound - 1
  }

  lemma {:induction false} SaturatedBytes(k: nat)
    ensures BigEndian(ReadBytes(Saturated(), 0, k)) == Pow256(k) - 1
  {
    if k > 0 {
      SaturatedBytes(k - 1);
      var bs := ReadBytes(Saturated(), 0, k);
      assert bs[..k - 1] == ReadBytes(Saturated(), 0, k - 1);
    }
  }

  /** As written, float returns exactly max for the all-0xFF draw. */
  lemma FloatAsWrittenReachesMax(min: real, max: real)
    requires min < max
    ensures HandleFloatAsWritten(map["min" := JNum(min), "max" := JNum(max)], Saturated())
         == Ok(JNum(max), FloatTag)
  {
    SaturatedBytes(8);
    Pow256Eight();
    UnitAsWrittenReachesOne();
  }

  /** float corrected: the top 53 bits of the eight random bytes as a
      fraction of 2^53, so the value lies in [min, max) (default [0, 1)) as
      the source's comments intend. */
  function HandleFloat(params: Params, rng: Rng): (o: Outcome)
    ensures FloatMin(params) >= FloatMax(params) <==> o.Err?
    ensures o.Err? ==> o.message == LessThan
    ensures o.Ok? ==> o.tag == FloatTag && o.value.JNum?
    ensures o.Ok? ==> FloatMin(params) <= o.value.n < FloatMax(params)
  {
    var min, max := FloatMin(params), FloatMax(params);
    if min >= max then Err(LessThan)
    else
      var bs := ReadBytes(rng, 0, FloatBytes);
      Pow256Eight();
      Ok(JNum(Lerp(min, max - min, UnitFraction(BigEndian(bs)))), FloatTag)
  }

  /** bool: the low bit of one random byte. */
  function HandleBool(rng: Rng): (o: Outcome)
    ensures o.Ok? && o.tag == BoolTag && o.value.JBool?
    ensures o.value.b <==> rng(0, 256) % 2 == 1
  {
    Ok(JBool(ReadBytes(rng, 0, 1)[0] as int % 2 == 1), BoolTag)
  }

  /** choice: one of the items, tagged "string" whatever it holds. */
  function HandleChoice(params: Params, rng: Rng): (o: Outcome)
    ensures o.Err? <==> GetList(params, "items").None? || GetList(params, "items").value == []
    ensures o.Err? ==> o.message == ItemsRequired
    ensures o.Ok? ==> o.tag == StringTag && o.value in params["items"].items
  {
    match GetList(params, "items")
    case None => Err(ItemsRequired)
    case Some(items) =>
      if items == [] then Err(ItemsRequired)
      else Ok(items[Below(rng, 0, |items|)], StringTag)
  }

  function Size(params: Params): int
    requires IntConvertible(params, "size")
  {
    GetInt(params, "size", 16)
  }

  /** bytes: `size` (default 16) random bytes as lower-case hex. */
  function HandleBytes(params: Params, rng: Rng): (o: Outcome)
    requires IntConvertible(params, "size")
    ensures o.Err? <==> Size(params) <= 0 || Size(params) > 1024
    ensures o.Err? ==> o.message == "size must be between 1 and 1024"
    ensures o.Ok? ==> o.tag == StringTag && o.value.JStr?
    ensures o.Ok? ==> |o.value.s| == 2 * Size(params)
    ensures o.Ok? ==> forall i :: 0 <= i < |o.value.s| ==> IsHexDigit(o.value.s[i])
    ensures o.Ok? ==> HexDecode(o.value.s) == Some(ReadBytes(rng, 0, Size(params)))
  {
    var size := Size(params);
    if size <= 0 || size > 1024 then Err("size must be between 1 and 1024")
    else
      var bs := ReadBytes(rng, 0, size);
      HexRoundTrip(bs);
      Ok(JStr(HexEncode(bs)), StringTag)
  }

  function Apply(op: Op, params: Params, rng: Rng): (o: Outcome)
    requires Defined(op, params)
    ensures o.Err? ==> o.message != []
    ensures op == Bool ==> o.Ok?
  {
    match op
    case Int => HandleInt(params, rng)
    case Float => HandleFloatAsWritten(params, rng)
    case Bool => HandleBool(rng)
    case Choice => HandleChoice(params, rng)
    case RandomBytes => HandleBytes(params, rng)
  }

  predicate Runs(req: Request) {
    match Lookup(req.name)
    case None => true
    case Some(op) => Defined(op, req.params)
  }

  /** One invocation of the random provider. Its sendResponse ignores an
      encoding failure, so a success always exits 0. */
  function Run(input: Input, rng: Rng, written: bool): (e: Exit)
    requires input.Decoded? ==> Runs(input.request)
    ensures Exclusive(e.response)
    ensures e.status == 1 <==> e.response.error != []
    ensures input.Decoded? && Lookup(input.request.name).None? ==>
              e.response.error == UnknownFunction(input.request.name)
    ensures input.Decoded? && Lookup(input.request.name).Some? ==>
              e == Send(Apply(Lookup(input.request.name).value, input.request.params, rng), IgnoreWriteFailure, written)
  {
    var handle := (op: Op, req: Request) requires Defined(op, req.params) => Apply(op, req.params, rng);
    RunExclusive(input, Lookup, handle, IgnoreWriteFailure, written);
    Protocol.Run(input, Lookup, handle, IgnoreWriteFailure, written)
  }

  // ---------------------------------------------------------------------------
  // Properties across calls

  /** The draw that answers k picks items[k]: every item can be chosen. */
  lemma EveryItemChosen(items: seq<Json>, k: nat)
    requires k < |items|
    ensures var rng: Rng := (i: nat, bound: nat) => if k < bound then k else 0;
            HandleChoice(map["items" := JArr(items)], rng) == Ok(items[k], StringTag)
  {
  }

  /** int with the defaults draws from 0..99. */
  lemma DefaultIntRange(rng: Rng)
    ensures var o := HandleInt(map[], rng);
            o.Ok? && o.value.n.Floor as real == o.value.n && 0 <= o.value.n.Floor < 100
  {
  }

  /** Every integer of [min, max) is returned for the draw k - min: int
      reaches its whole range. */
  lemma EveryIntDrawn(min: int, max: int, k: int)
    requires InInt64(min) && InInt64(max) && InInt64(max - min)
    requires min <= k < max
    ensures var rng: Rng := (i: nat, bound: nat) => if k - min < bound then k - min else 0;
            HandleInt(map["min" := JNum(min as real), "max" := JNum(max as real)], rng) == Ok(JNum(k as real), IntTag)
  {
    TruncWhole(min);
    TruncWhole(max);
  }
}

=== FILE: slicing.dfy ===
/** The clamped slice both the string and the list provider's `slice`
    handlers compute: start is raised to 0, end is lowered to the length,
    then start is lowered to end. Nothing raises a negative end, and Go's
    slice expression panics on one, so a non-negative end is required. */
module Slicing {

  function Max(a: int, b: int): int {
    if a >= b then a else b
  }

  function Min(a: int, b: int): int {
    if a <= b then a else b
  }

  function ClampSlice<T>(xs: seq<T>, start: int, end: int): (r: seq<T>)
    requires end >= 0
    ensures |r| == Max(0, Min(end, |xs|) - Max(start, 0))
    ensures forall t :: 0 <= t < |r| ==> r[t] == xs[Max(start, 0) + t]
  {
    var hi := if end > |xs| then |xs| else end;
    var lo0 := if start < 0 then 0 else start;
    var lo := if lo0 > hi then hi else lo0;
    xs[lo..hi]
  }

  /** Within bounds the slice is Go's plain `xs[start:end]`. */
  lemma ClampSliceInRange<T>(xs: seq<T>, start: int, end: int)
    requires 0 <= start <= end <= |xs|
    ensures ClampSlice(xs, start, end) == xs[start..end]
  {
  }

  /** A start at or past the end of the sequence, or past `end`, gives the
      empty slice. */
  lemma ClampSliceEmpty<T>(xs: seq<T>, start: int, end: int)
    requires end >= 0 && (start >= |xs| || start >= end)
    ensures ClampSlice(xs, start, end) == []
  {
  }

  /** Adjacent slices concatenate to the slice spanning both. */
  lemma ClampSliceAdjacent<T>(xs: seq<T>, i: int, j: int, k: int)
    requires i <= j <= k && 0 <= j
    ensures ClampSlice(xs, i, j) + ClampSlice(xs, j, k) == ClampSlice(xs, i, k)
  {
    var a, b, c := ClampSlice(xs, i, j), ClampSlice(xs, j, k), ClampSlice(xs, i, k);
    assert |a + b| == |c|;
    forall t | 0 <= t < |c| ensures (a + b)[t] == c[t] {
      if t >= |a| {
        assert Max(j, 0) + (t - |a|) == Max(i, 0) + t;
      }
    }
  }
}

=== FILE: string_provider.dfy ===
/** The string provider: string/main.go's table of seventeen functions over a
    required string parameter `s`. Unicode case mapping and strings.Trim come
    from the Go library and are passed in; everything else is modelled. */
module StringProvider {

  import opened Wrappers
  import opened ByteStrings
  import opened Json
  import opened Coerce
  import opened Protocol
  import GoStrings
  import Utf8
  import Slicing

  datatype Op =
    | Upper | Lower | Title | Trim | TrimPrefix | TrimSuffix | Split | Join | Replace | ReplaceAll
    | Contains | HasPrefix | HasSuffix | Slice | Repeat | Reverse | Length

  /** The library calls the model does not spell out: strings.ToUpper,
      strings.ToLower, strings.Title and strings.Trim(s, cutset). */
  datatype Library = Library(
    upper: Bytes -> Bytes,
    lower: Bytes -> Bytes,
    title: Bytes -> Bytes,
    trim: (Bytes, Bytes) -> Bytes,
    printer: Printer)

  /** The case label each operation is registered under. */
  function Name(op: Op): Bytes {
    match op
    case Upper => "upper"
    case Lower => "lower"
    case Title => "title"
    case Trim => "trim"
    case TrimPrefix => "trimPrefix"
    case TrimSuffix => "trimSuffix"
    case Split => "split"
    case Join => "join"
    case Replace => "replace"
    case ReplaceAll => "replaceAll"
    case Contains => "contains"
    case HasPrefix => "hasPrefix"
    case HasSuffix => "hasSuffix"
    case Slice => "slice"
    case Repeat => "repeat"
    case Reverse => "reverse"
    case Length => "length"
  }

  /** The exact-match switch of `main`. */
  function Lookup(name: Bytes): (r: Option<Op>)
    ensures r.Some? ==> Name(r.value) == name
  {
    if name == "upper" then Some(Upper)
    else if name == "lower" then Some(Lower)
    else if name == "title" then Some(Title)
    else if name == "trim" then Some(Trim)
    else if name == "trimPrefix" then Some(TrimPrefix)
    else if name == "trimSuffix" then Some(TrimSuffix)
    else if name == "split" then Some(Split)
    else if name == "join" then Some(Join)
    else if name == "replace" then Some(Replace)
    else if name == "replaceAll" then Some(ReplaceAll)
    else if name == "contains" then Some(Contains)
    else if name == "hasPrefix" then Some(HasPrefix)
    else if name == "hasSuffix" then Some(HasSuffix)
    else if name == "slice" then Some(Slice)
    else if name == "repeat" then Some(Repeat)
    else if name == "reverse" then Some(Reverse)
    else if name == "length" then Some(Length)
    else None
  }

  /** Every operation is reachable under its own name, and only there. */
  lemma LookupName(op: Op, name: Bytes)
    ensures Lookup(Name(op)) == Some(op)
    ensures Lookup(name) == Some(op) <==> name == Name(op)
  {
  }

  // ---------------------------------------------------------------------------
  // Parameters

  const SRequired: Bytes := "s parameter required"

  /** The `s` argument; "" stands for absent, wrong-typed and empty alike. */
  function Subject(params: Params): Bytes {
    GetString(params, "s", "")
  }

  function SliceStart(params: Params): int
    requires IntConvertible(params, "start")
  {
    GetInt(params, "start", 0)
  }

  function SliceEnd(params: Params): int
    requires IntConvertible(params, "end")
  {
    GetInt(params, "end", |Subject(params)|)
  }

  /** The request does not drive the Go code into a panic or into a
      platform-defined float conversion. */
  predicate Defined(op: Op, params: Params) {
    match op
    case Replace => IntConvertible(params, "n")
    case Slice =>
      && IntConvertible(params, "start") && IntConvertible(params, "end")
      && (Subject(params) != [] ==> SliceEnd(params) >= 0)
    case Repeat => IntConvertible(params, "count")
    case _ => true
  }

  /** Every operation but join needs `s`. */
  predicate TakesSubject(op: Op) {
    op != Join
  }

  // ---------------------------------------------------------------------------
  // Handlers

  /** upper, lower and title: a library mapping of `s`. */
  function HandleCaseMap(params: Params, f: Bytes -> Bytes): (o: Outcome)
    ensures Subject(params) == [] ==> o == Err(SRequired)
    ensures Subject(params) != [] ==> o == Ok(JStr(f(Subject(params))), StringTag)
  {
    var s := Subject(params);
    if s == [] then Err(SRequired) else Ok(JStr(f(s)), StringTag)
  }

  function HandleTrim(params: Params, trim: (Bytes, Bytes) -> Bytes): (o: Outcome)
    ensures Subject(params) == [] ==> o == Err(SRequired)
    ensures Subject(params) != [] ==>
              o == Ok(JStr(trim(Subject(params), GetString(params, "cutset", " \t\n\r"))), StringTag)
  {
    var s := Subject(params);
    if s == [] then Err(SRequired)
    else Ok(JStr(trim(s, GetString(params, "cutset", " \t\n\r"))), StringTag)
  }

  function HandleTrimPrefix(params: Params): (o: Outcome)
    ensures Subject(params) == [] ==> o == Err(SRequired)
    ensures Subject(params) != [] && GetString(params, "prefix", "") == [] ==>
              o == Err("prefix parameter required")
    ensures o.Ok? ==> o.tag == StringTag && o.value.JStr?
    ensures o.Ok? ==> var s, p := Subject(params), GetString(params, "prefix", "");
              if p <= s then p + o.value.s == s else o.value.s == s
  {
    var s := Subject(params);
    if s == [] then Err(SRequired)
    else
      var prefix := GetString(params, "prefix", "");
      if prefix == [] then Err("prefix parameter required")
      else Ok(JStr(GoStrings.TrimPrefix(s, prefix)), StringTag)
  }

  function HandleTrimSuffix(params: Params): (o: Outcome)
    ensures Subject(params) == [] ==> o == Err(SRequired)
    ensures Subject(params) != [] && GetString(params, "suffix", "") == [] ==>
              o == Err("suffix parameter required")
    ensures o.Ok? ==> o.tag == StringTag && o.value.JStr?
    ensures o.Ok? ==> var s, x := Subject(params), GetString(params, "suffix", "");
              if GoStrings.HasSuffix(s, x) then o.value.s + x == s else o.value.s == s
  {
    var s := Subject(params);
    if s == [] then Err(SRequired)
    else
      var suffix := GetString(params, "suffix", "");
      if suffix == [] then Err("suffix parameter required")
      else Ok(JStr(GoStrings.TrimSuffix(s, suffix)), StringTag)
  }

  /** split: the pieces of `s` between the leftmost occurrences of `sep`
      (default ","), which joined with `sep` give `s` back; with an empty
      `sep`, one piece per UTF-8 sequence. By GoStrings.SplitUnique these
      are the only such pieces. */
  function HandleSplit(params: Params): (o: Outcome)
    ensures Subject(params) == [] <==> o.Err?
    ensures o.Err? ==> o.message == SRequired
    ensures o.Ok? ==> o.tag == ListTag
    ensures o.Ok? ==> exists pieces :: o.value == JArr(StrValues(pieces))
                        && GoStrings.IsSplit(Subject(params), GetString(params, "sep", ","), pieces)
  {
    var s := Subject(params);
    if s == [] then Err(SRequired)
    else
      var pieces := GoStrings.Split(s, GetString(params, "sep", ","));
      Ok(JArr(StrValues(pieces)), ListTag)
  }

  /** join: fmt.Sprint of each item, joined with `sep` (default ","). Unlike
      the list provider's join, the separator key is "sep". */
  function HandleJoin(params: Params, printer: Printer): (o: Outcome)
    ensures GetList(params, "items").None? <==> o.Err?
    ensures o.Err? ==> o.message == "items parameter required and must be a list"
    ensures o.Ok? ==> o.tag == StringTag
    ensures o.Ok? ==> o.value == JStr(GoStrings.Join(SprintAll(printer, params["items"].items),
                                                     GetString(params, "sep", ",")))
  {
    match GetList(params, "items")
    case None => Err("items parameter required and must be a list")
    case Some(items) => Ok(JStr(GoStrings.Join(SprintAll(printer, items), GetString(params, "sep", ","))), StringTag)
  }

  /** replace: the first n (default 1; negative for all) occurrences of `old`
      replaced by `new` (default ""). */
  function HandleReplace(params: Params): (o: Outcome)
    requires IntConvertible(params, "n")
    ensures Subject(params) == [] ==> o == Err(SRequired)
    ensures Subject(params) != [] && GetString(params, "old", "") == [] ==> o == Err("old parameter required")
    ensures o.Ok? ==> o.tag == StringTag
    ensures o.Ok? && GetInt(params, "n", 1) == 0 ==> o.value == JStr(Subject(params))
    ensures o.Ok? && GetString(params, "new", "") == GetString(params, "old", "") ==> o.value == JStr(Subject(params))
    ensures o.Ok? ==> var s, target, n := Subject(params), GetString(params, "old", ""), GetInt(params, "n", 1);
              var pieces, m := GoStrings.SplitOn(s, target), GoStrings.ReplacedCount(s, target, n);
              o.value == JStr(GoStrings.Join(pieces[..m] + [GoStrings.Join(pieces[m..], target)], GetString(params, "new", "")))
  {
    var s := Subject(params);
    if s == [] then Err(SRequired)
    else
      var target := GetString(params, "old", "");
      if target == [] then Err("old parameter required")
      else
        var replacement := GetString(params, "new", "");
        var n := GetInt(params, "n", 1);
        GoStrings.ReplaceIsPartialSplitJoin(s, target, replacement, n);
        if replacement == target then GoStrings.ReplaceSelf(s, target, n); Ok(JStr(GoStrings.Replace(s, target, replacement, n)), StringTag)
        else Ok(JStr(GoStrings.Replace(s, target, replacement, n)), StringTag)
  }

  /** replaceAll: every occurrence of `old` replaced by `new`, which is `s`
      split at `old` and joined with `new`. */
  function HandleReplaceAll(params: Params): (o: Outcome)
    ensures Subject(params) == [] ==> o == Err(SRequired)
    ensures Subject(params) != [] && GetString(params, "old", "") == [] ==> o == Err("old parameter required")
    ensures o.Ok? ==> o.tag == StringTag
    ensures o.Ok? ==> o.value == JStr(GoStrings.Join(GoStrings.Split(Subject(params), GetString(params, "old", "")),
                                                     GetString(params, "new", "")))
  {
    var s := Subject(params);
    if s == [] then Err(SRequired)
    else
      var target := GetString(params, "old", "");
      if target == [] then Err("old parameter required")
      else
        var replacement := GetString(params, "new", "");
        GoStrings.ReplaceAllIsSplitJoin(s, target, replacement);
        Ok(JStr(GoStrings.Replace(s, target, replacement, -1)), StringTag)
  }

  function HandleContains(params: Params): (o: Outcome)
    ensures Subject(params) == [] ==> o == Err(SRequired)
    ensures Subject(params) != [] && GetString(params, "substr", "") == [] ==> o == Err("substr parameter required")
    ensures o.Ok? ==> o.tag == BoolTag && o.value.JBool?
    ensures o.Ok? ==> (o.value.b <==> exists i :: GoStrings.OccursAt(Subject(params), GetString(params, "substr", ""), i))
  {
    var s := Subject(params);
    if s == [] then Err(SRequired)
    else
      var substr := GetString(params, "substr", "");
      if substr == [] then Err("substr parameter required")
      else Ok(JBool(GoStrings.Contains(s, substr)), BoolTag)
  }

  function HandleHasPrefix(params: Params): (o: Outcome)
    ensures Subject(params) == [] ==> o == Err(SRequired)
    ensures Subject(params) != [] && GetString(params, "prefix", "") == [] ==> o == Err("prefix parameter required")
    ensures o.Ok? ==> o.tag == BoolTag && o.value.JBool?
    ensures o.Ok? ==> var s, p := Subject(params), GetString(params, "prefix", "");
              (o.value.b <==> |p| <= |s| && forall i :: 0 <= i < |p| ==> s[i] == p[i])
  {
    var s := Subject(params);
    if s == [] then Err(SRequired)
    else
      var prefix := GetString(params, "prefix", "");
      if prefix == [] then Err("prefix parameter required")
      else Ok(JBool(GoStrings.HasPrefix(s, prefix)), BoolTag)
  }

  function HandleHasSuffix(params: Params): (o: Outcome)
    ensures Subject(params) == [] ==> o == Err(SRequired)
    ensures Subject(params) != [] && GetString(params, "suffix", "") == [] ==> o == Err("suffix parameter required")
    ensures o.Ok? ==> o.tag == BoolTag && o.value.JBool?
    ensures o.Ok? ==> var s, x := Subject(params), GetString(params, "suffix", "");
              (o.value.b <==> |x| <= |s| && forall i :: 0 <= i < |x| ==> s[|s| - |x| + i] == x[i])
  {
    var s := Subject(params);
    if s == [] then Err(SRequired)
    else
      var suffix := GetString(params, "suffix", "");
      if suffix == [] then Err("suffix parameter required")
      else
        assert GoStrings.HasSuffix(s, suffix) <==> |suffix| <= |s| && forall i :: 0 <= i < |suffix| ==> s[|s| - |suffix| + i] == suffix[i] by {
          if |suffix| <= |s| && forall i :: 0 <= i < |suffix| ==> s[|s| - |suffix| + i] == suffix[i] {
            assert s[|s| - |suffix|..] == suffix;
          }
        }
        Ok(JBool(GoStrings.HasSuffix(s, suffix)), BoolTag)
  }

  /** slice: the bytes of `s` from the clamped start to the clamped end
      (default len(s)); byte-indexed, so it may cut a UTF-8 sequence. */
  function HandleSlice(params: Params): (o: Outcome)
    requires Defined(Slice, params)
    ensures Subject(params) == [] <==> o.Err?
    ensures o.Err? ==> o.message == SRequired
    ensures o.Ok? ==> o.tag == StringTag && o.value.JStr?
    ensures o.Ok? ==> var s, lo, hi := Subject(params), Slicing.Max(SliceStart(params), 0), Slicing.Min(SliceEnd(params), |Subject(params)|);
              && |o.value.s| == Slicing.Max(0, hi - lo)
              && forall t :: 0 <= t < |o.value.s| ==> o.value.s[t] == s[lo + t]
  {
    var s := Subject(params);
    if s == [] then Err(SRequired)
    else Ok(JStr(Slicing.ClampSlice(s, SliceStart(params), SliceEnd(params))), StringTag)
  }

  /** repeat: `count` (default 1) copies of `s`, for a count in 0..10000. */
  function HandleRepeat(params: Params): (o: Outcome)
    requires IntConvertible(params, "count")
    ensures Subject(params) == [] ==> o == Err(SRequired)
    ensures Subject(params) != [] && GetInt(params, "count", 1) < 0 ==> o == Err("count must be non-negative")
    ensures Subject(params) != [] && GetInt(params, "count", 1) > 10000 ==> o == Err("count too large (max 10000)")
    ensures o.Ok? <==> Subject(params) != [] && 0 <= GetInt(params, "count", 1) <= 10000
    ensures o.Ok? ==> o.tag == StringTag && o.value.JStr?
    ensures o.Ok? ==> |o.value.s| == |Subject(params)| * GetInt(params, "count", 1)
  {
    var s := Subject(params);
    if s == [] then Err(SRequired)
    else
      var count := GetInt(params, "count", 1);
      if count < 0 then Err("count must be non-negative")
      else if count > 10000 then Err("count too large (max 10000)")
      else Ok(JStr(GoStrings.Repeat(s, count)), StringTag)
  }

  /** reverse: the runes of `s` in reverse order. */
  function HandleReverse(params: Params): (o: Outcome)
    ensures Subject(params) == [] <==> o.Err?
    ensures o.Err? ==> o.message == SRequired
    ensures o.Ok? ==> o.tag == StringTag && o.value.JStr?
    ensures o.Ok? ==> Utf8.Valid(o.value.s)
    ensures o.Ok? ==> |Utf8.Decode(o.value.s)| == |Utf8.Decode(Subject(params))|
    ensures o.Ok? && Utf8.Valid(Subject(params)) ==> GoStrings.Reverse(o.value.s) == Subject(params)
  {
    var s := Subject(params);
    if s == [] then Err(SRequired)
    else
      GoStrings.ReverseShape(s);
      GoStrings.ReverseTwice(s);
      Ok(JStr(GoStrings.Reverse(s)), StringTag)
  }

  /** length: the byte length of `s`, not its rune count. */
  function HandleLength(params: Params): (o: Outcome)
    ensures Subject(params) == [] <==> o.Err?
    ensures o.Err? ==> o.message == SRequired
    ensures o.Ok? ==> o == Ok(JNum(|Subject(params)| as real), IntTag)
  {
    var s := Subject(params);
    if s == [] then Err(SRequired) else Ok(JNum(|s| as real), IntTag)
  }

  function Apply(op: Op, params: Params, lib: Library): (o: Outcome)
    requires Defined(op, params)
    ensures o.Err? ==> o.message != []
    ensures TakesSubject(op) && Subject(params) == [] ==> o == Err(SRequired)
  {
    match op
    case Upper => HandleCaseMap(params, lib.upper)
    case Lower => HandleCaseMap(params, lib.lower)
    case Title => HandleCaseMap(params, lib.title)
    case Trim => HandleTrim(params, lib.trim)
    case TrimPrefix => HandleTrimPrefix(params)
    case TrimSuffix => HandleTrimSuffix(params)
    case Split => HandleSplit(params)
    case Join => HandleJoin(params, lib.printer)
    case Replace => HandleReplace(params)
    case ReplaceAll => HandleReplaceAll(params)
    case Contains => HandleContains(params)
    case HasPrefix => HandleHasPrefix(params)
    case HasSuffix => HandleHasSuffix(params)
    case Slice => HandleSlice(params)
    case Repeat => HandleRepeat(params)
    case Reverse => HandleReverse(params)
    case Length => HandleLength(params)
  }

  /** The request names no operation, or one it can run without a panic. */
  predicate Runs(req: Request) {
    match Lookup(req.name)
    case None => true
    case Some(op) => Defined(op, req.params)
  }

  /** One invocation of the string provider. */
  function Run(input: Input, lib: Library, written: bool): (e: Exit)
    requires input.Decoded? ==> Runs(input.request)
    ensures Exclusive(e.response)
    ensures e.status == 1 <==> e.response.error != [] || !written
    ensures input.Decoded? && Lookup(input.request.name).None? ==>
              e.response.error == UnknownFunction(input.request.name)
    ensures input.Decoded? && Lookup(input.request.name).Some? ==>
              e == Send(Apply(Lookup(input.request.name).value, input.request.params, lib), ExitOnWriteFailure, written)
  {
    var handle := (op: Op, req: Request) requires Defined(op, req.params) => Apply(op, req.params, lib);
    RunExclusive(input, Lookup, handle, ExitOnWriteFailure, written);
    Protocol.Run(input, Lookup, handle, ExitOnWriteFailure, written)
  }

  // ---------------------------------------------------------------------------
  // Properties across calls

  /** Reversing the reversed string gives back the original, for any string
      the JSON decoder can produce. */
  lemma ReverseHandlerTwice(params: Params)
    requires Subject(params) != [] && Utf8.Valid(Subject(params))
    ensures var once := HandleReverse(params).value;
            HandleReverse(map["s" := once]) == Ok(JStr(Subject(params)), StringTag)
  {
    var s := Subject(params);
    GoStrings.ReverseTwice(s);
    GoStrings.ReverseShape(s);
  }

  /** Splitting and joining with the same separator are inverse: join of the
      split pieces is the original string. */
  lemma SplitThenJoin(s: Bytes, sep: Bytes, printer: Printer)
    requires s != []
    ensures var pieces := HandleSplit(map["s" := JStr(s), "sep" := JStr(sep)]).value;
            HandleJoin(map["items" := pieces, "sep" := JStr(sep)], printer) == Ok(JStr(s), StringTag)
  {
    var p1 := map["s" := JStr(s), "sep" := JStr(sep)];
    assert Subject(p1) == s && GetString(p1, "sep", ",") == sep;
    var o := HandleSplit(p1);
    var parts :| o.value == JArr(StrValues(parts)) && GoStrings.IsSplit(s, sep, parts);
    JoinOfStrings(parts, sep, printer);
  }

  /** join of a list of strings is strings.Join of the strings. */
  lemma JoinOfStrings(parts: seq<Bytes>, sep: Bytes, printer: Printer)
    ensures HandleJoin(map["items" := JArr(StrValues(parts)), "sep" := JStr(sep)], printer)
         == Ok(JStr(GoStrings.Join(parts, sep)), StringTag)
  {
    var items := StrValues(parts);
    var p2 := map["items" := JArr(items), "sep" := JStr(sep)];
    assert GetList(p2, "items") == Some(items) && GetString(p2, "sep", ",") == sep;
    assert SprintAll(printer, items) == parts;
  }

  /** Occurrences are taken leftmost first: "aaa" split at "aa" is "" and
      "a", not "a" and "". */
  lemma SplitTakesLeftmost()
    ensures HandleSplit(map["s" := JStr("aaa"), "sep" := JStr("aa")]) == Ok(JArr([JStr(""), JStr("a")]), ListTag)
  {
    var p := map["s" := JStr("aaa"), "sep" := JStr("aa")];
    assert Subject(p) == "aaa" && GetString(p, "sep", ",") == "aa";
    GoStrings.SplitLeftmostExample();
    assert StrValues([[], "a"]) == [JStr(""), JStr("a")];
  }
}

=== FILE: utf8.dfy ===
/** UTF-8 as Go's unicode/utf8 package reads and writes it: the conversions
    `[]rune(s)` and `string(runes)` the string provider's reverse goes through,
    and the rune boundaries strings.Split uses for an empty separator. */
module Utf8 {

  import opened ByteStrings

  /** A Unicode scalar value, which is what a decoded Go rune always holds. */
  type Rune = r: int | 0 <= r < 0x11_0000 && !(0xD800 <= r < 0xE000)

  /** U+FFFD, what Go decodes an ill-formed byte to. */
  const RuneError: Rune := 0xFFFD

  predicate IsContinuation(b: byte) {
    0x80 <= b as int < 0xC0
  }

  /** The range Go's decoder accepts for the byte after lead byte b0; the
      narrower ranges rule out overlong forms, surrogates and values past
      U+10FFFF. */
  predicate SecondInRange(b0: int, b1: int) {
    if b0 == 0xE0 then 0xA0 <= b1 < 0xC0
    else if b0 == 0xED then 0x80 <= b1 < 0xA0
    else if b0 == 0xF0 then 0x90 <= b1 < 0xC0
    else if b0 == 0xF4 then 0x80 <= b1 < 0x90
    else 0x80 <= b1 < 0xC0
  }

  /** The length of the well-formed encoding s starts with, or 0 when s does
      not start with one. */
  function HeadWidth(s: Bytes): (w: nat)
    ensures w <= 4 && w <= |s|
    ensures |s| > 0 && s[0] as int < 0x80 ==> w == 1
  {
    if |s| == 0 then 0
    else
      var b0 := s[0] as int;
      if b0 < 0x80 then 1
      else if 0xC2 <= b0 < 0xE0 then
        (if |s| >= 2 && IsContinuation(s[1]) then 2 else 0)
      else if 0xE0 <= b0 < 0xF0 then
        (if |s| >= 3 && SecondInRange(b0, s[1] as int) && IsContinuation(s[2]) then 3 else 0)
      else if 0xF0 <= b0 < 0xF5 then
        (if |s| >= 4 && SecondInRange(b0, s[1] as int) && IsContinuation(s[2]) && IsContinuation(s[3])
         then 4 else 0)
      else 0
  }

  /** The scalar value of the well-formed encoding at the head of s. */
  function HeadValue(s: Bytes): Rune
    requires HeadWidth(s) > 0
  {
    var w := HeadWidth(s);
    if w == 1 then s[0] as int
    else if w == 2 then (s[0] as int - 0xC0) * 64 + (s[1] as int - 0x80)
    else if w == 3 then
      (s[0] as int - 0xE0) * 4096 + (s[1] as int - 0x80) * 64 + (s[2] as int - 0x80)
    else
      (s[0] as int - 0xF0) * 262144 + (s[1] as int - 0x80) * 4096
      + (s[2] as int - 0x80) * 64 + (s[3] as int - 0x80)
  }

  /** utf8.DecodeRune on a non-empty string: the rune at the head and its
      width; an ill-formed head decodes to U+FFFD of width 1. */
  function DecodeRune(s: Bytes): (d: (Rune, nat))
    requires |s| > 0
    ensures 1 <= d.1 <= |s|
    ensures HeadWidth(s) > 0 ==> d == (HeadValue(s), HeadWidth(s))
    ensures HeadWidth(s) == 0 ==> d == (RuneError, 1)
  {
    if HeadWidth(s) == 0 then (RuneError, 1) else (HeadValue(s), HeadWidth(s))
  }

  /** The conversion `[]rune(s)`: at most one rune per byte, and at least
      one for a non-empty string. */
  function Decode(s: Bytes): (rs: seq<Rune>)
    ensures |rs| <= |s|
    ensures rs == [] <==> s == []
    decreases |s|
  {
    if s == [] then [] else [DecodeRune(s).0] + Decode(s[DecodeRune(s).1..])
  }

  /** utf8.EncodeRune: the shortest encoding of a scalar value. */
  function EncodeRune(r: Rune): (e: Bytes)
    ensures 1 <= |e| <= 4
  {
    if r < 0x80 then [r as char]
    else if r < 0x800 then [(0xC0 + r / 64) as char, (0x80 + r % 64) as char]
    else if r < 0x1_0000 then
      var q := r / 64;
      [(0xE0 + q / 64) as char, (0x80 + q % 64) as char, (0x80 + r % 64) as char]
    else
      var q := r / 64;
      var q2 := q / 64;
      [(0xF0 + q2 / 64) as char, (0x80 + q2 % 64) as char, (0x80 + q % 64) as char,
       (0x80 + r % 64) as char]
  }

  /** The conversion `string(runes)`: one to four bytes per rune. */
  function Encode(rs: seq<Rune>): (e: Bytes)
    ensures |rs| <= |e| <= 4 * |rs|
  {
    if rs == [] then [] else EncodeRune(rs[0]) + Encode(rs[1..])
  }

  /** s is well-formed UTF-8, as every string Go's JSON decoder produces is. */
  predicate Valid(s: Bytes)
    decreases |s|
  {
    s == [] || (HeadWidth(s) > 0 && Valid(s[HeadWidth(s)..]))
  }

  // ---------------------------------------------------------------------------
  // Encoding and decoding are inverse

  /** Decoding the encoding of a rune, whatever follows it, gives back the rune
      and the encoding's length. */
  lemma EncodeRuneDecodes(r: Rune, rest: Bytes)
    ensures HeadWidth(EncodeRune(r) + rest) == |EncodeRune(r)|
    ensures HeadValue(EncodeRune(r) + rest) == r
  {
    var e := EncodeRune(r);
    var s := e + rest;
    assert s[..|e|] == e;
    if r >= 0x800 && r < 0x1_0000 {
      var q := r / 64;
      assert r == 64 * q + r % 64;
      assert q == 64 * (q / 64) + q % 64;
    } else if r >= 0x1_0000 {
      var q := r / 64;
      var q2 := q / 64;
      assert r == 64 * q + r % 64;
      assert q == 64 * q2 + q % 64;
      assert q2 == 64 * (q2 / 64) + q2 % 64;
    }
  }

  /** Re-encoding the rune at a well-formed head reproduces its bytes. */
  lemma HeadReencodes(s: Bytes)
    requires HeadWidth(s) > 0
    ensures EncodeRune(HeadValue(s)) == s[..HeadWidth(s)]
  {
    var w := HeadWidth(s);
    var r := HeadValue(s);
    if w == 2 {
      DivMod64(r, s[0] as int - 0xC0, s[1] as int - 0x80);
    } else if w == 3 {
      var q := (s[0] as int - 0xE0) * 64 + (s[1] as int - 0x80);
      DivMod64(r, q, s[2] as int - 0x80);
      DivMod64(q, s[0] as int - 0xE0, s[1] as int - 0x80);
    } else if w == 4 {
      var q2 := (s[0] as int - 0xF0) * 64 + (s[1] as int - 0x80);
      var q := q2 * 64 + (s[2] as int - 0x80);
      DivMod64(r, q, s[3] as int - 0x80);
      DivMod64(q, q2, s[2] as int - 0x80);
      DivMod64(q2, s[0] as int - 0xF0, s[1] as int - 0x80);
    }
  }

  lemma DivMod64(x: int, q: int, m: int)
    requires 0 <= m < 64 && x == 64 * q + m
    ensures x / 64 == q && x % 64 == m
  {
  }

  lemma {:induction false} EncodeAppend(a: seq<Rune>, b: seq<Rune>)
    ensures Encode(a + b) == Encode(a) + Encode(b)
  {
    if a != [] {
      assert (a + b)[0] == a[0];
      assert (a + b)[1..] == a[1..] + b;
      EncodeAppend(a[1..], b);
      calc {
        Encode(a + b);
        EncodeRune(a[0]) + Encode(a[1..] + b);
        EncodeRune(a[0]) + (Encode(a[1..]) + Encode(b));
        (EncodeRune(a[0]) + Encode(a[1..])) + Encode(b);
      }
    } else {
      assert a + b == b;
    }
  }

  /** `[]rune(string(rs)) == rs`: every rune sequence survives a round trip. */
  lemma {:induction false} DecodeEncode(rs: seq<Rune>)
    ensures Decode(Encode(rs)) == rs
  {
    if rs != [] {
      var e := EncodeRune(rs[0]);
      var s := Encode(rs);
      EncodeRuneDecodes(rs[0], Encode(rs[1..]));
      assert s[|e|..] == Encode(rs[1..]);
      DecodeEncode(rs[1..]);
    }
  }

  /** `string([]rune(s)) == s` for well-formed s. */
  lemma {:induction false} EncodeDecode(s: Bytes)
    requires Valid(s)
    ensures Encode(Decode(s)) == s
    decreases |s|
  {
    if s != [] {
      var w := HeadWidth(s);
      DecodeHead(s);
      EncodeCons(HeadValue(s), Decode(s[w..]));
      HeadReencodes(s);
      EncodeDecode(s[w..]);
      assert s[..w] + s[w..] == s;
    }
  }

  /** Decoding a well-formed head takes one rune and moves past its bytes. */
  lemma DecodeHead(s: Bytes)
    requires HeadWidth(s) > 0
    ensures Decode(s) == [HeadValue(s)] + Decode(s[HeadWidth(s)..])
  {
  }

  lemma EncodeCons(r: Rune, rest: seq<Rune>)
    ensures Encode([r] + rest) == EncodeRune(r) + Encode(rest)
  {
    assert ([r] + rest)[1..] == rest;
  }

  /** The round trip through runes is the identity exactly on well-formed
      strings: an ill-formed byte comes back as the three bytes of U+FFFD. */
  lemma RoundTripIffValid(s: Bytes)
    ensures Encode(Decode(s)) == s <==> Valid(s)
  {
    EncodeValid(Decode(s));
    if Valid(s) {
      EncodeDecode(s);
    }
  }

  /** Whatever runes are encoded, the result is well-formed. */
  lemma {:induction false} EncodeValid(rs: seq<Rune>)
    ensures Valid(Encode(rs))
  {
    if rs != [] {
      var e := EncodeRune(rs[0]);
      EncodeRuneDecodes(rs[0], Encode(rs[1..]));
      assert Encode(rs)[|e|..] == Encode(rs[1..]);
      EncodeValid(rs[1..]);
    }
  }
}

=== FILE: wrappers.dfy ===
/** The optional value used wherever the providers' Go code tests `ok` after a lookup. */
module Wrappers {

  datatype Option<+T> = None | Some(value: T) {

    /** The held value, or `default` when there is none. */
    function GetOr(default: T): T {
      match this
      case Some(v) => v
      case None => default
    }
  }
}
